=== FILE: README.md ===
# Artie Apparel: a Dafny model of the app's core

Artie Apparel is an Expo (React Native) storefront for printed designs and
garments, backed by Firebase. This project models, as pure Dafny functions
over immutable data, the parts of it that decide what is stored, shown and
sent:

- **Saved designs** (`lib/savedDesigns.ts`): listing a user's saved designs
  newest first, saving a design at most once per product, and removing one.
  The hooks `useSavedDesigns` and `useSaveDesign` are modelled as state
  transitions around those calls.
- **The design-to-product conversion** (`designToDesignProduct` in `lib/designs.ts`).
- **The catalog**:
  - reading design and garment documents back (`hooks/useCatalogFromFirestore.ts`);
  - the hook's load state;
  - writing new documents (`lib/catalogFirestore.ts`).
- **The seed script** (`scripts/seed-firestore.js`): argument parsing, the
  generated documents, and batching at 400 writes per batch.
- **The cloud functions** (`functions/src/index.ts`, `functions/src/email.ts`):
  - the mail configuration;
  - the Stripe PaymentIntent callable and webhook;
  - the password-reset and verification callables with their email pattern;
  - the welcome trigger;
  - the three HTML emails and their escaping.
- **Authentication**:
  - the `useAuth` hook's error messages and its `loading`/`error` discipline;
  - the sign-in screen's `handleSubmit` and mode changes (`app/user-auth-page.tsx`).
- **Theming**: the theme-variable conversion (`lib/themeColors.ts`) and the
  persisted light/dark context (`contexts/ThemeContext.tsx`).
- **The checkout modal's** item count, label, empty notice, pay button and
  remove callback (`components/checkout.tsx`).

Each source module becomes one Dafny module:

- `Core`, `Json`, `Product` and `Text` hold the shared vocabulary: options, results, JSON-like values, the catalog types, and string helpers with their own lemmas.
- The other modules follow the source files one to one.

**External calls become parameters.** Firestore reads arrive as a snapshot
(a sequence of documents). The outcome of each awaited remote call is passed
in as a `Result` or `Outcome`. This covers Firestore queries, writes and deletes, the
seed script's batch commits, Firebase Auth, Stripe's signature check, Resend
and Admin SDK link generation. The two exceptions are listed under
"Left out": the PaymentIntent that Stripe creates, and the theme write to
AsyncStorage, which is not awaited. Server timestamps,
fresh document ids, the current date, `Math.random` shuffles and faker values
are also parameters. Each operation returns the new state together with the
request it makes.

**Saved designs change only after the store has changed.**
- Removal is not optimistic. `remove` in `hooks/useSavedDesigns.ts` filters the list only after the delete has succeeded; a failure leaves the list alone and records an error.
- There is no optimistic add and no rollback: `useSaveDesign` only reports the result.
- `RemoveNotOptimistic` states this.

## Model

| member | source | states |
|---|---|---|
| Json.Strs | lib/savedDesigns.ts:102 | A string array stored as JSON holds exactly the given strings, in order. |
| Designs.DesignToDesignProduct | lib/designs.ts:119-130 | The product carries the design's id as `productId` and copies name, description, price, amount, image, categories and sku unchanged. |
| Designs.ProductIgnoresMetadata | lib/designs.ts:119-130 | Two designs give the same product exactly when they agree on the eight product fields; author, dates, tags and the active flag never matter. |
| SavedDesigns.AsMap | lib/savedDesigns.ts:113-119 | The subcollection seen as a map from document id to data has exactly the documents' ids as keys. |
| SavedDesigns.KeepWellFormedMembers | lib/savedDesigns.ts:50-64 | An entry survives the filter exactly when some document with an object product that has a truthy `productId` and `name` converts to it. |
| SavedDesigns.InsertPermutes | lib/savedDesigns.ts:65-69 | Inserting an entry during the sort adds exactly that entry and loses none. |
| SavedDesigns.InsertNoneAfter | lib/savedDesigns.ts:65-69 | Inserting an entry no newer than a bound keeps every entry at or below that bound. |
| SavedDesigns.ConsNewestFirst | lib/savedDesigns.ts:65-69 | An entry placed before a newest-first list that holds nothing newer than it keeps the list newest first. |
| SavedDesigns.InsertSorted | lib/savedDesigns.ts:65-69 | Insertion into a newest-first list keeps it newest first. |
| SavedDesigns.SortNewestFirst | lib/savedDesigns.ts:65-69 | The sort by `savedAt` milliseconds (missing counts as 0) is descending and a permutation of its input. |
| SavedDesigns.GetSavedDesignsForUser | lib/savedDesigns.ts:45-71 | The listing is newest first and holds exactly the well-formed documents' entries, each once per document. |
| SavedDesigns.InsertAheadOfTies | lib/savedDesigns.ts:65-69 | Inserting an entry places it before the entries saved at the same millisecond. |
| SavedDesigns.SortStable | lib/savedDesigns.ts:65-69 | The sort is stable: entries saved at the same millisecond, including all those without `savedAt`, keep their input order. |
| SavedDesigns.ListingStable | lib/savedDesigns.ts:45-71 | Listed entries saved at the same millisecond appear in snapshot order. |
| SavedDesigns.ListedExactly | lib/savedDesigns.ts:50-64 | An entry is listed if and only if some well-formed document of the snapshot converts to it. |
| SavedDesigns.ListedEntryFields | lib/savedDesigns.ts:57-62 | A listed entry has its document's id and product, and the top-level `productId` when present or else the product's own. |
| SavedDesigns.EncodeProductRoundTrip | lib/savedDesigns.ts:95-104 | The stored product snapshot decodes back to the product, with missing amount and sku stored as null. |
| SavedDesigns.FindByProductId | lib/savedDesigns.ts:84-92 | The query finds nothing exactly when no document's `productId` equals the product's id; a hit names such a document. |
| SavedDesigns.CountProductAppend | lib/savedDesigns.ts:84-92 | Counting a product's documents adds up over an appended document. |
| SavedDesigns.CountProductNone | lib/savedDesigns.ts:84-92 | When the query finds no document, the product has none. |
| SavedDesigns.SaveDesignForUser | lib/savedDesigns.ts:79-108 | An existing entry's reference is returned and nothing is written. Otherwise exactly one new document is added under the fresh id, placed last in the sequence. Distinct ids stay distinct, and the returned reference is always in the subcollection. |
| SavedDesigns.SaveDesignForUserWith | lib/savedDesigns.ts:79-108 | A failed query rejects with its error and writes nothing. A match returns its reference without writing. Otherwise a failed `addDoc` rejects and writes nothing, and a successful one returns the fresh id with the new document added, placed last in the sequence. |
| SavedDesigns.SaveChangesOnlyOnSuccess | lib/savedDesigns.ts:79-108 | The subcollection changes only when both calls succeed, and then only by the one new document under the returned id, placed last in the sequence; a rejection leaves it unchanged. |
| SavedDesigns.SaveAsMap | lib/savedDesigns.ts:84-106 | Without the sequence order: a save that finds an entry changes nothing; otherwise the id-keyed map gains exactly the fresh id, which was absent, with the new document, and the documents as a multiset gain exactly that one document. |
| SavedDesigns.SavedDocumentContents | lib/savedDesigns.ts:93-106 | A new document has the fresh id, the product id at the top level, a snapshot that decodes to the product, and the server time. |
| SavedDesigns.NewSavedDocFields | lib/savedDesigns.ts:93-106 | The three fields of a new saved-design document read back as the product id, the product and the timestamp. |
| SavedDesigns.SaveIdempotent | lib/savedDesigns.ts:79-108 | A second save of the same product returns the first save's reference. It changes nothing and leaves exactly one entry for the product. |
| SavedDesigns.SavedProductIsListed | lib/savedDesigns.ts:45-108 | A product saved with a non-empty id and name is listed afterwards under the returned reference. |
| SavedDesigns.NewSavedDocListed | lib/savedDesigns.ts:54-62 | A new document passes the listing's check and converts to an entry with its own id and product id. |
| SavedDesigns.RemoveSavedDesign | lib/savedDesigns.ts:113-119 | Deleting removes exactly the documents with that id and keeps every other. |
| SavedDesigns.RemoveIds | lib/savedDesigns.ts:113-119 | After a delete the ids are the old ids minus the deleted one. |
| SavedDesigns.RemoveKeepsDistinct | lib/savedDesigns.ts:113-119 | A delete keeps document ids distinct. |
| SavedDesigns.RemoveAsMap | lib/savedDesigns.ts:113-119 | As a map from id to data, a delete removes that key and changes no other entry. |
| SavedDesigns.AsMapLookup | lib/savedDesigns.ts:113-119 | With distinct ids, the map's value at an id is that document's data. |
| SavedDesignsHook.Initial | hooks/useSavedDesigns.ts:13-16 | The hook starts with an empty list and no error or pending removal, loading exactly when a user id is given. |
| SavedDesignsHook.RefreshStart | hooks/useSavedDesigns.ts:18-26 | Signed out: the list is emptied and nothing is fetched. Signed in: loading comes on, the error is cleared and a fetch is requested. |
| SavedDesignsHook.RefreshSettle | hooks/useSavedDesigns.ts:27-35 | A fetch settles with loading off. Success replaces the list. A failure empties it and records the error's message or "Failed to load saved designs.". |
| SavedDesignsHook.RefreshOutcome | hooks/useSavedDesigns.ts:18-36 | A refresh replaces the list wholesale: the fetched list with no error, or empty with the failure's message, or empty when signed out. |
| SavedDesignsHook.RemoveStart | hooks/useSavedDesigns.ts:38-43 | Signed out, `remove` does nothing. Signed in, it marks the id as being removed and requests its deletion. |
| SavedDesignsHook.WithoutId | hooks/useSavedDesigns.ts:44 | Filtering by id never lengthens the list. |
| SavedDesignsHook.RemoveSettle | hooks/useSavedDesigns.ts:42-49 | Only a successful delete filters the list. A failure records "Failed to remove design." or the message. The pending id clears either way. |
| SavedDesignsHook.WithoutIdMembers | hooks/useSavedDesigns.ts:44 | The filtered list holds exactly the entries whose id differs. |
| SavedDesignsHook.WithoutIdConcat | hooks/useSavedDesigns.ts:44 | Filtering distributes over concatenation, so order is kept. |
| SavedDesignsHook.WithoutAbsentId | hooks/useSavedDesigns.ts:44 | Filtering by an id no entry has leaves the list unchanged. |
| SavedDesignsHook.RemoveNotOptimistic | hooks/useSavedDesigns.ts:38-52 | Starting a removal leaves the list alone. A failed delete leaves it unchanged afterwards, and the pending id always clears. |
| SaveDesignHook.SaveDesign | hooks/useSaveDesign.ts:13-26 | Signed out, the call is refused with the login message and nothing is attempted. Signed in, it ends not saving and reports success or the failure's message. |
| SaveDesignHook.SaveResultExplained | hooks/useSaveDesign.ts:14-23 | Success happens exactly when a user is signed in and the save succeeds; a thrown Error's message is passed on verbatim. |
| SaveDesignHook.SaveDesignToStore | hooks/useSaveDesign.ts:14-26 | Signed out, the login message and no store change. Signed in, a failed query or write is reported with its message (or "Failed to save design.") and changes no store. A success reports `Saved` and changes only the user's own subcollection, as `saveDesignForUser` does. |
| SaveDesignHook.FailedSaveWritesNothing | hooks/useSaveDesign.ts:18-26 | A rejected `getDocs`, or a rejected `addDoc` when no match exists, gives `NotSaved` with the message and leaves every store unchanged. |
| CatalogMapping.AllowedStrings | hooks/useCatalogFromFirestore.ts:35-40 | Filtering keeps exactly the array's strings that are allowed categories. |
| CatalogMapping.AllowedStringsConcat | hooks/useCatalogFromFirestore.ts:37-39 | The category filter distributes over concatenation, so order is kept. |
| CatalogMapping.NormalizeCategories | hooks/useCatalogFromFirestore.ts:35-40 | A non-array gives `["tees", "new"]`; an array gives exactly its allowed category strings. |
| CatalogMapping.AllowedStringsOfCategories | hooks/useCatalogFromFirestore.ts:35-40 | A stored list of allowed categories reads back unchanged. |
| CatalogMapping.StringsOf | hooks/useCatalogFromFirestore.ts:75-77 | The sizes filter keeps exactly the array's strings. |
| CatalogMapping.StringsOfStrs | hooks/useCatalogFromFirestore.ts:75-77 | A stored string array reads back unchanged. |
| CatalogMapping.ToCreatedString | hooks/useCatalogFromFirestore.ts:25-30 | A string is kept, a timestamp is rendered, and a map with a truthy `toDate` throws a `TypeError`; anything else gives the current time. |
| CatalogMapping.MapDesignDoc | hooks/useCatalogFromFirestore.ts:46-65 | The mapping throws the `TypeError` exactly when `created` is a map with a truthy `toDate`. Otherwise: the id, name and author are the stored strings, or else the document id, "Untitled Design" and "". An array holding allowed categories gives exactly those, in order; anything else gives `["tees", "new"]`. `created` is `toCreatedString` of the stored field. `active` is false only for a stored `false`. |
| CatalogMapping.TruthyToDateThrows | hooks/useCatalogFromFirestore.ts:25-30 | A document whose `created` is `{toDate: "yes"}` satisfies the casts and still makes the mapping throw. |
| CatalogMapping.GarmentSizes | hooks/useCatalogFromFirestore.ts:75-81 | Sizes are the array's strings, or `S, M, L` when that leaves none or there is no array. |
| CatalogMapping.MapGarmentDoc | hooks/useCatalogFromFirestore.ts:70-92 | The id, name and author are the stored strings, or else the document id, "Untitled Garment" and "". Categories follow the same rule as designs. Sizes are the stored array's strings, or `S, M, L` when there are none. `active` is false only for a stored `false`. |
| CatalogMapping.FetchDesigns | hooks/useCatalogFromFirestore.ts:98-108 | The fetch rejects with the `TypeError` exactly when some document's `created` makes the mapping throw. Otherwise every fetched design is active, and there are no more of them than documents. |
| CatalogMapping.FetchDesignsHead | hooks/useCatalogFromFirestore.ts:102-106 | When the fetch resolves, so does the fetch of the rest, and a design is fetched from a snapshot exactly when it comes from an active first document or from the rest. |
| CatalogMapping.FetchDesignsMembers | hooks/useCatalogFromFirestore.ts:98-108 | When the fetch resolves, a design is fetched exactly when some document of the snapshot is active and maps to it. |
| CatalogMapping.FetchDesignsConcat | hooks/useCatalogFromFirestore.ts:102-106 | Fetching keeps snapshot order: a split snapshot fetches as the two halves joined, and the first half's rejection comes first. |
| CatalogMapping.ThrowingCreatedFailsLoad | hooks/useCatalogFromFirestore.ts:25-30 | One document with a throwing `created` anywhere in the snapshot rejects the design fetch; the load then empties both lists and shows the `TypeError`'s message. |
| CatalogMapping.FetchGarments | hooks/useCatalogFromFirestore.ts:113-123 | Every fetched garment is active. |
| CatalogMapping.FetchGarmentsHead | hooks/useCatalogFromFirestore.ts:117-121 | A garment is fetched exactly when it comes from an active first document or from the rest. |
| CatalogMapping.FetchGarmentsMembers | hooks/useCatalogFromFirestore.ts:113-123 | A garment is fetched exactly when some document of the snapshot is active and maps to it. |
| CatalogMapping.LoadStart | hooks/useCatalogFromFirestore.ts:156-159 | A user refresh sets `refreshing`; any other load sets `loading`. Either way the error clears and the lists stay. |
| CatalogMapping.LoadSettle | hooks/useCatalogFromFirestore.ts:160-176 | Both flags go off. Success installs both lists. A failure empties both and records the message or "Failed to load catalog.". |
| CatalogMapping.LoadOutcome | hooks/useCatalogFromFirestore.ts:156-177 | A whole load ends idle with either the fetched lists and no error, or empty lists and the failure's message. |
| CatalogWrites.KeepAllowed | lib/catalogFirestore.ts:22-30 | Exactly the allowed tokens are kept. |
| CatalogWrites.KeepAllowedConcat | lib/catalogFirestore.ts:30 | The allowed-token filter keeps order. |
| CatalogWrites.ParseCategories | lib/catalogFirestore.ts:16-32 | The result is never empty and all allowed: the allowed tokens when there are any, else `["tees", "new"]`. |
| CatalogWrites.CategoriesField | lib/catalogFirestore.ts:53 | A missing or empty categories field gives the default; a non-empty one gives its parsed categories. Any result is non-empty and allowed. |
| CatalogWrites.CategorySpelling | lib/catalogFirestore.ts:22-29 | Every allowed category is a non-empty run of small letters and dashes. |
| CatalogWrites.CategoryCase | lib/catalogFirestore.ts:17-21 | Such a run is one token of the split and comes back from upper-casing by lower-casing. |
| CatalogWrites.LowerOfTyped | lib/catalogFirestore.ts:19 | Lower-casing `"HOODIES,new"`-style input restores the categories. |
| CatalogWrites.TrimOfTyped | lib/catalogFirestore.ts:18 | Such input needs no trimming. |
| CatalogWrites.TokensOfTyped | lib/catalogFirestore.ts:17-21 | Such input splits into its two categories. |
| CatalogWrites.KeepBothAllowed | lib/catalogFirestore.ts:30 | Two allowed categories both pass the filter. |
| CatalogWrites.CategoryToken | lib/catalogFirestore.ts:20 | No category contains white space or a comma. |
| CatalogWrites.CategoriesOfList | lib/catalogFirestore.ts:16-32 | A typed list such as `"HOODIES,new"` gives its two categories, lower-cased, in order. |
| CatalogWrites.TrimmedOr | lib/catalogFirestore.ts:56-61 | A missing or blank field gives the fallback; otherwise the trimmed field. |
| CatalogWrites.SkuFor | lib/catalogFirestore.ts:64 | The sku is the prefix followed by the first eight characters of the id (all of it when shorter), each upper-cased. |
| CatalogWrites.SkuIgnoresTailAndCase | lib/catalogFirestore.ts:64 | Ids that agree, ignoring case, on their first eight characters get the same sku. |
| CatalogWrites.SkuIsUpperCase | lib/catalogFirestore.ts:64 | The id part of a sku is already upper-case. |
| CatalogWrites.CreateDesign | lib/catalogFirestore.ts:47-67 | The new design has the reference id, the author, the time, and a trimmed name or "Untitled Design". Its categories are those parsed from the field, and image and description are trimmed or defaulted. Price is `$0.00` / 0, tags `user-created`, it is active, and the sku is `DES-` plus the upper-cased id head. |
| CatalogWrites.CreateDesignInFirestore | lib/catalogFirestore.ts:47-70 | The encoded design is sent to `setDoc`. The new id is returned exactly when the write succeeds; a failed write rejects with its error. |
| CatalogWrites.CreateDesignReplyReadsBack | lib/catalogFirestore.ts:47-70 | After a successful create, the returned id and stored document read back as the created design. |
| CatalogWrites.EncodedDesignFields | lib/catalogFirestore.ts:54-67 | The written document stores every design field under its own key. |
| CatalogWrites.StoredDesignReadsBack | lib/catalogFirestore.ts:54-67 | Any document storing a well-formed active design is read back by the catalog as that design. |
| CatalogWrites.EncodedDesignReadsBack | lib/catalogFirestore.ts:54-67 | The document written for a design is read back by the catalog as that design. |
| CatalogWrites.CreatedDesignReadsBack | lib/catalogFirestore.ts:47-70 | A created design is read back by the catalog exactly as created. |
| CatalogWrites.SizesField | lib/catalogFirestore.ts:93-94 | The sizes are the white-space-or-comma separated tokens of the field; a missing field, or one with no token, gives `S, M, L`. The result is never empty and holds no empty size. |
| CatalogWrites.SizesOfList | lib/catalogFirestore.ts:93-94 | A typed list such as `" M, XL "` gives exactly its two sizes. |
| CatalogWrites.SizesOfSeparators | lib/catalogFirestore.ts:93-94 | A field of only separators gives `S, M, L`. |
| CatalogWrites.ReleaseYearField | lib/catalogFirestore.ts:95-96 | A missing, blank or unparsable year gives the current year; otherwise the year `parseInt` reads from the trimmed text. |
| CatalogWrites.CreateGarment | lib/catalogFirestore.ts:88-111 | The new garment has the reference id, the author, and a trimmed name or "Untitled Garment". Its sizes, categories, colour and release year are those parsed from the fields, and image and description are trimmed or defaulted. The sku is `GAR-` plus the upper-cased id head, the price `$24.99`, and it is active. |
| CatalogWrites.CreateGarmentInFirestore | lib/catalogFirestore.ts:88-114 | The encoded garment is sent to `setDoc`. The new id is returned exactly when the write succeeds; a failed write rejects with its error. |
| CatalogWrites.CreateGarmentReplyReadsBack | lib/catalogFirestore.ts:88-114 | After a successful create, the returned id and stored document read back as the created garment. |
| CatalogWrites.EncodedGarmentFields | lib/catalogFirestore.ts:98-111 | The written document stores every garment field under its own key. |
| CatalogWrites.StoredGarmentReadsBack | lib/catalogFirestore.ts:98-111 | Any document storing a storable garment is read back by the catalog as that garment. |
| CatalogWrites.EncodedGarmentReadsBack | lib/catalogFirestore.ts:98-111 | The document written for a garment is read back by the catalog as that garment. |
| CatalogWrites.CreatedGarmentReadsBack | lib/catalogFirestore.ts:88-114 | A created garment is read back by the catalog exactly as created. |
| Seed.ParsePositiveInt | scripts/seed-firestore.js:62-67 | Accepted exactly when the trimmed text is all decimal digits with a value of at least 1, and then that value. |
| Seed.ParsePositiveIntRoundTrip | scripts/seed-firestore.js:62-67 | Every positive count written in decimal parses back to itself. |
| Seed.OptionsExclusive | scripts/seed-firestore.js:83-91 | No argument is both a `--designs=` and a `--garments=` option. |
| Seed.ParseArgs | scripts/seed-firestore.js:69-103 | Without either option the script stops with the usage error; otherwise the arguments are read left to right from zero counts. |
| Seed.LastCountFront | scripts/seed-firestore.js:82-100 | Reading the last count is reading the rest after the first argument's count. |
| Seed.ReadArgsStep | scripts/seed-firestore.js:82-100 | A valid first argument updates its count and reading continues. |
| Seed.ReadArgsStop | scripts/seed-firestore.js:86-96 | An invalid first argument stops reading with its own error. |
| Seed.ReadArgsLastWins | scripts/seed-firestore.js:82-100 | With every argument valid, each count is the last value given for it, else the starting one. |
| Seed.ReadArgsFirstErrorFrom | scripts/seed-firestore.js:82-100 | Reading from any position stops at the first invalid argument after it. |
| Seed.ParseArgsFirstError | scripts/seed-firestore.js:69-103 | The script reports the first invalid argument, whatever follows. |
| Seed.ParseArgsLastWins | scripts/seed-firestore.js:69-103 | With every argument valid, each count is the last one given, and 0 for an option never given. |
| Seed.PickCategories | scripts/seed-firestore.js:105-108 | Picking takes `min(count, 6)` categories, all allowed. |
| Seed.SeedDesign | scripts/seed-firestore.js:138-151 | The k-th design has the generated id, one or two allowed categories alternating with k, sku `DES-` plus the upper-cased id head, tags `seed, demo`, and is active. |
| Seed.SeedGarment | scripts/seed-firestore.js:164-183 | The k-th garment has 3 to 5 sizes from `XS`, the k-th of the eight colours cycling, a release year of 2023 or 2024 alternating, sku `GAR-` plus the upper-cased id head, and is active. |
| Seed.SeededDesignReadsBack | scripts/seed-firestore.js:138-151 | Every seeded design document is read back by the app's catalog as the seeded design. |
| Seed.SeededGarmentReadsBack | scripts/seed-firestore.js:164-183 | Every seeded garment document is read back by the app's catalog as the seeded garment. |
| Seed.FlattenAppend | scripts/seed-firestore.js:131-155 | Committing one more batch appends its documents to those already committed. |
| Seed.BatchCount | scripts/seed-firestore.js:127-131 | A loop stepping by 400 from 0 past `n` runs `ceil(n / 400)` times. |
| Seed.NextBatch | scripts/seed-firestore.js:133-134 | One batch is exactly the next `chunk` documents from the offset. |
| Seed.PlacedAppend | scripts/seed-firestore.js:131-155 | A batch taken from its own offset keeps every batch at its place in the documents. |
| Seed.WellBatchedAppend | scripts/seed-firestore.js:127-133 | Appending a non-empty batch of at most 400 after full batches keeps every batch but the last full. |
| Seed.BatchStep | scripts/seed-firestore.js:131-155 | One loop iteration keeps the batching invariant: the committed prefix, full batches, each batch at its offset. |
| Seed.Batches | scripts/seed-firestore.js:127-155 | The batches together are exactly the documents in order, `ceil(n / 400)` of them, all full but the last, which is non-empty. |
| Seed.SeedDesigns | scripts/seed-firestore.js:129-157 | Exactly `count` designs are written in `ceil(count / 400)` batches, the k-th being the k-th seeded design, and the ids are returned in order. |
| Seed.SeedGarments | scripts/seed-firestore.js:159-189 | Exactly `count` garments are written in `ceil(count / 400)` batches, the k-th being the k-th seeded garment, and the ids are returned in order. |
| Seed.FlattenCons | scripts/seed-firestore.js:131-155 | The batches' documents are the first batch's, then the rest's. |
| Seed.FirstFailure | scripts/seed-firestore.js:154 | The index of the first failed commit: every earlier commit succeeded. |
| Seed.CommitBatches | scripts/seed-firestore.js:129-157 | Batches are committed in order until one fails. The documents of the batches before it are stored, and the seeding rejects exactly when some commit fails. |
| Seed.CommitAllSucceed | scripts/seed-firestore.js:129-157 | When every commit succeeds, every document is stored and the seeding resolves. |
| Seed.FlattenPrefix | scripts/seed-firestore.js:131-155 | The documents of the first batches start the documents of all of them. |
| Seed.FullPrefixLength | scripts/seed-firestore.js:131-133 | `j` full batches hold `400 * j` documents. |
| Seed.CommitStoresPrefix | scripts/seed-firestore.js:129-157 | A failed commit of batch `j` leaves exactly the first `400 * j` documents stored, in order, and rejects. |
| Email.ReplaceAll | functions/src/email.ts:72-76 | A global replacement whose replacement text lacks the character leaves none of it. |
| Email.ReplaceAllConcat | functions/src/email.ts:72-76 | Global replacement works character by character, so it distributes over concatenation. |
| Email.ReplaceAllOne | functions/src/email.ts:72-76 | On one character, replacement gives the replacement text or the character. |
| Email.ReplaceAllAbsent | functions/src/email.ts:72-76 | Replacing a character that does not occur changes nothing. |
| Email.EscapeHtmlConcat | functions/src/email.ts:70-77 | Escaping distributes over concatenation. |
| Email.EscapeHtmlPlainChar | functions/src/email.ts:70-77 | A character other than `& < > " '` is left as it is. |
| Email.EscapeHtmlStage0 | functions/src/email.ts:72 | `&` becomes `&amp;`, which the later replacements leave intact. |
| Email.AmpEntityStays | functions/src/email.ts:73-76 | `&amp;` contains nothing the later four replacements change. |
| Email.EscapeHtmlStage1 | functions/src/email.ts:73 | `<` becomes `&lt;`, and is not escaped twice. |
| Email.LtEntityStays | functions/src/email.ts:74-76 | `&lt;` contains nothing the later three replacements change. |
| Email.EscapeHtmlStage2 | functions/src/email.ts:74 | `>` becomes `&gt;`. |
| Email.EscapeHtmlStage3 | functions/src/email.ts:75 | `"` becomes `&quot;`. |
| Email.EscapeHtmlStage4 | functions/src/email.ts:76 | `'` becomes `&#39;`. |
| Email.EscapeHtmlOneChar | functions/src/email.ts:70-77 | The five chained replacements act on each character as its one entity, with no double escaping. |
| Email.EscapeHtmlIsEach | functions/src/email.ts:70-77 | The chained global replacements equal escaping each character independently. |
| Email.EscapeEachSafe | functions/src/email.ts:70-77 | Escaped text contains no `<`, `>`, `"` or `'`. |
| Email.EscapeEachPlain | functions/src/email.ts:70-77 | Text free of the five special characters is unchanged by escaping. |
| Email.GrowthConcat | functions/src/email.ts:70-77 | The length added by escaping adds up over concatenated text. |
| Email.EscapeCharLength | functions/src/email.ts:72-76 | Each character grows by its entity's extra length: 4 for `&`, 3 for `<` and `>`, 5 for `"`, 4 for `'`. |
| Email.EscapeEachLength | functions/src/email.ts:70-77 | The escaped length is the original length plus each special character's extra length. |
| Email.UnescapeEntity | functions/src/email.ts:72-76 | Decoding one entity followed by anything gives its character followed by the decoded rest. |
| Email.UnescapeChar | functions/src/email.ts:72-76 | Decoding an escaped character followed by anything gives the character followed by the decoded rest. |
| Email.UnescapeEscapeHtml | functions/src/email.ts:70-77 | Escaping loses nothing: decoding the five entities restores the original text. |
| Email.UnescapeEscapeEach | functions/src/email.ts:70-77 | Per-character escaping is undone by decoding. |
| Email.EscapeHtmlSafe | functions/src/email.ts:70-77 | `escapeHtml` output contains no `<`, `>`, `"` or `'`. |
| Email.WelcomeName | functions/src/email.ts:16 | A display name is used as given. Otherwise the name is the address up to its first `@`, or the whole address when it has none. |
| Email.WelcomeNameOfAddress | functions/src/email.ts:16 | Without a display name, `local@domain` is greeted as `local`. |
| Email.WelcomeBody | functions/src/email.ts:21-26 | The welcome HTML begins with `<` and ends with `>`. |
| Email.LinkBefore | functions/src/email.ts:40-42 | The HTML before the link starts a tag and ends with `href="`. |
| Email.LinkAfter | functions/src/email.ts:42-46 | The HTML after the link closes the attribute first and ends a tag. |
| Email.LinkBody | functions/src/email.ts:40-46 | A link email's HTML begins with `<` and ends with `>`. |
| Email.Html | functions/src/email.ts:21-26 | Trimming the indented template leaves exactly the body: the trim removes none of the content. |
| Email.WelcomeEmail | functions/src/email.ts:10-28 | The welcome message goes to exactly the new address, with the configured key and sender and the welcome subject. Its body greets the chosen name. |
| Email.PasswordResetEmail | functions/src/email.ts:30-48 | The reset message goes to exactly the given address with the configured key and sender, and its body carries the reset link. |
| Email.VerificationEmail | functions/src/email.ts:50-68 | The verification message goes to exactly the given address with the configured key and sender, and its body carries the verification link. |
| Email.WelcomeNameIsText | functions/src/email.ts:16-26 | The name appears in the welcome HTML only as escaped text right after its opening tag, and decodes back to the name. |
| Email.LinkStaysInHref | functions/src/email.ts:40-46 | The escaped link fills the `href` attribute and cannot close it early, so it decodes back to the exact link. |
| CloudFunctions.GetEmailConfig | functions/src/index.ts:34-39 | The key and sender come from the environment when set (even empty), else from the config; the sender defaults to the Artie Apparel address. A missing or empty key throws. |
| CloudFunctions.EnvironmentShadowsConfig | functions/src/index.ts:35-37 | An empty environment key hides a usable configured key; a non-empty one wins. |
| CloudFunctions.CreatePaymentIntent | functions/src/index.ts:49-81 | Checks run in order: signed in, then key configured, then a positive integer amount. Only then is a PaymentIntent requested, for the amount, the currency or "usd", and the caller. |
| CloudFunctions.PaymentAmounts | functions/src/index.ts:66-78 | Exactly the whole numbers from 1 pass, unchanged; 0, negatives, fractions, NaN and infinities are rejected. |
| CloudFunctions.StripeWebhook | functions/src/index.ts:87-125 | Non-POST gets 405. A missing or non-string signature, a missing secret, or a failed verification gets 400. Every verified event gets 200 `{received: true}`. |
| CloudFunctions.SignatureHeader | functions/src/index.ts:92 | Node presents the signature lines as no header, or as one string (repeated lines joined by ", "), never as an array. |
| CloudFunctions.RepeatedSignatureChecked | functions/src/index.ts:92-124 | A request with one or more signature lines and a configured secret gets 200 exactly when the signature check passes, else 400. |
| CloudFunctions.WebhookIgnoresEvent | functions/src/index.ts:115-124 | The event type never changes the reply, and the verification is not consulted for a malformed request. |
| CloudFunctions.ScanMatches | functions/src/index.ts:137 | Every address the scan accepts matches `^[^\s@]+@[^\s@]+\.[^\s@]+$`. |
| CloudFunctions.PatternScans | functions/src/index.ts:137 | Every address the pattern matches is accepted by the scan. |
| CloudFunctions.DomainPlain | functions/src/index.ts:137 | Two plain runs joined by a `.` make a plain domain. |
| CloudFunctions.EmailPatternMatches | functions/src/index.ts:137 | The scan accepts exactly the strings the regular expression matches. |
| CloudFunctions.PlainSuffix | functions/src/index.ts:137 | Every character from a point in a plain domain is plain. |
| CloudFunctions.ValidEmailEdges | functions/src/index.ts:137 | An accepted address is non-empty and neither starts nor ends with white space. |
| CloudFunctions.BeforeFirst | functions/src/index.ts:137 | The local part ends exactly at the first `@`. |
| CloudFunctions.Deliver | functions/src/index.ts:140-151 | The link is always requested for the address and `APP_URL`. A message is sent exactly when the link and config both succeed. Every failure becomes `internal` with its message or the fallback. |
| CloudFunctions.RequestedEmail | functions/src/index.ts:136 | A string request email is trimmed; anything else reads as empty. |
| CloudFunctions.SendPasswordReset | functions/src/index.ts:134-153 | An address failing the pattern is refused before any link is generated. Otherwise the link is requested for the trimmed address and the message goes to it alone. |
| CloudFunctions.ResetFor | functions/src/index.ts:137-151 | An invalid address is refused with `invalid-argument`; a valid one goes through link, config and send. |
| CloudFunctions.PaddedAddress | functions/src/index.ts:136 | Surrounding white space is dropped from a request email with non-space ends. |
| CloudFunctions.BareAddress | functions/src/index.ts:136 | A request email with non-space ends is used as sent. |
| CloudFunctions.ResetTrimsEmail | functions/src/index.ts:136-151 | A padded valid address is served exactly like the bare one. |
| CloudFunctions.VerificationAddress | functions/src/index.ts:161-171 | The non-blank trimmed request email wins, else the caller's non-empty token email; with neither the call is refused. |
| CloudFunctions.SendEmailVerification | functions/src/index.ts:159-188 | A call with no address is refused, and so is an invalid address, both before any link is generated. Otherwise the link is requested for the chosen address. |
| CloudFunctions.VerificationPrefersRequest | functions/src/index.ts:162-163 | A non-blank request email makes the caller's identity irrelevant. |
| CloudFunctions.OnAuthUserCreated | functions/src/index.ts:193-202 | A user without an email gets nothing. Otherwise the welcome message is sent when the config is usable. A missing key or a failed send is only logged, never thrown. |
| Auth.ErrorMessage | hooks/useAuth.ts:23-34 | The explanation shown is never empty. |
| Auth.ListedCodesExplained | hooks/useAuth.ts:25-32 | Each of the eight listed codes gets its own fixed message, whatever the error's message says. |
| Auth.OtherCodesFallBack | hooks/useAuth.ts:33 | Any other code, or none, shows the error's non-empty message or "An error occurred.". |
| Auth.KnownMessagesDistinct | hooks/useAuth.ts:25-33 | The eight messages are pairwise different and none equals the generic fallback. |
| Auth.GoogleMessage | hooks/useAuth.ts:88 | Google sign-in shows the raw message, even an empty one, and "Google sign-in failed." only when there is none. |
| Auth.ClearError | hooks/useAuth.ts:40 | Clearing removes the error and leaves `loading` alone. |
| Auth.Start | hooks/useAuth.ts:43-44 | Every operation starts with no error and `loading` on. |
| Auth.Settle | hooks/useAuth.ts:45-52 | `loading` goes off either way. A failure records its message and is re-thrown unchanged; success keeps the cleared error. |
| Auth.RunDiscipline | hooks/useAuth.ts:42-93 | After any operation `loading` is off and the outcome is passed on. The error is set exactly when the call failed: Google's raw message, else the table's. |
| Auth.RunForgetsState | hooks/useAuth.ts:42-93 | An operation's result does not depend on the state before it. |
| AuthPage.Validate | app/user-auth-page.tsx:43-75 | Forgot mode needs only a non-blank email. Log-in and sign-up need a non-blank email and a password. Sign-up checks the confirmation before the length of 6. The call gets the trimmed email. |
| AuthPage.Submit | app/user-auth-page.tsx:41-80 | A blocked form only alerts. A valid one runs exactly the validated call; only a successful log-in or sign-up goes home. A successful reset marks the email sent, and a failure changes no field. |
| AuthPage.SubmitErrorDiscipline | app/user-auth-page.tsx:41-80 | After a submission the hook shows an error exactly when a call was made and failed, and an alert is shown exactly when no call was made. |
| AuthPage.CallsUseTrimmedEmail | app/user-auth-page.tsx:49-74 | Every call gets the trimmed email and the password as typed. A reset is called exactly in forgot mode. |
| AuthPage.MismatchBeforeLength | app/user-auth-page.tsx:60-68 | A mismatched confirmation is reported as a mismatch, however short the password. |
| AuthPage.Toggle | app/user-auth-page.tsx:205 | The toggle swaps log-in and sign-up, keeps every field and clears the hook's error. |
| AuthPage.ToggleTwice | app/user-auth-page.tsx:205 | Toggling twice restores the screen. |
| AuthPage.ForgotPassword | app/user-auth-page.tsx:184 | "Forgot password?" enters forgot mode with the email kept and the hook's error cleared. |
| AuthPage.BackToLogIn | app/user-auth-page.tsx:119 | "Back to log in" returns to log-in mode with the sent notice gone and the fields kept. |
| AuthPage.ResetThenBack | app/user-auth-page.tsx:43-55 | A successful reset shows the notice without going home. Going back then lands on the log-in form with the address kept. |
| ThemeColors.DeleteAll | lib/themeColors.ts:18 | Deleting every `-` never lengthens a name. |
| ThemeColors.DeleteAllRemoves | lib/themeColors.ts:18 | After the global replacement no `-` remains. |
| ThemeColors.DeleteAllConcat | lib/themeColors.ts:18 | The deletion distributes over concatenation. |
| ThemeColors.DeleteAllAbsent | lib/themeColors.ts:18 | A name without `-` is unchanged. |
| ThemeColors.ColorName | lib/themeColors.ts:17-18 | The colour name of a `--color-` key contains no `-`. |
| ThemeColors.ColorNameOfShade | lib/themeColors.ts:10-18 | `--color-word-shade` is named `wordshade`. |
| ThemeColors.RgbJoinsComponents | lib/themeColors.ts:19 | The value reads `rgb(` then its white-space separated components joined by `, `, then `)`. |
| ThemeColors.EntryName | lib/themeColors.ts:17 | An entry writes a name exactly when its key starts with `--color-` and its value is a string. |
| ThemeColors.VarsToRgbMap | lib/themeColors.ts:14-22 | The map's names are exactly those the qualifying entries write, and each holds the value of the last entry that writes it. |
| ThemeColors.LastWinsStep | lib/themeColors.ts:16-20 | One more loop iteration keeps "the last writer wins". |
| ThemeColors.NamesWrittenStep | lib/themeColors.ts:16-20 | One more loop iteration keeps "names are exactly those written". |
| ThemeColors.RgbOfTriple | lib/themeColors.ts:19 | Three components separated by single spaces read `rgb(r, g, b)`. |
| ThemeColors.TokensOfTriple | lib/themeColors.ts:19 | Three tokens with one separator between each split back into the three. |
| ThemeColors.JoinTriple | lib/themeColors.ts:19 | Joining three components puts the glue between each. |
| ThemeColors.OneVariable | lib/themeColors.ts:14-22 | A single qualifying variable gives a one-entry map. |
| ThemeColors.ExampleName | lib/themeColors.ts:10-12 | `--color-background-0` names the colour `background0`. |
| ThemeColors.ExampleRgb | lib/themeColors.ts:10-12 | `18 18 18` becomes `rgb(18, 18, 18)`. |
| ThemeColors.DocumentedExample | lib/themeColors.ts:10-22 | The documented example `'--color-background-0': '18 18 18'` gives `background0 -> 'rgb(18, 18, 18)'`. |
| ThemeColors.GetThemeColors | lib/themeColors.ts:32-38 | The colours name exactly the current mode's colour variables, each holding the `rgb(...)` of its last definition. |
| ThemeColors.OtherModeIgnored | lib/themeColors.ts:36-37 | The other mode's variables never affect the colours. |
| ThemeContext.ParseMode | contexts/ThemeContext.tsx:33 | Only the stored strings "dark" and "light" are read as modes. |
| ThemeContext.ParseModeName | contexts/ThemeContext.tsx:33-47 | A written mode reads back as itself, and whatever reads as a mode was written as that mode. |
| ThemeContext.Unmount | contexts/ThemeContext.tsx:40-42 | Cleanup marks the read cancelled and changes nothing shown. |
| ThemeContext.LoadSettle | contexts/ThemeContext.tsx:28-43 | After cleanup nothing changes. Otherwise loading ends, a stored mode is adopted, and anything else (nothing, another string, a failed read) keeps the theme. |
| ThemeContext.SetTheme | contexts/ThemeContext.tsx:45-48 | The theme changes at once and the mode is written under `@expo-specs/theme`; no other key changes. |
| ThemeContext.ThemePersists | contexts/ThemeContext.tsx:25-48 | After `setTheme(m)`, a freshly mounted provider loads `m` and stops loading. |
| ThemeContext.DefaultIsDark | contexts/ThemeContext.tsx:25-39 | With nothing usable stored, a fresh provider stays dark. |
| ThemeContext.UseTheme | contexts/ThemeContext.tsx:58-64 | Outside a provider `useTheme` throws its message; inside, it returns the provider's value unchanged. |
| Checkout.TotalItemsConcat | components/checkout.tsx:33 | The item count adds up over a split cart. |
| Checkout.TotalItemsBounds | components/checkout.tsx:33 | Lines of one each count as many items as lines, and non-negative quantities give a non-negative count. |
| Checkout.Noun | components/checkout.tsx:48 | "item" is singular exactly for a count of 1, including for 0 and negatives. |
| Checkout.LabelShowsTotal | components/checkout.tsx:48 | The label shows "Your cart (", then the count in decimal (which reads back as the count), then " item)" exactly when the count is 1. |
| Checkout.EmptyNotice | components/checkout.tsx:49-50 | The empty-cart message appears exactly when the cart has no lines. |
| Checkout.PayDisabled | components/checkout.tsx:82 | Pay is disabled exactly for an empty cart. |
| Checkout.PayIgnoresQuantities | components/checkout.tsx:82 | Changing quantities never changes whether pay is enabled. |
| Checkout.Rows | components/checkout.tsx:53-70 | One row per line, in cart order, each naming its garment and reporting that garment's id. |
| Checkout.RemovePressed | components/checkout.tsx:62-63 | Pressing remove on a row reports that row's garment id, which belongs to the cart. |
| Text.LeadingSpaces | lib/catalogFirestore.ts:93 | The white space counted at the front is exactly the leading run. |
| Text.TrailingSpaces | lib/catalogFirestore.ts:93 | The white space counted at the back is exactly the trailing run. |
| Text.Trim | lib/catalogFirestore.ts:56 | `trim` never lengthens and leaves no white space at either end. It is empty exactly for all-space text, and text with non-space ends is unchanged. |
| Text.TrimEnds | lib/catalogFirestore.ts:56 | Trimming drops exactly the leading and trailing white-space runs. |
| Text.TrimSplit | lib/catalogFirestore.ts:56 | Every string is white space, then its trim, then white space. |
| Text.SpaceEnds | lib/catalogFirestore.ts:56 | The runs trimming drops are all white space. |
| Text.TrimStartSpaces | lib/catalogFirestore.ts:56 | Leading white space before a non-space start is dropped. |
| Text.TrimEndSpaces | lib/catalogFirestore.ts:56 | Trailing white space after a non-space end is dropped. |
| Text.TrimKeeps | lib/catalogFirestore.ts:56 | Text with non-space ends is its own trim. |
| Text.TrimAround | lib/catalogFirestore.ts:56 | Padding non-space-ended text with white space and trimming gives the text back. |
| Text.ToLower | lib/catalogFirestore.ts:19 | Each character is lower-cased in place, so no capital remains. |
| Text.ToUpper | scripts/seed-firestore.js:148 | Each character is upper-cased in place, so no small letter remains. |
| Text.ToLowerConcat | lib/catalogFirestore.ts:19 | Lower-casing works piecewise. |
| Text.ToUpperConcat | lib/catalogFirestore.ts:64 | Upper-casing works piecewise. |
| Text.ToUpperIdempotent | lib/catalogFirestore.ts:64 | Upper-casing twice is upper-casing once. |
| Text.LowerOfUpper | lib/catalogFirestore.ts:19 | Lower-casing after upper-casing is lower-casing. |
| Text.Take | scripts/seed-firestore.js:148 | `slice(0, n)` is the prefix of length `min(n, length)`. |
| Text.CountConcat | functions/src/email.ts:72-76 | Counting a character adds up over concatenation. |
| Text.Before | functions/src/email.ts:16 | `split("@")[0]` is the prefix up to the first `@`, or all when there is none. |
| Text.Word | lib/catalogFirestore.ts:17-21 | A token is the longest separator-free prefix. |
| Text.Tokens | lib/catalogFirestore.ts:17-21 | Splitting on separator runs and dropping empties gives only non-empty separator-free tokens. |
| Text.TokensOfToken | lib/catalogFirestore.ts:17-21 | A single token splits into itself. |
| Text.WordStopsAtSeparator | lib/catalogFirestore.ts:17-21 | A token never extends past a separator. |
| Text.TokensAtSeparator | lib/catalogFirestore.ts:17-21 | Splitting at a separator splits the two sides independently. |
| Text.TokensSkipLeading | lib/catalogFirestore.ts:17-21 | Leading separators produce no tokens. |
| Text.TokensSkipTrailing | lib/catalogFirestore.ts:17-21 | Trailing separators produce no tokens. |
| Text.TokensIgnoreTrim | lib/catalogFirestore.ts:17-21 | Trimming before splitting on white space and commas changes no token. |
| Text.TokensIgnoreTrimSpace | lib/themeColors.ts:19 | Trimming before splitting on white space changes no token. |
| Text.SpacesSeparate | lib/catalogFirestore.ts:93 | White space is among the `[\s,]` separators. |
| Text.ReplaceSpaceRunsSkipsWord | lib/themeColors.ts:19 | Replacing white-space runs leaves a space-free prefix unchanged. |
| Text.ReplaceSpaceRunsIsJoin | lib/themeColors.ts:19 | On trimmed text, replacing each white-space run by `, ` joins the components with `, `. |
| Text.DigitChar | scripts/seed-firestore.js:64 | A digit value below 10 is written as the digit with that value. |
| Text.NatToDecimal | scripts/seed-firestore.js:64 | A count is written as a non-empty run of decimal digits. |
| Text.DecimalRoundTrip | scripts/seed-firestore.js:62-67 | Reading a count's decimal form gives the count. |
| Text.LeadingDigits | lib/catalogFirestore.ts:96 | `parseInt` reads the longest run of digits. |
| Text.LeadingDigitsOfDigits | lib/catalogFirestore.ts:96 | An all-digit text is read whole. |
| Text.TrimStartKeeps | lib/catalogFirestore.ts:96 | Text starting with a non-space is unchanged by `trimStart`. |
| Text.DigitsKeepTrim | scripts/seed-firestore.js:63 | All-digit text is its own trim. |
| Text.ParseIntOfDigits | lib/catalogFirestore.ts:96 | `parseInt` reads an all-digit text as its decimal value. |
| Text.MinusNotSpace | lib/catalogFirestore.ts:96 | `-` is not white space, so it survives trimming. |
| Text.ParseIntOfNegative | lib/catalogFirestore.ts:96 | A minus sign followed by digits reads as the negated value. |
| Text.ParseIntOfSign | lib/catalogFirestore.ts:96 | A minus sign followed by a whole digit run reads as the negated value. |
| Text.ParseIntRoundTrip | lib/catalogFirestore.ts:96 | Every integer written in decimal is read back by `parseInt` as itself. |

## Left out

- Firebase, Firestore, Stripe, Resend, AsyncStorage and the Admin SDK are not called. Their results are parameters: snapshots, `Result`/`Outcome` values, fresh ids, server timestamps, generated links.
- Concurrency is not modelled. This covers `Promise.all` in the catalog load, the non-atomic check-then-add in `saveDesignForUser` (two concurrent saves can both add a document), React state batching, and the un-awaited `AsyncStorage.setItem`.
- React rendering, JSX, styles, navigation (beyond "went home"), alerts (beyond their text) and the Google sign-in modal are not modelled. `useAuthState` is a parameter (the signed-in user or none).
- Case mapping is ASCII-only. `toUpperCase` and `toLowerCase` on other letters are not modelled.
- `String.length` in `app/user-auth-page.tsx` counts UTF-16 code units. The model counts characters outside the Basic Multilingual Plane as two (`Utf16Length`), and takes Dafny's `char` as a Unicode scalar value.
- JavaScript numbers are modelled as a `Number` datatype: a real, NaN or an infinity. Floating-point rounding is not modelled, and neither is `Number(...)` coercion of non-numeric payloads, which the callable receives as an already-converted `Number`.
- Regular expressions are replaced by hand-written scans or predicates, each proved equal to the pattern where the pattern matters (`EmailPatternMatches`). White space is the ASCII and common Unicode white-space set that `\s` and `trim` use.
- `console` logging, `process.exit` and the seed script's summary output are not modelled; a usage or argument error is an `Err` result.
- `Math.random` shuffles and faker values in the seed script are parameters (a permutation of the categories, the fake names and texts).
- CatalogMapping.MapDesignDoc: assumes the TypeScript casts `data.id as string`, `data.name as string`, `data.author as string` and `data.tags as string[]` hold (`CastsHold`). So `id`, `name` and `author` are strings when present, and every item of an array `tags` field is a string. An unchecked cast of another value is not given a meaning here, so documents with a non-string item in `tags` are outside the model. The `value as Timestamp` cast in `toCreatedString` is modelled instead: a map with a truthy `toDate` throws (`CreatedThrows`). The `TypeError`'s message is V8's wording.
- CatalogMapping.MapGarmentDoc: assumes the same four casts (`CastsHold`), for the same reason. The garment mapping never reads `tags`, but `CastsHold` still excludes a document whose `tags` array holds a non-string.
- CatalogMapping.FetchDesigns: requires every document to satisfy `CastsHold`, covering the `id`, `name`, `author` and `tags` casts, for the same reason. A throwing `created` is not excluded: it makes the fetch an `Err`.
- CatalogMapping.FetchGarments: requires every document to satisfy `CastsHold`, covering the `id`, `name`, `author` and `tags` casts, for the same reason.
- SavedDesigns.SaveDesignForUser: places the new document last in the sequence. The sequence's order stands in for Firestore's order, which for these unordered queries is by document id; a random `addDoc` id can land anywhere. `SavedDesigns.SaveAsMap` states the save without any order.
- SavedDesigns.SaveDesignForUserWith: its success case places the new document last, for the same reason.
- SavedDesigns.SaveChangesOnlyOnSuccess: states the changed collection with the new document last, for the same reason.
- SavedDesigns.ListingStable: ties among same-millisecond entries follow the sequence's order, which stands in for Firestore's document-id order.
- SavedDesigns.FindByProductId: when several documents share a product id, the body returns the first in the sequence, where `limit(1)` returns the smallest document id. Its contract only says that some matching document is named.
- Text.Take: counts characters (Unicode scalar values), whereas JavaScript's `slice(0, 8)` counts UTF-16 code units. This affects the sku computations in `lib/catalogFirestore.ts`, `scripts/seed-firestore.js` and the `GAR-` fallback in `hooks/useCatalogFromFirestore.ts`. An id with a character outside the Basic Multilingual Plane would get a different sku, and a `slice` that splits a surrogate pair yields a lone surrogate, which a Dafny `char` cannot hold. Firestore's generated ids are 20 ASCII letters and digits, where the two agree.
- `useAuthState`, the auth-state listener and the redirect when already signed in are outside the model. So is `handleGoogleSignIn`, which only opens the modal.
- CloudFunctions.CreatePaymentIntent: stops at the request sent to `stripe.paymentIntents.create`. Stripe's reply, the returned `client_secret` and a rejection by Stripe are not modelled, because they come from the Stripe service. The SDK's API version and the `automatic_payment_methods` flag are not modelled either; the request records amount, currency and user.
- ThemeContext.SetTheme: has no outcome for `AsyncStorage.setItem`, because the call is not awaited. Its failure cannot change the context's state; only the next load sees it.
- Seed.SeedDesigns and Seed.SeedGarments: return the batches they build. The commit outcomes are applied separately by `Seed.CommitBatches`, because the two loops run concurrently under `Promise.all` and their interleaving is not modelled.
- The static design list (`DESIGNS` in `lib/designs.ts`) and the garment catalog constants are data, not logic, and are not reproduced.
- The pull-to-refresh wrapper and mount effect of `useCatalogFromFirestore` and `useSavedDesigns` are not modelled, beyond `load(true)` versus `load(false)` and `refresh`.

=== FILE: auth.dfy ===
/**
 * The authentication hook (`useAuth`): the mapping from Firebase error codes
 * to messages, and the `loading` / `error` discipline every operation keeps.
 * Each operation starts, makes one Firebase call, and settles with that
 * call's outcome; a failure is recorded and then re-thrown to the caller.
 */
module Auth {

  import opened Core

  /** What a Firebase auth call throws: its code and message, either of which may be missing. */
  datatype AuthError = AuthError(code: Option<string>, message: Option<string>)

  const Fallback := "An error occurred."
  const GoogleFallback := "Google sign-in failed."

  /** The eight codes the hook explains, each with its message, in the order they are tested. */
  const KnownCodes: seq<(string, string)> := [
    ("auth/invalid-email", "Invalid email address."),
    ("auth/user-disabled", "This account has been disabled."),
    ("auth/user-not-found", "No account found with this email."),
    ("auth/wrong-password", "Incorrect password."),
    ("auth/email-already-in-use", "This email is already in use."),
    ("auth/weak-password", "Password should be at least 6 characters."),
    ("auth/too-many-requests", "Too many attempts. Try again later."),
    ("auth/invalid-credential", "Invalid email or password.")
  ]

  /** `err.message || "An error occurred."`: an empty message falls back too. */
  function MessageOrFallback(err: AuthError): string {
    if err.message.Some? && err.message.value != "" then err.message.value else Fallback
  }

  /** `getAuthErrorMessage`: a known code's fixed message, else the error's own message. */
  function ErrorMessage(err: AuthError): (m: string)
    ensures m != ""
  {
    match err.code
    case Some("auth/invalid-email") => "Invalid email address."
    case Some("auth/user-disabled") => "This account has been disabled."
    case Some("auth/user-not-found") => "No account found with this email."
    case Some("auth/wrong-password") => "Incorrect password."
    case Some("auth/email-already-in-use") => "This email is already in use."
    case Some("auth/weak-password") => "Password should be at least 6 characters."
    case Some("auth/too-many-requests") => "Too many attempts. Try again later."
    case Some("auth/invalid-credential") => "Invalid email or password."
    case _ => MessageOrFallback(err)
  }

  /** Whether the table lists `code`. */
  predicate Listed(code: string) {
    exists i :: 0 <= i < |KnownCodes| && KnownCodes[i].0 == code
  }

  /** Each listed code gets its listed message, whatever the error's own message says. */
  lemma ListedCodesExplained(i: nat, message: Option<string>)
    requires i < |KnownCodes|
    ensures ErrorMessage(AuthError(Some(KnownCodes[i].0), message)) == KnownCodes[i].1
  {
  }

  /** Any other code, or none, gets the error's non-empty message or the fallback. */
  lemma OtherCodesFallBack(err: AuthError)
    requires err.code.None? || !Listed(err.code.value)
    ensures ErrorMessage(err) == MessageOrFallback(err)
  {
    if err.code.Some? {
      var c := err.code.value;
      assert KnownCodes[0].0 != c && KnownCodes[1].0 != c && KnownCodes[2].0 != c && KnownCodes[3].0 != c;
      assert KnownCodes[4].0 != c && KnownCodes[5].0 != c && KnownCodes[6].0 != c && KnownCodes[7].0 != c;
    }
  }

  /** Different known codes read differently, and none of them reads like the generic fallback. */
  lemma KnownMessagesDistinct()
    ensures forall i, j :: 0 <= i < j < |KnownCodes| ==> KnownCodes[i].1 != KnownCodes[j].1
    ensures forall i :: 0 <= i < |KnownCodes| ==> KnownCodes[i].1 != Fallback
  {
  }

  /** `signInWithGoogle`'s message: the raw message, even an empty one; the fallback only when there is none. */
  function GoogleMessage(err: AuthError): (m: string)
    ensures err.message.Some? ==> m == err.message.value
    ensures err.message.None? ==> m == GoogleFallback
  {
    err.message.GetOr(GoogleFallback)
  }

  /** The hook's state. */
  datatype AuthState = AuthState(loading: bool, error: Option<string>)

  const InitialState := AuthState(false, None)

  /** The four operations, with what each passes to Firebase. */
  datatype Op =
    | Login(email: string, password: string)
    | SignUp(email: string, password: string)
    | ResetPassword(email: string)
    | SignInWithGoogle(idToken: string, accessToken: Option<string>)

  /** `clearError`. */
  function ClearError(s: AuthState): (r: AuthState)
    ensures r.error.None? && r.loading == s.loading
  {
    s.(error := None)
  }

  /** Every operation starts the same way: the old error goes and `loading` comes on. */
  function Start(s: AuthState, op: Op): (r: AuthState)
    ensures r.loading && r.error.None?
  {
    s.(error := None, loading := true)
  }

  /** The message a failed operation records: Google keeps the raw message, the others go through the table. */
  function FailureMessage(op: Op, err: AuthError): string {
    if op.SignInWithGoogle? then GoogleMessage(err) else ErrorMessage(err)
  }

  /**
   * Settling with the Firebase outcome: `loading` goes off either way; a
   * failure records its message and is passed on to the caller unchanged.
   */
  function Settle(s: AuthState, op: Op, outcome: Outcome<AuthError>): (r: (AuthState, Outcome<AuthError>))
    ensures !r.0.loading
    ensures r.1 == outcome
    ensures outcome.Done? ==> r.0.error == s.error
    ensures outcome.Failed? ==> r.0.error == Some(FailureMessage(op, outcome.error))
  {
    match outcome
    case Done => (s.(loading := false), Done)
    case Failed(e) => (s.(loading := false, error := Some(FailureMessage(op, e))), Failed(e))
  }

  /** One whole operation. */
  function Run(s: AuthState, op: Op, outcome: Outcome<AuthError>): (AuthState, Outcome<AuthError>) {
    Settle(Start(s, op), op, outcome)
  }

  /**
   * The discipline of every operation: afterwards `loading` is off, the error
   * is cleared exactly when the call succeeds, and a failure is re-thrown as
   * it came, whatever the state before.
   */
  lemma RunDiscipline(s: AuthState, op: Op, outcome: Outcome<AuthError>)
    ensures var (r, thrown) := Run(s, op, outcome);
      && !r.loading
      && thrown == outcome
      && (r.error.None? <==> outcome.Done?)
      && (outcome.Failed? && !op.SignInWithGoogle? ==> r.error == Some(ErrorMessage(outcome.error)))
      && (outcome.Failed? && op.SignInWithGoogle? ==> r.error == Some(GoogleMessage(outcome.error)))
  {
  }

  /** Only the starting state's `loading` and `error` are forgotten: two states run alike. */
  lemma RunForgetsState(s1: AuthState, s2: AuthState, op: Op, outcome: Outcome<AuthError>)
    ensures Run(s1, op, outcome) == Run(s2, op, outcome)
  {
  }
}

=== FILE: auth_page.dfy ===
/**
 * The sign-in screen (`app/user-auth-page.tsx`): what a submission checks
 * before calling the authentication hook, what it calls with, what follows
 * the call, and how the screen moves between its three modes. Rendering is
 * not modelled; an alert is the message it would show.
 */
module AuthPage {

  import opened Core
  import opened Text
  import A = Auth

  datatype Mode = LogIn | SignUp | Forgot

  /** The screen's own state: the mode, the three fields, and whether a reset email went out. */
  datatype Page = Page(mode: Mode, email: string, password: string, confirmPassword: string, forgotSent: bool)

  const InitialPage := Page(LogIn, "", "", "", false)

  const EnterEmail := "Enter your email address."
  const EnterBoth := "Please enter email and password."
  const Mismatch := "Passwords do not match."
  const TooShort := "Password should be at least 6 characters."

  /**
   * `handleSubmit` up to its call: the alert it shows, or the hook operation
   * it runs. Forgot mode needs only an email; the others need an email and a
   * password, and sign-up checks the confirmation before the length.
   */
  function Validate(page: Page): (r: Result<A.Op, string>)
    ensures page.mode == Forgot ==>
      r == (if Trim(page.email) == "" then Err(EnterEmail) else Ok(A.ResetPassword(Trim(page.email))))
    ensures page.mode != Forgot && (Trim(page.email) == "" || page.password == "") ==> r == Err(EnterBoth)
    ensures page.mode == SignUp && r.Ok? ==>
      page.password == page.confirmPassword && Utf16Length(page.password) >= 6
    ensures page.mode == SignUp && Trim(page.email) != "" && page.password != "" ==>
      && (page.password != page.confirmPassword ==> r == Err(Mismatch))
      && (page.password == page.confirmPassword && Utf16Length(page.password) < 6 ==> r == Err(TooShort))
    ensures page.mode == LogIn && r.Ok? ==> r.value == A.Login(Trim(page.email), page.password)
    ensures page.mode == SignUp && r.Ok? ==> r.value == A.SignUp(Trim(page.email), page.password)
    ensures r.Ok? <==>
      && Trim(page.email) != ""
      && (page.mode != Forgot ==> page.password != "")
      && (page.mode == SignUp ==> page.password == page.confirmPassword && Utf16Length(page.password) >= 6)
  {
    var email := Trim(page.email);
    if page.mode == Forgot then
      if email == "" then Err(EnterEmail) else Ok(A.ResetPassword(email))
    else if email == "" || page.password == "" then Err(EnterBoth)
    else if page.mode == SignUp && page.password != page.confirmPassword then Err(Mismatch)
    else if page.mode == SignUp && Utf16Length(page.password) < 6 then Err(TooShort)
    else if page.mode == LogIn then Ok(A.Login(email, page.password))
    else Ok(A.SignUp(email, page.password))
  }

  /** What one submission did: the screen and hook afterwards, the alert shown, the call made, and whether it went home. */
  datatype Submission = Submission(page: Page, auth: A.AuthState, alert: Option<string>, call: Option<A.Op>,
                                   navigatedHome: bool)

  /**
   * `handleSubmit` with the outcome of the Firebase call: the hook's error is
   * cleared first; an invalid form only alerts; a valid one runs the hook
   * operation, whose re-thrown failure is swallowed here. A successful reset
   * marks the email as sent, a successful log-in or sign-up goes home, and a
   * failure leaves the screen as it was.
   */
  function Submit(page: Page, auth: A.AuthState, outcome: Outcome<A.AuthError>): (r: Submission)
    ensures Validate(page).Err? ==>
      r == Submission(page, A.ClearError(auth), Some(Validate(page).error), None, false)
    ensures Validate(page).Ok? ==> r.alert.None? && r.call == Some(Validate(page).value)
    ensures Validate(page).Ok? ==> r.auth == A.Run(A.ClearError(auth), Validate(page).value, outcome).0
    ensures r.navigatedHome <==> Validate(page).Ok? && page.mode != Forgot && outcome.Done?
    ensures r.page == (if page.mode == Forgot && Validate(page).Ok? && outcome.Done? then page.(forgotSent := true) else page)
  {
    var cleared := A.ClearError(auth);
    match Validate(page)
    case Err(message) => Submission(page, cleared, Some(message), None, false)
    case Ok(op) =>
      var (after, thrown) := A.Run(cleared, op, outcome);
      if thrown.Failed? then Submission(page, after, None, Some(op), false)
      else if op.ResetPassword? then Submission(page.(forgotSent := true), after, None, Some(op), false)
      else Submission(page, after, None, Some(op), true)
  }

  /**
   * Every submission leaves the hook idle, with an error exactly when a call
   * was made and failed, and a blocked submission calls nothing and shows the
   * hook no error at all.
   */
  lemma SubmitErrorDiscipline(page: Page, auth: A.AuthState, outcome: Outcome<A.AuthError>)
    ensures var r := Submit(page, auth, outcome);
      && r.auth.loading == (auth.loading && r.call.None?)
      && (r.auth.error.Some? <==> r.call.Some? && outcome.Failed?)
      && (r.alert.Some? <==> r.call.None?)
  {
    if Validate(page).Ok? {
      A.RunDiscipline(A.ClearError(auth), Validate(page).value, outcome);
    }
  }

  /** The calls see the email trimmed and the password exactly as typed. */
  lemma CallsUseTrimmedEmail(page: Page, auth: A.AuthState, outcome: Outcome<A.AuthError>)
    requires Submit(page, auth, outcome).call.Some?
    ensures var op := Submit(page, auth, outcome).call.value;
      && op.email == Trim(page.email)
      && (op.Login? || op.SignUp? ==> op.password == page.password)
      && (op.ResetPassword? <==> page.mode == Forgot)
  {
  }

  /** A sign-up whose confirmation differs is refused for the mismatch, however short the password. */
  lemma MismatchBeforeLength(email: string, password: string, confirm: string, forgotSent: bool)
    requires Trim(email) != "" && password != "" && password != confirm
    ensures Validate(Page(SignUp, email, password, confirm, forgotSent)) == Err(Mismatch)
  {
  }

  // ---------------------------------------------------------------------------
  // Mode transitions.
  // ---------------------------------------------------------------------------

  /** The sign-up / log-in toggle, shown outside forgot mode; it also clears the hook's error. */
  function Toggle(page: Page, auth: A.AuthState): (r: (Page, A.AuthState))
    ensures page.mode == LogIn ==> r.0.mode == SignUp
    ensures page.mode == SignUp ==> r.0.mode == LogIn
    ensures r.0 == page.(mode := r.0.mode) && r.1 == A.ClearError(auth)
  {
    (page.(mode := if page.mode == SignUp then LogIn else SignUp), A.ClearError(auth))
  }

  /** Toggling twice outside forgot mode returns to the same screen. */
  lemma ToggleTwice(page: Page, auth: A.AuthState)
    requires page.mode != Forgot
    ensures Toggle(Toggle(page, auth).0, auth).0 == page
  {
  }

  /** "Forgot password?": forgot mode, with the hook's error cleared and the fields kept. */
  function ForgotPassword(page: Page, auth: A.AuthState): (r: (Page, A.AuthState))
    ensures r.0.mode == Forgot && r.0.email == page.email && r.0.forgotSent == page.forgotSent
    ensures r.1.error.None? && r.1.loading == auth.loading
  {
    (page.(mode := Forgot), A.ClearError(auth))
  }

  /** "Back to log in", shown once the reset email is sent: log-in mode with the notice gone. */
  function BackToLogIn(page: Page): (r: Page)
    ensures r.mode == LogIn && !r.forgotSent
    ensures r.email == page.email && r.password == page.password && r.confirmPassword == page.confirmPassword
  {
    page.(forgotSent := false, mode := LogIn)
  }

  /** The reset path: a sent reset, then back to log in, lands on the log-in form with the address kept. */
  lemma ResetThenBack(page: Page, auth: A.AuthState)
    requires page.mode == Forgot && Trim(page.email) != ""
    ensures var r := Submit(page, auth, Done);
      && r.page.forgotSent
      && !r.navigatedHome
      && BackToLogIn(r.page) == page.(mode := LogIn, forgotSent := false)
  {
  }
}

=== FILE: catalog_mapping.dfy ===
/**
 * Reading the marketplace catalog (`useCatalogFromFirestore`): untyped
 * `Designs` and `Garments` documents become `Design` and `Garment` records
 * with defaults, inactive ones are dropped, and the hook keeps the lists, a
 * loading flag, a refreshing flag and an error.
 *
 * The clock is a parameter: `nowIso` is `new Date().toISOString()`,
 * `currentYear` is `new Date().getFullYear()`, and `iso` renders a stored
 * timestamp's milliseconds as `toDate().toISOString()` does.
 */
module CatalogMapping {

  import opened Core
  import opened Json
  import opened Product
  import Text

  const DefaultSizes: seq<string> := ["S", "M", "L"]
  const LoadFallback := "Failed to load catalog."

  /** The string elements of `items` that are allowed categories, in order. */
  function AllowedStrings(items: seq<Value>): (r: seq<string>)
    ensures AllCategories(r)
    ensures forall c :: c in r <==> Str(c) in items && IsCategory(c)
  {
    if items == [] then []
    else
      var rest := AllowedStrings(items[1..]);
      assert forall v :: v in items <==> v == items[0] || v in items[1..];
      if items[0].Str? && IsCategory(items[0].s) then [items[0].s] + rest else rest
  }

  /** Filtering works piecewise, so allowed elements keep their relative order. */
  lemma {:induction false} AllowedStringsConcat(a: seq<Value>, b: seq<Value>)
    ensures AllowedStrings(a + b) == AllowedStrings(a) + AllowedStrings(b)
  {
    if a == [] {
      assert a + b == b;
    } else {
      assert (a + b)[1..] == a[1..] + b;
      AllowedStringsConcat(a[1..], b);
    }
  }

  /** `normalizeCategories`: a non-array gives the default; an array keeps its allowed strings. */
  function NormalizeCategories(raw: Option<Value>): (r: seq<string>)
    ensures AllCategories(r)
    ensures !(raw.Some? && raw.value.Arr?) ==> r == DefaultCategories
    ensures raw.Some? && raw.value.Arr? ==> forall c :: c in r <==> Str(c) in raw.value.items && IsCategory(c)
  {
    match raw
    case Some(Arr(items)) => AllowedStrings(items)
    case _ => DefaultCategories
  }

  /** Stored category lists of allowed categories read back unchanged. */
  lemma {:induction false} AllowedStringsOfCategories(cs: seq<string>)
    requires AllCategories(cs)
    ensures AllowedStrings(Strs(cs).items) == cs
  {
    if cs != [] {
      var items := Strs(cs).items;
      assert AllCategories(cs[1..]) by {
        forall i | 0 <= i < |cs[1..]| ensures IsCategory(cs[1..][i]) {
          assert cs[1..][i] == cs[i + 1];
        }
      }
      AllowedStringsOfCategories(cs[1..]);
      assert items[1..] == Strs(cs[1..]).items;
      assert items[0] == Str(cs[0]) && IsCategory(cs[0]);
    }
  }

  /** The string elements of an array, in order. */
  function StringsOf(items: seq<Value>): (r: seq<string>)
    ensures forall s :: s in r <==> Str(s) in items
  {
    if items == [] then []
    else
      var rest := StringsOf(items[1..]);
      assert forall v :: v in items <==> v == items[0] || v in items[1..];
      if items[0].Str? then [items[0].s] + rest else rest
  }

  lemma {:induction false} StringsOfStrs(ss: seq<string>)
    ensures StringsOf(Strs(ss).items) == ss
  {
    if ss != [] {
      StringsOfStrs(ss[1..]);
      assert Strs(ss).items == [Str(ss[0])] + Strs(ss[1..]).items;
    }
  }

  /** A field read through `(x as string) ?? fallback` holds a string, null, or nothing. */
  predicate StringOrNullish(v: Option<Value>) {
    Nullish(v) || v.value.Str?
  }

  /**
   * The fields the mapping reads through unchecked casts hold what the casts
   * claim: `id`, `name` and `author` are strings when present, and an array
   * of `tags` holds strings.
   */
  predicate CastsHold(data: Doc) {
    && StringOrNullish(Get(data, "id"))
    && StringOrNullish(Get(data, "name"))
    && StringOrNullish(Get(data, "author"))
    && ("tags" in data && data["tags"].Arr? ==> forall i :: 0 <= i < |data["tags"].items| ==> data["tags"].items[i].Str?)
  }

  /** `(x as string) ?? fallback` on a field the casts cover. */
  function StringOr(v: Option<Value>, fallback: string): string
    requires StringOrNullish(v)
  {
    if Nullish(v) then fallback else v.value.s
  }

  /** `typeof x === "string" ? x : fallback`. */
  function StringElse(v: Option<Value>, fallback: string): string {
    match v
    case Some(Str(s)) => s
    case _ => fallback
  }

  /**
   * What V8 says when `ts.toDate()` finds a `toDate` that is not a function;
   * stored data never holds a function, so every truthy `toDate` is one.
   */
  const ToDateMessage := "ts.toDate is not a function"

  /** A stored map with a truthy `toDate` entry: `ts?.toDate` passes and the call throws a `TypeError`. */
  predicate CreatedThrows(v: Option<Value>) {
    v.Some? && v.value.Obj? && Truthy(Field(v, "toDate"))
  }

  /**
   * `toCreatedString`: a string as is, a timestamp rendered, a map with a
   * truthy `toDate` a thrown `TypeError`, anything else the current time.
   */
  function ToCreatedString(v: Option<Value>, nowIso: string, iso: int -> string): (r: Result<string, Thrown>)
    ensures r.Err? <==> CreatedThrows(v)
    ensures r.Err? ==> r.error == ErrorInstance(ToDateMessage)
    ensures v.Some? && v.value.Str? ==> r == Ok(v.value.s)
    ensures v.Some? && v.value.Timestamp? ==> r == Ok(iso(v.value.millis))
    ensures !(v.Some? && (v.value.Str? || v.value.Timestamp?)) && !CreatedThrows(v) ==> r == Ok(nowIso)
  {
    match v
    case Some(Str(s)) => Ok(s)
    case Some(Timestamp(ms)) => Ok(iso(ms))
    case Some(Obj(fields)) =>
      if Truthy(Field(v, "toDate")) then Err(ErrorInstance(ToDateMessage)) else Ok(nowIso)
    case _ => Ok(nowIso)
  }

  /** `data.active !== false`. */
  function ActiveFlag(data: Doc): bool {
    Get(data, "active") != Some(Bool(false))
  }

  /** A stored `categories` field that is an array holding at least one allowed category. */
  predicate HasAllowedCategory(raw: Option<Value>) {
    raw.Some? && raw.value.Arr? && AllowedStrings(raw.value.items) != []
  }

  /** `mapDesignDoc`: it throws exactly when `toCreatedString` does. */
  function MapDesignDoc(docId: string, data: Doc, nowIso: string, iso: int -> string): (r: Result<Design, Thrown>)
    requires CastsHold(data)
    ensures r.Err? <==> CreatedThrows(Get(data, "created"))
    ensures r.Err? ==> r.error == ErrorInstance(ToDateMessage)
    ensures r.Ok? ==> var d := r.value;
      && d.id == StringOr(Get(data, "id"), docId)
      && d.name == StringOr(Get(data, "name"), "Untitled Design") && d.author == StringOr(Get(data, "author"), "")
      && Ok(d.created) == ToCreatedString(Get(data, "created"), nowIso, iso)
      && d.categories != [] && AllCategories(d.categories)
      && (HasAllowedCategory(Get(data, "categories")) ==>
            d.categories == AllowedStrings(Get(data, "categories").value.items))
      && (!HasAllowedCategory(Get(data, "categories")) ==> d.categories == DefaultCategories)
      && d.active == Some(ActiveFlag(data))
      && (d.active == Some(false) <==> Get(data, "active") == Some(Bool(false)))
  {
    var categories := NormalizeCategories(Get(data, "categories"));
    match ToCreatedString(Get(data, "created"), nowIso, iso)
    case Err(e) => Err(e)
    case Ok(created) =>
      Ok(Design(
        StringOr(Get(data, "id"), docId),
        StringOr(Get(data, "name"), "Untitled Design"),
        StringOr(Get(data, "author"), ""),
        created,
        if |categories| > 0 then categories else DefaultCategories,
        StringElse(Get(data, "image"), "https://picsum.photos/seed/design/400/400"),
        StringElse(Get(data, "description"), ""),
        StringElse(Get(data, "price"), "$0.00"),
        AsNumber(Get(data, "priceAmount")),
        AsString(Get(data, "sku")),
        if "tags" in data && data["tags"].Arr? then Some(StringsOf(data["tags"].items)) else None,
        Some(ActiveFlag(data))))
  }

  /** A stored `created` map with a truthy non-function `toDate` makes the mapping throw. */
  lemma TruthyToDateThrows(docId: string, nowIso: string, iso: int -> string)
    ensures var data := map["created" := Obj(map["toDate" := Str("yes")])];
      && CastsHold(data)
      && MapDesignDoc(docId, data, nowIso, iso) == Err(ErrorInstance(ToDateMessage))
  {
    var data := map["created" := Obj(map["toDate" := Str("yes")])];
    assert CreatedThrows(Get(data, "created"));
  }

  /** Garment sizes: the string entries of an array, else the default; never empty. */
  function GarmentSizes(raw: Option<Value>): (r: seq<string>)
    ensures r != []
    ensures raw.Some? && raw.value.Arr? && StringsOf(raw.value.items) != [] ==> r == StringsOf(raw.value.items)
    ensures !(raw.Some? && raw.value.Arr?) || StringsOf(raw.value.items) == [] ==> r == DefaultSizes
  {
    var sizes := match raw case Some(Arr(items)) => StringsOf(items) case _ => DefaultSizes;
    if |sizes| > 0 then sizes else DefaultSizes
  }

  /** `mapGarmentDoc`. */
  function MapGarmentDoc(docId: string, data: Doc, currentYear: int): (g: Garment)
    requires CastsHold(data)
    ensures g.id == StringOr(Get(data, "id"), docId)
    ensures g.name == StringOr(Get(data, "name"), "Untitled Garment") && g.author == StringOr(Get(data, "author"), "")
    ensures g.categories != [] && AllCategories(g.categories)
    ensures HasAllowedCategory(Get(data, "categories")) ==>
      g.categories == AllowedStrings(Get(data, "categories").value.items)
    ensures !HasAllowedCategory(Get(data, "categories")) ==> g.categories == DefaultCategories
    ensures g.sizes != [] && g.sizes == GarmentSizes(Get(data, "sizes"))
    ensures g.active == Some(false) <==> Get(data, "active") == Some(Bool(false))
  {
    var categories := NormalizeCategories(Get(data, "categories"));
    Garment(
      StringOr(Get(data, "id"), docId),
      StringOr(Get(data, "name"), "Untitled Garment"),
      GarmentSizes(Get(data, "sizes")),
      StringElse(Get(data, "color"), "White"),
      StringElse(Get(data, "sku"), "GAR-" + Text.Take(docId, 8)),
      StringOr(Get(data, "author"), ""),
      AsNumber(Get(data, "releaseYear")).GetOr(Finite(currentYear as real)),
      if |categories| > 0 then categories else DefaultCategories,
      StringElse(Get(data, "image"), "https://picsum.photos/seed/garment/400/400"),
      AsString(Get(data, "description")),
      AsString(Get(data, "price")),
      Some(ActiveFlag(data)))
  }

  predicate AllCastsHold(docs: seq<StoredDoc>) {
    forall i :: 0 <= i < |docs| ==> CastsHold(docs[i].data)
  }

  /** Some document's `created` field makes the mapping throw. */
  predicate SomeCreatedThrows(docs: seq<StoredDoc>) {
    exists i :: 0 <= i < |docs| && CreatedThrows(Get(docs[i].data, "created"))
  }

  /** Some document throws exactly when the first one does or one of the rest does. */
  lemma SomeCreatedThrowsCons(docs: seq<StoredDoc>)
    requires docs != []
    ensures SomeCreatedThrows(docs) <==>
      CreatedThrows(Get(docs[0].data, "created")) || SomeCreatedThrows(docs[1..])
  {
    if SomeCreatedThrows(docs[1..]) {
      var i :| 0 <= i < |docs[1..]| && CreatedThrows(Get(docs[1..][i].data, "created"));
      assert docs[i + 1] == docs[1..][i];
    }
    if SomeCreatedThrows(docs) && !CreatedThrows(Get(docs[0].data, "created")) {
      var i :| 0 <= i < |docs| && CreatedThrows(Get(docs[i].data, "created"));
      assert docs[1..][i - 1] == docs[i];
    }
  }

  /**
   * `fetchDesigns`: the mapped designs of the snapshot that are not
   * inactive, in snapshot order; a document whose mapping throws rejects
   * the whole fetch, since `forEach` stops at the first exception.
   */
  function FetchDesigns(docs: seq<StoredDoc>, nowIso: string, iso: int -> string): (r: Result<seq<Design>, Thrown>)
    requires AllCastsHold(docs)
    ensures r.Err? <==> SomeCreatedThrows(docs)
    ensures r.Err? ==> r.error == ErrorInstance(ToDateMessage)
    ensures r.Ok? ==> |r.value| <= |docs| && forall i :: 0 <= i < |r.value| ==> r.value[i].active == Some(true)
  {
    if docs == [] then Ok([])
    else
      SomeCreatedThrowsCons(docs);
      PushActive(MapDesignDoc(docs[0].id, docs[0].data, nowIso, iso), FetchDesigns(docs[1..], nowIso, iso))
  }

  /** One `forEach` step in front of the rest: a throw stops it, an active design is pushed first. */
  function PushActive(head: Result<Design, Thrown>, rest: Result<seq<Design>, Thrown>): (r: Result<seq<Design>, Thrown>)
    ensures r.Err? <==> head.Err? || rest.Err?
    ensures head.Err? ==> r == Err(head.error)
    ensures head.Ok? && rest.Err? ==> r == rest
    ensures r.Ok? && head.value.active != Some(false) ==> r.value == [head.value] + rest.value
    ensures r.Ok? && head.value.active == Some(false) ==> r.value == rest.value
  {
    match head
    case Err(e) => Err(e)
    case Ok(d) =>
      match rest
      case Err(e) => Err(e)
      case Ok(ds) => Ok(if d.active != Some(false) then [d] + ds else ds)
  }

  /** Running the rest of the snapshot after one step is the same as joining after it. */
  lemma PushActiveThen(head: Result<Design, Thrown>, x: Result<seq<Design>, Thrown>, y: Result<seq<Design>, Thrown>)
    ensures ThenFetch(PushActive(head, x), y) == PushActive(head, ThenFetch(x, y))
  {
    if head.Ok? && x.Ok? && y.Ok? && head.value.active != Some(false) {
      assert [head.value] + (x.value + y.value) == ([head.value] + x.value) + y.value;
    }
  }

  /** Document `doc` is not inactive and maps to the design `d`. */
  predicate FetchesDesign(doc: StoredDoc, nowIso: string, iso: int -> string, d: Design)
    requires CastsHold(doc.data)
  {
    ActiveFlag(doc.data) && MapDesignDoc(doc.id, doc.data, nowIso, iso) == Ok(d)
  }

  /** The first document contributes its design exactly when it is not inactive. */
  lemma FetchDesignsHead(docs: seq<StoredDoc>, nowIso: string, iso: int -> string, d: Design)
    requires docs != [] && AllCastsHold(docs)
    ensures AllCastsHold(docs[1..])
    ensures FetchDesigns(docs, nowIso, iso).Ok? ==>
      && FetchDesigns(docs[1..], nowIso, iso).Ok?
      && (d in FetchDesigns(docs, nowIso, iso).value <==>
            FetchesDesign(docs[0], nowIso, iso, d) || d in FetchDesigns(docs[1..], nowIso, iso).value)
  {
    var head := MapDesignDoc(docs[0].id, docs[0].data, nowIso, iso);
    assert head.Ok? ==> head.value.active == Some(ActiveFlag(docs[0].data));
  }

  /** When the fetch resolves, a design is fetched exactly when some active document maps to it. */
  lemma {:induction false} FetchDesignsMembers(docs: seq<StoredDoc>, nowIso: string, iso: int -> string, d: Design)
    requires AllCastsHold(docs)
    ensures FetchDesigns(docs, nowIso, iso).Ok? ==>
      (d in FetchDesigns(docs, nowIso, iso).value <==>
         exists i :: 0 <= i < |docs| && FetchesDesign(docs[i], nowIso, iso, d))
  {
    if docs != [] && FetchDesigns(docs, nowIso, iso).Ok? {
      var rest := docs[1..];
      FetchDesignsHead(docs, nowIso, iso, d);
      FetchDesignsMembers(rest, nowIso, iso, d);
      if d in FetchDesigns(rest, nowIso, iso).value {
        var i :| 0 <= i < |rest| && FetchesDesign(rest[i], nowIso, iso, d);
        assert docs[i + 1] == rest[i];
      }
      if exists i :: 0 <= i < |docs| && FetchesDesign(docs[i], nowIso, iso, d) {
        var i :| 0 <= i < |docs| && FetchesDesign(docs[i], nowIso, iso, d);
        if i > 0 {
          assert rest[i - 1] == docs[i];
        }
      }
    }
  }

  /** Two fetches run one after the other: the first rejection wins, else the lists are joined. */
  function ThenFetch(a: Result<seq<Design>, Thrown>, b: Result<seq<Design>, Thrown>): (r: Result<seq<Design>, Thrown>)
    ensures r.Ok? <==> a.Ok? && b.Ok?
    ensures r.Ok? ==> r.value == a.value + b.value
    ensures a.Err? ==> r == a
    ensures a.Ok? && b.Err? ==> r == b
  {
    match a
    case Err(e) => Err(e)
    case Ok(x) =>
      match b
      case Err(e) => Err(e)
      case Ok(y) => Ok(x + y)
  }

  /** Fetching works document by document, so fetched designs keep snapshot order. */
  lemma {:induction false} FetchDesignsConcat(a: seq<StoredDoc>, b: seq<StoredDoc>, nowIso: string, iso: int -> string)
    requires AllCastsHold(a) && AllCastsHold(b)
    ensures AllCastsHold(a + b)
    ensures FetchDesigns(a + b, nowIso, iso) == ThenFetch(FetchDesigns(a, nowIso, iso), FetchDesigns(b, nowIso, iso))
  {
    if a == [] {
      assert a + b == b;
      var y := FetchDesigns(b, nowIso, iso);
      assert y.Ok? ==> [] + y.value == y.value;
    } else {
      var ab := a + b;
      assert ab[1..] == a[1..] + b;
      assert ab[0] == a[0];
      FetchDesignsConcat(a[1..], b, nowIso, iso);
      var head := MapDesignDoc(a[0].id, a[0].data, nowIso, iso);
      assert FetchDesigns(ab, nowIso, iso) == PushActive(head, FetchDesigns(ab[1..], nowIso, iso));
      assert FetchDesigns(a, nowIso, iso) == PushActive(head, FetchDesigns(a[1..], nowIso, iso));
      PushActiveThen(head, FetchDesigns(a[1..], nowIso, iso), FetchDesigns(b, nowIso, iso));
    }
  }

  /**
   * One document with a throwing `created` anywhere in the snapshot fails
   * the whole catalog load: both lists are emptied and the `TypeError`'s
   * message is shown.
   */
  lemma ThrowingCreatedFailsLoad(docs: seq<StoredDoc>, nowIso: string, iso: int -> string,
                                 s: State, isUserRefresh: bool, i: nat)
    requires AllCastsHold(docs)
    requires i < |docs| && CreatedThrows(Get(docs[i].data, "created"))
    ensures FetchDesigns(docs, nowIso, iso) == Err(ErrorInstance(ToDateMessage))
    ensures var r := LoadSettle(LoadStart(s, isUserRefresh), Err(FetchDesigns(docs, nowIso, iso).error));
      r.designs == [] && r.garments == [] && r.error == Some(ToDateMessage)
  {
  }

  /** `fetchGarments`: the mapped garments of the snapshot that are not inactive, in snapshot order. */
  function FetchGarments(docs: seq<StoredDoc>, currentYear: int): (r: seq<Garment>)
    requires AllCastsHold(docs)
    ensures forall i :: 0 <= i < |r| ==> r[i].active == Some(true)
  {
    if docs == [] then []
    else
      var g := MapGarmentDoc(docs[0].id, docs[0].data, currentYear);
      var rest := FetchGarments(docs[1..], currentYear);
      if g.active != Some(false) then [g] + rest else rest
  }

  /** Document `doc` is not inactive and maps to the garment `g`. */
  predicate FetchesGarment(doc: StoredDoc, currentYear: int, g: Garment)
    requires CastsHold(doc.data)
  {
    ActiveFlag(doc.data) && g == MapGarmentDoc(doc.id, doc.data, currentYear)
  }

  /** The first document contributes its garment exactly when it is not inactive. */
  lemma FetchGarmentsHead(docs: seq<StoredDoc>, currentYear: int, g: Garment)
    requires docs != [] && AllCastsHold(docs)
    ensures AllCastsHold(docs[1..])
    ensures g in FetchGarments(docs, currentYear) <==>
      FetchesGarment(docs[0], currentYear, g) || g in FetchGarments(docs[1..], currentYear)
  {
    var head := MapGarmentDoc(docs[0].id, docs[0].data, currentYear);
    assert head.active == Some(ActiveFlag(docs[0].data));
  }

  /** A garment is fetched exactly when some active document maps to it. */
  lemma {:induction false} FetchGarmentsMembers(docs: seq<StoredDoc>, currentYear: int, g: Garment)
    requires AllCastsHold(docs)
    ensures g in FetchGarments(docs, currentYear) <==>
      exists i :: 0 <= i < |docs| && FetchesGarment(docs[i], currentYear, g)
  {
    if docs != [] {
      var rest := docs[1..];
      FetchGarmentsHead(docs, currentYear, g);
      FetchGarmentsMembers(rest, currentYear, g);
      if g in FetchGarments(rest, currentYear) {
        var i :| 0 <= i < |rest| && FetchesGarment(rest[i], currentYear, g);
        assert docs[i + 1] == rest[i];
      }
      if exists i :: 0 <= i < |docs| && FetchesGarment(docs[i], currentYear, g) {
        var i :| 0 <= i < |docs| && FetchesGarment(docs[i], currentYear, g);
        if i > 0 {
          assert rest[i - 1] == docs[i];
        }
      }
    }
  }

  // ---------------------------------------------------------------------------
  // The hook's state.
  // ---------------------------------------------------------------------------

  datatype State = State(
    designs: seq<Design>,
    garments: seq<Garment>,
    loading: bool,
    refreshing: bool,
    error: Option<string>)

  /** Before the first load: nothing listed, loading. */
  const Initial := State([], [], true, false, None)

  /** `load` up to its fetches: the first load shows `loading`, a user refresh shows `refreshing`. */
  function LoadStart(s: State, isUserRefresh: bool): (r: State)
    ensures r.error.None? && r.designs == s.designs && r.garments == s.garments
    ensures isUserRefresh ==> r.refreshing && r.loading == s.loading
    ensures !isUserRefresh ==> r.loading && r.refreshing == s.refreshing
  {
    if isUserRefresh then s.(refreshing := true, error := None)
    else s.(loading := true, error := None)
  }

  /** `load` once both fetches settle: both lists replaced, or both emptied with the error kept. */
  function LoadSettle(s: State, outcome: Result<(seq<Design>, seq<Garment>), Thrown>): (r: State)
    ensures !r.loading && !r.refreshing
    ensures outcome.Ok? ==> r.designs == outcome.value.0 && r.garments == outcome.value.1 && r.error == s.error
    ensures outcome.Err? ==> r.designs == [] && r.garments == [] && r.error == Some(MessageOr(outcome.error, LoadFallback))
  {
    match outcome
    case Ok((ds, gs)) => s.(designs := ds, garments := gs, loading := false, refreshing := false)
    case Err(e) =>
      s.(designs := [], garments := [], error := Some(MessageOr(e, LoadFallback)), loading := false, refreshing := false)
  }

  /** A whole load: both flags end off, and an error is set exactly when the load failed. */
  lemma LoadOutcome(s: State, isUserRefresh: bool, outcome: Result<(seq<Design>, seq<Garment>), Thrown>)
    ensures var r := LoadSettle(LoadStart(s, isUserRefresh), outcome);
      && !r.loading && !r.refreshing
      && (r.error.Some? <==> outcome.Err?)
      && (outcome.Err? ==> r.designs == [] && r.garments == [])
  {
  }
}

=== FILE: catalog_writes.dfy ===
/**
 * Writing new catalog entries (`lib/catalogFirestore.ts`): parsing the
 * typed-in category and size lists and building the stored document with
 * its defaults. The generated document id and the clock are parameters.
 */
module CatalogWrites {

  import opened Core
  import opened Json
  import opened Product
  import opened Text
  import CM = CatalogMapping

  /** The tokens of a typed-in list: trimmed, lower-cased, split on runs of white space and commas. */
  function CategoryTokens(value: string): seq<string> {
    Tokens(ToLower(Trim(value)), IsSpaceOrComma)
  }

  /** The allowed categories among `ts`, in order, duplicates kept. */
  function KeepAllowed(ts: seq<string>): (r: seq<string>)
    ensures AllCategories(r)
    ensures forall c :: c in r <==> c in ts && IsCategory(c)
  {
    if ts == [] then []
    else
      var rest := KeepAllowed(ts[1..]);
      assert forall c :: c in ts <==> c == ts[0] || c in ts[1..];
      if IsCategory(ts[0]) then [ts[0]] + rest else rest
  }

  /** Filtering works piecewise: allowed tokens keep their order and multiplicity. */
  lemma {:induction false} KeepAllowedConcat(a: seq<string>, b: seq<string>)
    ensures KeepAllowed(a + b) == KeepAllowed(a) + KeepAllowed(b)
  {
    if a == [] {
      assert a + b == b;
    } else {
      assert (a + b)[1..] == a[1..] + b;
      KeepAllowedConcat(a[1..], b);
    }
  }

  /** `parseCategories`: the allowed tokens, or the default when there is none. */
  function ParseCategories(value: string): (r: seq<string>)
    ensures r != [] && AllCategories(r)
    ensures forall c :: c in r ==> c in CategoryTokens(value) || c in DefaultCategories
    ensures (exists t :: t in CategoryTokens(value) && IsCategory(t)) ==> r == KeepAllowed(CategoryTokens(value))
    ensures (forall t :: t in CategoryTokens(value) ==> !IsCategory(t)) ==> r == DefaultCategories
  {
    var filtered := KeepAllowed(CategoryTokens(value));
    if |filtered| > 0 then
      assert filtered[0] in filtered;
      filtered
    else DefaultCategories
  }

  /** `fields.categories ? parseCategories(fields.categories) : DEFAULT_CATEGORIES`. */
  function CategoriesField(categories: Option<string>): (r: seq<string>)
    ensures r != [] && AllCategories(r)
    ensures categories.None? || categories.value == [] ==> r == DefaultCategories
    ensures categories.Some? && categories.value != [] ==> r == ParseCategories(categories.value)
  {
    if categories.Some? && categories.value != [] then ParseCategories(categories.value) else DefaultCategories
  }

  /** `s?.trim() || fallback`. */
  function TrimmedOr(s: Option<string>, fallback: string): (r: string)
    ensures s.None? || IsBlank(s.value) ==> r == fallback
    ensures s.Some? && !IsBlank(s.value) ==> r == Trim(s.value)
  {
    if s.Some? && Trim(s.value) != [] then Trim(s.value) else fallback
  }

  /** A character of a category name: a small ASCII letter or a dash. */
  predicate CategoryChar(x: char) {
    'a' <= x <= 'z' || x == '-'
  }

  /** Every category name is a non-empty run of small letters and dashes. */
  lemma CategorySpelling(c: string)
    requires IsCategory(c)
    ensures c != [] && forall i :: 0 <= i < |c| ==> CategoryChar(c[i])
  {
  }

  /** Such a run is a token of the split, unchanged by lower-casing, and its upper-cased form has no white space. */
  lemma CategoryCase(c: string)
    requires c != [] && forall i :: 0 <= i < |c| ==> CategoryChar(c[i])
    ensures IsToken(c, IsSpaceOrComma) && ToLower(c) == c && ToLower(ToUpper(c)) == c
    ensures !IsSpace(ToUpper(c)[0]) && !IsSpace(c[|c| - 1])
  {
  }

  /** Lower-casing a typed list undoes the upper-casing of its first category. */
  lemma LowerOfTyped(a: string, b: string)
    requires IsCategory(a) && IsCategory(b)
    ensures ToLower(ToUpper(a) + "," + b) == a + "," + b
  {
    CategorySpelling(a);
    CategorySpelling(b);
    CategoryCase(a);
    CategoryCase(b);
    ToLowerConcat(ToUpper(a) + ",", b);
    ToLowerConcat(ToUpper(a), ",");
  }

  /** The typed list needs no trimming. */
  lemma TrimOfTyped(a: string, b: string)
    requires IsCategory(a) && IsCategory(b)
    ensures Trim(ToUpper(a) + "," + b) == ToUpper(a) + "," + b
  {
    CategorySpelling(a);
    CategorySpelling(b);
    CategoryCase(a);
    CategoryCase(b);
    var s := ToUpper(a) + "," + b;
    assert s[0] == ToUpper(a)[0] && s[|s| - 1] == b[|b| - 1];
    TrimKeeps(s);
  }

  /**
   * A typed list such as `"HOODIES,new"` gives its two categories: the
   * input is trimmed and lower-cased before it is split.
   */
  lemma CategoriesOfList(a: string, b: string)
    requires IsCategory(a) && IsCategory(b)
    ensures CategoriesField(Some(ToUpper(a) + "," + b)) == [a, b]
  {
    TokensOfTyped(a, b);
    KeepBothAllowed(a, b);
  }

  /** The typed list splits into its two categories, lower-cased. */
  lemma TokensOfTyped(a: string, b: string)
    requires IsCategory(a) && IsCategory(b)
    ensures CategoryTokens(ToUpper(a) + "," + b) == [a, b]
  {
    TrimOfTyped(a, b);
    LowerOfTyped(a, b);
    CategoryToken(a);
    CategoryToken(b);
    assert a + "," + b == a + [','] + b;
    TokensAtSeparator(a, ',', b, IsSpaceOrComma);
    TokensOfToken(a, IsSpaceOrComma);
    TokensOfToken(b, IsSpaceOrComma);
  }

  /** Two allowed categories pass the filter. */
  lemma KeepBothAllowed(a: string, b: string)
    requires IsCategory(a) && IsCategory(b)
    ensures KeepAllowed([a, b]) == [a, b]
  {
    assert KeepAllowed([b]) == [b] by {
      assert [b][1..] == [];
    }
    assert [a, b][1..] == [b];
    assert KeepAllowed([a, b]) == [a] + KeepAllowed([b]);
  }

  /** Every category name is a token of the split. */
  lemma CategoryToken(c: string)
    requires IsCategory(c)
    ensures IsToken(c, IsSpaceOrComma)
  {
    CategorySpelling(c);
    CategoryCase(c);
  }

  /** `"DES-"` / `"GAR-"` and the upper-cased first eight characters of the document id. */
  function SkuFor(prefix: string, id: string): (r: string)
    ensures |r| == |prefix| + (if |id| < 8 then |id| else 8)
    ensures r[..|prefix|] == prefix
    ensures forall i :: 0 <= i < |r| - |prefix| ==> r[|prefix| + i] == UpperChar(id[i])
  {
    prefix + ToUpper(Take(id, 8))
  }

  /** Only the first eight characters of the id matter, and not their case. */
  lemma SkuIgnoresTailAndCase(prefix: string, a: string, b: string)
    requires |a| >= 8 && |b| >= 8 && ToUpper(a[..8]) == ToUpper(b[..8])
    ensures SkuFor(prefix, a) == SkuFor(prefix, b)
  {
  }

  /** The id part of a sku holds no ASCII small letter, so a sku is its own upper-casing. */
  lemma {:induction false} SkuIsUpperCase(prefix: string, id: string)
    ensures ToUpper(SkuFor(prefix, id)) == ToUpper(prefix) + SkuFor(prefix, id)[|prefix|..]
  {
    var r := SkuFor(prefix, id);
    assert r == prefix + r[|prefix|..];
    ToUpperConcat(prefix, r[|prefix|..]);
    ToUpperIdempotent(Take(id, 8));
  }

  datatype DesignFields = DesignFields(
    name: string, description: Option<string>, image: Option<string>, categories: Option<string>)

  /** `createDesignInFirestore`: the design written under the new id `refId`. */
  function CreateDesign(authorEmail: string, fields: DesignFields, refId: string, nowIso: string): (d: Design)
    ensures d.id == refId && d.author == authorEmail && d.created == nowIso
    ensures d.name == (if IsBlank(fields.name) then "Untitled Design" else Trim(fields.name))
    ensures d.categories != [] && AllCategories(d.categories) && d.categories == CategoriesField(fields.categories)
    ensures d.image == TrimmedOr(fields.image, "https://picsum.photos/seed/design-new/400/400")
    ensures d.description == TrimmedOr(fields.description, "")
    ensures d.price == "$0.00" && d.priceAmount == Some(Finite(0.0))
    ensures d.tags == Some(["user-created"]) && d.active == Some(true)
    ensures d.sku == Some(SkuFor("DES-", refId))
  {
    Design(
      refId,
      TrimmedOr(Some(fields.name), "Untitled Design"),
      authorEmail,
      nowIso,
      CategoriesField(fields.categories),
      TrimmedOr(fields.image, "https://picsum.photos/seed/design-new/400/400"),
      TrimmedOr(fields.description, ""),
      "$0.00",
      Some(Finite(0.0)),
      Some(SkuFor("DES-", refId)),
      Some(["user-created"]),
      Some(true))
  }

  /** The document stored for a created design. */
  function EncodeCreatedDesign(d: Design): Doc
    requires d.priceAmount.Some? && d.sku.Some? && d.tags.Some? && d.active.Some?
  {
    map[
      "id" := Str(d.id), "name" := Str(d.name), "author" := Str(d.author), "created" := Str(d.created),
      "categories" := Strs(d.categories), "image" := Str(d.image), "description" := Str(d.description),
      "price" := Str(d.price), "priceAmount" := Num(d.priceAmount.value), "sku" := Str(d.sku.value),
      "tags" := Strs(d.tags.value), "active" := Bool(d.active.value)]
  }

  /** What a stored design document holds, field by field, as the catalog reads it. */
  predicate DesignStored(doc: Doc, d: Design)
    requires d.priceAmount.Some? && d.sku.Some? && d.tags.Some? && d.active.Some?
  {
    && Get(doc, "id") == Some(Str(d.id)) && Get(doc, "name") == Some(Str(d.name))
    && Get(doc, "author") == Some(Str(d.author)) && Get(doc, "created") == Some(Str(d.created))
    && Get(doc, "categories") == Some(Strs(d.categories)) && Get(doc, "image") == Some(Str(d.image))
    && Get(doc, "description") == Some(Str(d.description)) && Get(doc, "price") == Some(Str(d.price))
    && Get(doc, "priceAmount") == Some(Num(d.priceAmount.value)) && Get(doc, "sku") == Some(Str(d.sku.value))
    && Get(doc, "tags") == Some(Strs(d.tags.value)) && Get(doc, "active") == Some(Bool(d.active.value))
  }

  /** The encoded design holds each field under its name. */
  lemma EncodedDesignFields(d: Design)
    requires d.priceAmount.Some? && d.sku.Some? && d.tags.Some? && d.active.Some?
    ensures DesignStored(EncodeCreatedDesign(d), d)
  {
  }

  /** Any document holding an active design's fields, with allowed non-empty categories, maps back to that design. */
  lemma StoredDesignReadsBack(doc: Doc, d: Design, readerNow: string, iso: int -> string)
    requires d.priceAmount.Some? && d.sku.Some? && d.tags.Some? && d.active == Some(true)
    requires d.categories != [] && AllCategories(d.categories)
    requires DesignStored(doc, d)
    ensures CM.CastsHold(doc)
    ensures CM.MapDesignDoc(d.id, doc, readerNow, iso) == Ok(d)
  {
    CM.AllowedStringsOfCategories(d.categories);
    CM.StringsOfStrs(d.tags.value);
    assert doc["tags"] == Strs(d.tags.value);
  }

  /**
   * Any active design with allowed, non-empty categories and all optional
   * fields present is stored so that the catalog reads it back unchanged.
   */
  lemma EncodedDesignReadsBack(d: Design, readerNow: string, iso: int -> string)
    requires d.priceAmount.Some? && d.sku.Some? && d.tags.Some? && d.active == Some(true)
    requires d.categories != [] && AllCategories(d.categories)
    ensures CM.CastsHold(EncodeCreatedDesign(d))
    ensures CM.MapDesignDoc(d.id, EncodeCreatedDesign(d), readerNow, iso) == Ok(d)
  {
    EncodedDesignFields(d);
    StoredDesignReadsBack(EncodeCreatedDesign(d), d, readerNow, iso);
  }

  /** A design created here reads back from the catalog exactly as it was written. */
  lemma CreatedDesignReadsBack(authorEmail: string, fields: DesignFields, refId: string, nowIso: string,
                               readerNow: string, iso: int -> string)
    ensures var d := CreateDesign(authorEmail, fields, refId, nowIso);
      CM.CastsHold(EncodeCreatedDesign(d))
      && CM.MapDesignDoc(refId, EncodeCreatedDesign(d), readerNow, iso) == Ok(d)
  {
    EncodedDesignReadsBack(CreateDesign(authorEmail, fields, refId, nowIso), readerNow, iso);
  }

  /** The request a create function sends (`setDoc(ref, docData)`) and what its promise settles to. */
  datatype Write = Write(stored: Doc, reply: Result<string, Thrown>)

  /**
   * `createDesignInFirestore` as a whole, given the outcome of `setDoc`: the
   * document is sent, and the new id comes back only once the write is done;
   * a failed write rejects with its error.
   */
  function CreateDesignInFirestore(authorEmail: string, fields: DesignFields, refId: string, nowIso: string,
                                   setDoc: Outcome<Thrown>): (w: Write)
    ensures w.stored == EncodeCreatedDesign(CreateDesign(authorEmail, fields, refId, nowIso))
    ensures w.reply.Ok? <==> setDoc.Done?
    ensures w.reply.Ok? ==> w.reply.value == refId
    ensures setDoc.Failed? ==> w.reply == Err(setDoc.error)
  {
    var doc := EncodeCreatedDesign(CreateDesign(authorEmail, fields, refId, nowIso));
    match setDoc
    case Done => Write(doc, Ok(refId))
    case Failed(e) => Write(doc, Err(e))
  }

  /** The id a successful create returns names the stored document, which reads back as the created design. */
  lemma CreateDesignReplyReadsBack(authorEmail: string, fields: DesignFields, refId: string, nowIso: string,
                                   readerNow: string, iso: int -> string)
    ensures var w := CreateDesignInFirestore(authorEmail, fields, refId, nowIso, Done);
      && w.reply == Ok(refId) && CM.CastsHold(w.stored)
      && CM.MapDesignDoc(w.reply.value, w.stored, readerNow, iso) == Ok(CreateDesign(authorEmail, fields, refId, nowIso))
  {
    CreatedDesignReadsBack(authorEmail, fields, refId, nowIso, readerNow, iso);
  }

  datatype GarmentFields = GarmentFields(
    name: string, description: Option<string>, image: Option<string>, color: Option<string>,
    sizes: Option<string>, categories: Option<string>, releaseYear: Option<string>)

  /** `fields.sizes?.trim().split(/[\s,]+/).filter(Boolean)`, defaulting when absent or empty. */
  function SizesField(sizes: Option<string>): (r: seq<string>)
    ensures r != []
    ensures forall i :: 0 <= i < |r| ==> r[i] != []
    ensures sizes.None? ==> r == CM.DefaultSizes
    ensures sizes.Some? && Tokens(sizes.value, IsSpaceOrComma) != [] ==> r == Tokens(sizes.value, IsSpaceOrComma)
    ensures sizes.Some? && Tokens(sizes.value, IsSpaceOrComma) == [] ==> r == CM.DefaultSizes
  {
    assert CM.DefaultSizes[0] == "S" && CM.DefaultSizes[1] == "M" && CM.DefaultSizes[2] == "L";
    if sizes.None? then CM.DefaultSizes
    else
      TokensIgnoreTrim(sizes.value);
      var ts := Tokens(Trim(sizes.value), IsSpaceOrComma);
      if |ts| > 0 then
        assert forall i :: 0 <= i < |ts| ==> IsToken(ts[i], IsSpaceOrComma);
        ts
      else CM.DefaultSizes
  }

  /** A typed list such as `" M, XL "` gives its two sizes, padding and separators dropped. */
  lemma SizesOfList(a: string, b: string)
    requires IsToken(a, IsSpaceOrComma) && IsToken(b, IsSpaceOrComma)
    ensures SizesField(Some(" " + a + ", " + b + " ")) == [a, b]
  {
    var tail := " " + b + " ";
    assert " " + a + ", " + b + " " == " " + (a + [','] + tail);
    TokensSkipLeading(" ", a + [','] + tail, IsSpaceOrComma);
    TokensAtSeparator(a, ',', tail, IsSpaceOrComma);
    TokensOfToken(a, IsSpaceOrComma);
    assert tail == " " + (b + " ");
    TokensSkipLeading(" ", b + " ", IsSpaceOrComma);
    TokensSkipTrailing(b, " ", IsSpaceOrComma);
    TokensOfToken(b, IsSpaceOrComma);
  }

  /** Blank or separator-only sizes fall back to S, M, L. */
  lemma SizesOfSeparators(s: string)
    requires forall i :: 0 <= i < |s| ==> IsSpaceOrComma(s[i])
    ensures SizesField(Some(s)) == CM.DefaultSizes
  {
    TokensSkipLeading(s, [], IsSpaceOrComma);
    assert s + [] == s;
  }

  /** The release year: `parseInt` of the trimmed text, the current year when blank or not a number. */
  function ReleaseYearField(releaseYear: Option<string>, currentYear: int): (r: int)
    ensures releaseYear.None? || IsBlank(releaseYear.value) ==> r == currentYear
    ensures releaseYear.Some? && !IsBlank(releaseYear.value) && ParseInt(Trim(releaseYear.value)).Some? ==>
      r == ParseInt(Trim(releaseYear.value)).value
    ensures releaseYear.Some? && ParseInt(Trim(releaseYear.value)).None? ==> r == currentYear
  {
    if releaseYear.Some? && Trim(releaseYear.value) != [] then
      ParseInt(Trim(releaseYear.value)).GetOr(currentYear)
    else currentYear
  }

  /** `createGarmentInFirestore`: the garment written under the new id `refId`. */
  function CreateGarment(authorEmail: string, fields: GarmentFields, refId: string, currentYear: int): (g: Garment)
    ensures g.id == refId && g.author == authorEmail
    ensures g.name == (if IsBlank(fields.name) then "Untitled Garment" else Trim(fields.name))
    ensures g.sizes != [] && g.sizes == SizesField(fields.sizes)
    ensures g.categories != [] && AllCategories(g.categories) && g.categories == CategoriesField(fields.categories)
    ensures g.color == TrimmedOr(fields.color, "White")
    ensures g.releaseYear == Finite(ReleaseYearField(fields.releaseYear, currentYear) as real)
    ensures g.image == TrimmedOr(fields.image, "https://picsum.photos/seed/garment-new/400/400")
    ensures g.description == Some(TrimmedOr(fields.description, ""))
    ensures g.sku == SkuFor("GAR-", refId)
    ensures g.price == Some("$24.99") && g.active == Some(true)
  {
    Garment(
      refId,
      TrimmedOr(Some(fields.name), "Untitled Garment"),
      SizesField(fields.sizes),
      TrimmedOr(fields.color, "White"),
      SkuFor("GAR-", refId),
      authorEmail,
      Finite(ReleaseYearField(fields.releaseYear, currentYear) as real),
      CategoriesField(fields.categories),
      TrimmedOr(fields.image, "https://picsum.photos/seed/garment-new/400/400"),
      Some(TrimmedOr(fields.description, "")),
      Some("$24.99"),
      Some(true))
  }

  /** The document stored for a created garment. */
  function EncodeCreatedGarment(g: Garment): Doc
    requires g.description.Some? && g.price.Some? && g.active.Some?
  {
    map[
      "id" := Str(g.id), "name" := Str(g.name), "sizes" := Strs(g.sizes), "color" := Str(g.color),
      "sku" := Str(g.sku), "author" := Str(g.author), "releaseYear" := Num(g.releaseYear),
      "categories" := Strs(g.categories), "image" := Str(g.image), "description" := Str(g.description.value),
      "price" := Str(g.price.value), "active" := Bool(g.active.value)]
  }

  /** What a stored garment document holds, field by field, as the catalog reads it. */
  predicate GarmentStored(doc: Doc, g: Garment)
    requires g.description.Some? && g.price.Some? && g.active.Some?
  {
    && Get(doc, "id") == Some(Str(g.id)) && Get(doc, "name") == Some(Str(g.name))
    && Get(doc, "sizes") == Some(Strs(g.sizes)) && Get(doc, "color") == Some(Str(g.color))
    && Get(doc, "sku") == Some(Str(g.sku)) && Get(doc, "author") == Some(Str(g.author))
    && Get(doc, "releaseYear") == Some(Num(g.releaseYear)) && Get(doc, "categories") == Some(Strs(g.categories))
    && Get(doc, "image") == Some(Str(g.image)) && Get(doc, "description") == Some(Str(g.description.value))
    && Get(doc, "price") == Some(Str(g.price.value)) && Get(doc, "active") == Some(Bool(g.active.value))
    && Get(doc, "tags") == None
  }

  /** The encoded garment holds each field under its name, and no `tags`. */
  lemma EncodedGarmentFields(g: Garment)
    requires g.description.Some? && g.price.Some? && g.active.Some?
    ensures GarmentStored(EncodeCreatedGarment(g), g)
  {
    var doc := EncodeCreatedGarment(g);
    assert doc.Keys == {"id", "name", "sizes", "color", "sku", "author", "releaseYear",
                        "categories", "image", "description", "price", "active"};
    assert "tags" !in doc.Keys;
  }

  /** The shape of a garment that the store and the catalog agree on. */
  predicate Storable(g: Garment) {
    && g.description.Some? && g.price.Some? && g.active == Some(true)
    && g.sizes != [] && g.categories != [] && AllCategories(g.categories)
  }

  /** Any document holding a storable garment's fields maps back to that garment. */
  lemma StoredGarmentReadsBack(doc: Doc, g: Garment, readerYear: int)
    requires Storable(g)
    requires GarmentStored(doc, g)
    ensures CM.CastsHold(doc)
    ensures CM.MapGarmentDoc(g.id, doc, readerYear) == g
  {
    var m := CM.MapGarmentDoc(g.id, doc, readerYear);
    assert m.sizes == g.sizes by {
      CM.StringsOfStrs(g.sizes);
    }
    assert m.categories == g.categories by {
      CM.AllowedStringsOfCategories(g.categories);
    }
    assert m.id == g.id && m.name == g.name && m.author == g.author;
    assert m.color == g.color && m.sku == g.sku && m.image == g.image;
    assert m.releaseYear == g.releaseYear;
    assert m.description == g.description && m.price == g.price && m.active == g.active;
  }

  /**
   * Any active garment with sizes, allowed non-empty categories and a
   * description and price is stored so that the catalog reads it back unchanged.
   */
  lemma EncodedGarmentReadsBack(g: Garment, readerYear: int)
    requires Storable(g)
    ensures CM.CastsHold(EncodeCreatedGarment(g))
    ensures CM.MapGarmentDoc(g.id, EncodeCreatedGarment(g), readerYear) == g
  {
    EncodedGarmentFields(g);
    StoredGarmentReadsBack(EncodeCreatedGarment(g), g, readerYear);
  }

  /** A garment created here reads back from the catalog exactly as it was written. */
  lemma CreatedGarmentReadsBack(authorEmail: string, fields: GarmentFields, refId: string, currentYear: int,
                                readerYear: int)
    ensures var g := CreateGarment(authorEmail, fields, refId, currentYear);
      CM.CastsHold(EncodeCreatedGarment(g))
      && CM.MapGarmentDoc(refId, EncodeCreatedGarment(g), readerYear) == g
  {
    EncodedGarmentReadsBack(CreateGarment(authorEmail, fields, refId, currentYear), readerYear);
  }

  /**
   * `createGarmentInFirestore` as a whole, given the outcome of `setDoc`: the
   * document is sent, and the new id comes back only once the write is done;
   * a failed write rejects with its error.
   */
  function CreateGarmentInFirestore(authorEmail: string, fields: GarmentFields, refId: string, currentYear: int,
                                    setDoc: Outcome<Thrown>): (w: Write)
    ensures w.stored == EncodeCreatedGarment(CreateGarment(authorEmail, fields, refId, currentYear))
    ensures w.reply.Ok? <==> setDoc.Done?
    ensures w.reply.Ok? ==> w.reply.value == refId
    ensures setDoc.Failed? ==> w.reply == Err(setDoc.error)
  {
    var doc := EncodeCreatedGarment(CreateGarment(authorEmail, fields, refId, currentYear));
    match setDoc
    case Done => Write(doc, Ok(refId))
    case Failed(e) => Write(doc, Err(e))
  }

  /** The id a successful create returns names the stored document, which reads back as the created garment. */
  lemma CreateGarmentReplyReadsBack(authorEmail: string, fields: GarmentFields, refId: string, currentYear: int,
                                    readerYear: int)
    ensures var w := CreateGarmentInFirestore(authorEmail, fields, refId, currentYear, Done);
      && w.reply == Ok(refId) && CM.CastsHold(w.stored)
      && CM.MapGarmentDoc(w.reply.value, w.stored, readerYear) == CreateGarment(authorEmail, fields, refId, currentYear)
  {
    CreatedGarmentReadsBack(authorEmail, fields, refId, currentYear, readerYear);
  }
}

=== FILE: checkout.dfy ===
/**
 * The checkout modal's decisions (`components/checkout.tsx`): the item
 * count, its label, the empty-cart message, the pay button, and the id a
 * row's remove button reports. Layout and styles are not modelled.
 */
module Checkout {

  import opened Core
  import opened Text
  import P = Product

  /** One cart line. */
  datatype CartItem = CartItem(garment: P.Garment, quantity: int)

  /** `cart.reduce((s, i) => s + i.quantity, 0)`. */
  function TotalItems(cart: seq<CartItem>): int {
    if cart == [] then 0 else TotalItems(cart[..|cart| - 1]) + cart[|cart| - 1].quantity
  }

  /** The count adds up over a split cart: lines contribute independently of their order of arrival. */
  lemma {:induction false} TotalItemsConcat(a: seq<CartItem>, b: seq<CartItem>)
    ensures TotalItems(a + b) == TotalItems(a) + TotalItems(b)
    decreases |b|
  {
    if b == [] {
      assert a + b == a;
    } else {
      var n := |b| - 1;
      assert (a + b)[..|a + b| - 1] == a + b[..n];
      TotalItemsConcat(a, b[..n]);
    }
  }

  /** Lines of one each count as many items as there are lines; non-negative quantities give a non-negative count. */
  lemma {:induction false} TotalItemsBounds(cart: seq<CartItem>)
    ensures (forall i :: 0 <= i < |cart| ==> cart[i].quantity == 1) ==> TotalItems(cart) == |cart|
    ensures (forall i :: 0 <= i < |cart| ==> cart[i].quantity >= 0) ==> TotalItems(cart) >= 0
  {
    if cart != [] {
      TotalItemsBounds(cart[..|cart| - 1]);
    }
  }

  const LabelStart := "Your cart ("

  /** `item` for exactly one, `items` otherwise (zero and negative counts included). */
  function Noun(total: int): (noun: string)
    ensures noun == " item" || noun == " items"
    ensures noun == " item" <==> total == 1
  {
    " item" + (if total != 1 then "s" else "")
  }

  /** The section label: the count in decimal, then the noun. */
  function CartLabel(cart: seq<CartItem>): string {
    LabelStart + IntToDecimal(TotalItems(cart)) + Noun(TotalItems(cart)) + ")"
  }

  /** The label shows the count: the text after `Your cart (` reads back as the total, and the noun agrees with it. */
  lemma LabelShowsTotal(cart: seq<CartItem>)
    ensures var n := TotalItems(cart); var digits := IntToDecimal(n); var shown := CartLabel(cart);
      && |LabelStart| + |digits| < |shown|
      && shown[..|LabelStart|] == LabelStart
      && ParseInt(shown[|LabelStart|..|LabelStart| + |digits|]) == Some(n)
      && (shown[|LabelStart| + |digits|..] == " item)" <==> n == 1)
  {
    var n := TotalItems(cart);
    var digits := IntToDecimal(n);
    var shown := CartLabel(cart);
    var noun := Noun(n);
    assert shown == LabelStart + digits + (noun + ")");
    assert shown[..|LabelStart|] == LabelStart;
    assert shown[|LabelStart|..|LabelStart| + |digits|] == digits;
    assert shown[|LabelStart| + |digits|..] == noun + ")";
    ParseIntRoundTrip(n);
    if noun + ")" == " item)" {
      assert noun == (noun + ")")[..|noun|];
    }
  }

  const EmptyMessage := "Your cart is empty. Add garments from Threads."

  /** The empty-cart message, shown exactly when there are no lines. */
  function EmptyNotice(cart: seq<CartItem>): (r: Option<string>)
    ensures r.Some? <==> cart == []
    ensures r.Some? ==> r.value == EmptyMessage && TotalItems(cart) == 0
  {
    if |cart| == 0 then Some(EmptyMessage) else None
  }

  /** `isDisabled={cart.length === 0}`. */
  function PayDisabled(cart: seq<CartItem>): (disabled: bool)
    ensures disabled <==> cart == []
  {
    |cart| == 0
  }

  /** Quantities play no part: a cart of zero-quantity lines still enables payment though its count is 0. */
  lemma PayIgnoresQuantities(cart: seq<CartItem>, quantities: seq<int>)
    requires |quantities| == |cart|
    ensures var other := seq(|cart|, i requires 0 <= i < |cart| => cart[i].(quantity := quantities[i]));
      PayDisabled(other) == PayDisabled(cart)
  {
  }

  /** What one rendered line shows and reports. */
  datatype Row = Row(name: string, meta: string, removeId: string)

  /** `price ?? "—"`, then `×` and the quantity. */
  function Meta(item: CartItem): string {
    item.garment.price.GetOr("\U{2014}") + " \U{00D7} " + IntToDecimal(item.quantity)
  }

  /** The rows, one per line in cart order; each remove button reports its own line's garment id. */
  function Rows(cart: seq<CartItem>): (rows: seq<Row>)
    ensures |rows| == |cart|
    ensures forall i :: 0 <= i < |cart| ==>
      rows[i].removeId == cart[i].garment.id && rows[i].name == cart[i].garment.name
  {
    seq(|cart|, i requires 0 <= i < |cart| => Row(cart[i].garment.name, Meta(cart[i]), cart[i].garment.id))
  }

  /** Pressing remove on a row asks to remove that line's garment: the callback's argument. */
  function RemovePressed(cart: seq<CartItem>, row: nat): (garmentId: string)
    requires row < |cart|
    ensures garmentId == Rows(cart)[row].removeId
    ensures garmentId in set i | 0 <= i < |cart| :: cart[i].garment.id
  {
    cart[row].garment.id
  }
}

=== FILE: cloud_functions.dfy ===
/**
 * The Cloud Functions entry points (`functions/src/index.ts`): configuration
 * lookup, the payment-intent callable, the Stripe webhook, and the three
 * email-sending functions. Stripe, the Admin SDK's link generation and the
 * mail service are remote calls: their outcomes are parameters, and each
 * function returns what it would ask of them together with its reply.
 */
module CloudFunctions {

  import opened Core
  import opened Text
  import opened Json
  import E = Email

  // ---------------------------------------------------------------------------
  // Configuration.
  // ---------------------------------------------------------------------------

  /** A configuration string is unusable when it is missing or empty. */
  predicate Falsy(s: Option<string>) {
    s.None? || s.value == []
  }

  /** The places a mail setting can come from: the process environment first, then the Firebase config. */
  datatype EmailSettings = EmailSettings(envKey: Option<string>, configKey: Option<string>,
                                         envFrom: Option<string>, configFrom: Option<string>)

  const DefaultFrom := "Artie Apparel <onboarding@resend.dev>"
  const MissingKeyMessage := "RESEND_API_KEY or email.resend_api_key not set"

  /**
   * `getEmailConfig`: each setting is the environment value when one is set
   * (even an empty one) and the configured value otherwise; the sender falls
   * back to the default address, and a missing or empty key throws.
   */
  function GetEmailConfig(s: EmailSettings): (r: Result<E.EmailConfig, Thrown>)
    ensures r.Err? <==> Falsy(if s.envKey.Some? then s.envKey else s.configKey)
    ensures r.Err? ==> r.error == ErrorInstance(MissingKeyMessage)
    ensures r.Ok? ==> (r.value.apiKey != [] &&
      r.value.apiKey == (if s.envKey.Some? then s.envKey.value else s.configKey.value))
    ensures r.Ok? ==> (r.value.from ==
      (if s.envFrom.Some? then s.envFrom.value else if s.configFrom.Some? then s.configFrom.value else DefaultFrom))
  {
    var apiKey := if s.envKey.Some? then s.envKey else s.configKey;
    var from := if s.envFrom.Some? then s.envFrom.value else s.configFrom.GetOr(DefaultFrom);
    if Falsy(apiKey) then Err(ErrorInstance(MissingKeyMessage))
    else Ok(E.EmailConfig(apiKey.value, from))
  }

  /**
   * The environment decides whenever it is set: an empty environment key
   * hides a usable configured one, and a non-empty one wins over any config.
   */
  lemma EnvironmentShadowsConfig(envKey: string, configKey: Option<string>, envFrom: Option<string>, configFrom: Option<string>)
    ensures envKey == [] ==>
      GetEmailConfig(EmailSettings(Some(envKey), configKey, envFrom, configFrom)) == Err(ErrorInstance(MissingKeyMessage))
    ensures envKey != [] ==>
      GetEmailConfig(EmailSettings(Some(envKey), configKey, envFrom, configFrom)).Ok? &&
      GetEmailConfig(EmailSettings(Some(envKey), configKey, envFrom, configFrom)).value.apiKey == envKey
  {
  }

  // ---------------------------------------------------------------------------
  // Callable errors and the caller.
  // ---------------------------------------------------------------------------

  datatype Code = Unauthenticated | FailedPrecondition | InvalidArgument | Internal

  /** An `HttpsError` as the callable protocol reports it. */
  datatype HttpsError = HttpsError(code: Code, message: string)

  /** The signed-in caller: the user id and the email claim of the ID token. */
  datatype Caller = Caller(uid: string, tokenEmail: Option<string>)

  // ---------------------------------------------------------------------------
  // createPaymentIntent.
  // ---------------------------------------------------------------------------

  const NotSignedIn := HttpsError(Unauthenticated, "User must be signed in.")
  const StripeNotConfigured := HttpsError(FailedPrecondition, "Stripe is not configured. Set STRIPE_SECRET_KEY in function config or env.")
  const BadAmount := HttpsError(InvalidArgument, "amountInCents must be a positive integer.")

  /** `Number.isInteger(n) && n >= 1`. */
  predicate IsPositiveInteger(n: Number) {
    n.Finite? && n.v.Floor as real == n.v && n.v >= 1.0
  }

  /** The PaymentIntent the function asks Stripe to create. */
  datatype PaymentRequest = PaymentRequest(amount: int, currency: string, userId: string)

  /**
   * `createPaymentIntent`, given the caller, the Stripe key and the amount
   * after `Number(...)`: the caller is checked first, the key second and the
   * amount last; only then is a request made, in the caller's name, for the
   * given currency or "usd".
   */
  function CreatePaymentIntent(caller: Option<Caller>, secretKey: Option<string>, amount: Number,
                               currency: Option<string>): (r: Result<PaymentRequest, HttpsError>)
    ensures caller.None? ==> r == Err(NotSignedIn)
    ensures caller.Some? && Falsy(secretKey) ==> r == Err(StripeNotConfigured)
    ensures caller.Some? && !Falsy(secretKey) && !IsPositiveInteger(amount) ==> r == Err(BadAmount)
    ensures r.Ok? <==> caller.Some? && !Falsy(secretKey) && IsPositiveInteger(amount)
    ensures r.Ok? ==>
      && r.value.amount >= 1 && r.value.amount as real == amount.v
      && r.value.currency == currency.GetOr("usd")
      && r.value.userId == caller.value.uid
  {
    if caller.None? then Err(NotSignedIn)
    else if Falsy(secretKey) then Err(StripeNotConfigured)
    else if !IsPositiveInteger(amount) then Err(BadAmount)
    else Ok(PaymentRequest(amount.v.Floor, currency.GetOr("usd"), caller.value.uid))
  }

  /** Exactly the positive whole numbers of cents pass, each unchanged; zero, fractions, NaN and infinities do not. */
  lemma PaymentAmounts(caller: Caller, secretKey: string, n: int, currency: Option<string>)
    requires secretKey != []
    ensures n >= 1 ==>
      CreatePaymentIntent(Some(caller), Some(secretKey), Finite(n as real), currency) ==
      Ok(PaymentRequest(n, currency.GetOr("usd"), caller.uid))
    ensures n < 1 ==> CreatePaymentIntent(Some(caller), Some(secretKey), Finite(n as real), currency) == Err(BadAmount)
    ensures CreatePaymentIntent(Some(caller), Some(secretKey), Finite(n as real + 0.5), currency) == Err(BadAmount)
    ensures CreatePaymentIntent(Some(caller), Some(secretKey), NaN, currency) == Err(BadAmount)
    ensures CreatePaymentIntent(Some(caller), Some(secretKey), PosInfinity, currency) == Err(BadAmount)
  {
    assert (n as real + 0.5).Floor == n;
  }

  // ---------------------------------------------------------------------------
  // stripeWebhook.
  // ---------------------------------------------------------------------------

  /**
   * `req.headers["stripe-signature"]` as its declared type allows: absent, a
   * string, or a string array. Node joins a repeated `stripe-signature`
   * header into one string (only `set-cookie` becomes an array), so the
   * array form is never produced for this header but still fails the
   * `typeof sig !== "string"` test.
   */
  datatype Header = NoHeader | Single(value: string) | Listed(values: seq<string>)

  /** How Node presents the `stripe-signature` lines a request carries: nothing, or their values joined by ", ". */
  function SignatureHeader(lines: seq<string>): (h: Header)
    ensures h.NoHeader? <==> lines == []
    ensures lines != [] ==> h.Single?
  {
    if lines == [] then NoHeader else Single(Text.Join(lines, ", "))
  }

  /** A repeated signature header still reaches the signature check, which alone decides the reply. */
  lemma RepeatedSignatureChecked(lines: seq<string>, webhookSecret: string, verification: Result<string, Thrown>)
    requires lines != [] && webhookSecret != []
    ensures StripeWebhook("POST", SignatureHeader(lines), Some(webhookSecret), verification).status
      == (if verification.Ok? then 200 else 400)
  {
  }

  datatype Body = Plain(text: string) | Received

  datatype Response = Response(status: int, body: Body)

  /**
   * `stripeWebhook`, given the outcome of Stripe's signature check
   * (`constructEvent`, which yields the event type or throws): only a POST
   * with one signature header and a configured secret reaches the check, and
   * every verified event is acknowledged alike.
   */
  function StripeWebhook(httpMethod: string, signature: Header, webhookSecret: Option<string>,
                         verification: Result<string, Thrown>): (r: Response)
    ensures r.status == 405 <==> httpMethod != "POST"
    ensures r.status == 200 <==>
      httpMethod == "POST" && signature.Single? && !Falsy(webhookSecret) && verification.Ok?
    ensures r.status == 200 || r.status == 400 || r.status == 405
    ensures r.body == Received <==> r.status == 200
  {
    if httpMethod != "POST" then Response(405, Plain("Method Not Allowed"))
    else if !signature.Single? || Falsy(webhookSecret) then Response(400, Plain("Missing Stripe signature or webhook secret"))
    else
      match verification
      case Err(_) => Response(400, Plain("Webhook signature verification failed"))
      case Ok(_) => Response(200, Received)
  }

  /** The event type never changes the reply, and the signature check is irrelevant until the request is well-formed. */
  lemma WebhookIgnoresEvent(httpMethod: string, signature: Header, webhookSecret: Option<string>,
                            v1: Result<string, Thrown>, v2: Result<string, Thrown>)
    ensures v1.Ok? && v2.Ok? ==>
      StripeWebhook(httpMethod, signature, webhookSecret, v1) == StripeWebhook(httpMethod, signature, webhookSecret, v2)
    ensures httpMethod != "POST" || !signature.Single? || Falsy(webhookSecret) ==>
      StripeWebhook(httpMethod, signature, webhookSecret, v1) == StripeWebhook(httpMethod, signature, webhookSecret, v2)
  {
  }

  // ---------------------------------------------------------------------------
  // The email pattern `^[^\s@]+@[^\s@]+\.[^\s@]+$`.
  // ---------------------------------------------------------------------------

  /** `[^\s@]`. */
  predicate PlainChar(c: char) {
    !IsSpace(c) && c != '@'
  }

  predicate AllPlain(s: string) {
    forall i :: 0 <= i < |s| ==> PlainChar(s[i])
  }

  /**
   * The pattern read literally: some `@` at `i` and some `.` at `j` cut the
   * address into three non-empty runs of plain characters.
   */
  ghost predicate MatchesPattern(s: string) {
    exists i, j ::
      && 0 < i && i + 1 < j && j + 1 < |s|
      && s[i] == '@' && s[j] == '.'
      && AllPlain(s[..i]) && AllPlain(s[i + 1..j]) && AllPlain(s[j + 1..])
  }

  /**
   * The check as a single scan: a non-empty plain local part up to the first
   * `@`, then a plain domain with a `.` neither first nor last.
   */
  function IsValidEmail(s: string): bool {
    var i := |Before(s, '@')|;
    && 0 < i && i + 4 <= |s|
    && AllPlain(s[..i])
    && AllPlain(s[i + 1..])
    && '.' in s[i + 2..|s| - 1]
  }

  /** Every string the scan accepts matches the pattern. */
  lemma ScanMatches(s: string)
    requires IsValidEmail(s)
    ensures MatchesPattern(s)
  {
    var i := |Before(s, '@')|;
    var domain := s[i + 2..|s| - 1];
    var k :| 0 <= k < |domain| && domain[k] == '.';
    var j := i + 2 + k;
    assert s[j] == '.';
    assert s[i] == '@';
    PlainSuffix(s, i + 1);
    assert AllPlain(s[i + 1..j]);
    assert AllPlain(s[j + 1..]);
  }

  /** Every string the pattern matches passes the scan. */
  lemma PatternScans(s: string)
    requires MatchesPattern(s)
    ensures IsValidEmail(s)
  {
    var i, j :|
      && 0 < i && i + 1 < j && j + 1 < |s|
      && s[i] == '@' && s[j] == '.'
      && AllPlain(s[..i]) && AllPlain(s[i + 1..j]) && AllPlain(s[j + 1..]);
    BeforeFirst(s, '@', i);
    DomainPlain(s, i, j);
    assert s[i + 2..|s| - 1][j - (i + 2)] == '.';
  }

  /** Two plain runs joined by a plain character make a plain domain. */
  lemma DomainPlain(s: string, i: int, j: int)
    requires 0 <= i && i + 1 < j < |s| && s[j] == '.'
    requires AllPlain(s[i + 1..j]) && AllPlain(s[j + 1..])
    ensures AllPlain(s[i + 1..])
  {
    forall m | i + 1 <= m < |s|
      ensures PlainChar(s[m])
    {
      if m < j {
        assert s[m] == s[i + 1..j][m - (i + 1)];
      } else if j < m {
        assert s[m] == s[j + 1..][m - (j + 1)];
      }
    }
  }

  /** The scan accepts exactly the strings the pattern matches. */
  lemma EmailPatternMatches(s: string)
    ensures IsValidEmail(s) <==> MatchesPattern(s)
  {
    if IsValidEmail(s) {
      ScanMatches(s);
    }
    if MatchesPattern(s) {
      PatternScans(s);
    }
  }

  lemma PlainSuffix(s: string, a: int)
    requires 0 <= a <= |s| && AllPlain(s[a..])
    ensures forall m :: a <= m < |s| ==> PlainChar(s[m])
  {
    forall m | a <= m < |s|
      ensures PlainChar(s[m])
    {
      assert s[m] == s[a..][m - a];
    }
  }

  /** An accepted address neither starts nor ends with white space. */
  lemma ValidEmailEdges(s: string)
    requires IsValidEmail(s)
    ensures s != [] && !IsSpace(s[0]) && !IsSpace(s[|s| - 1])
  {
    var i := |Before(s, '@')|;
    assert s[0] == s[..i][0];
    PlainSuffix(s, i + 1);
  }

  /** When `c` first occurs at `i`, `Before` stops exactly there. */
  lemma BeforeFirst(s: string, c: char, i: int)
    requires 0 <= i < |s| && s[i] == c && c !in s[..i]
    ensures |Before(s, c)| == i
  {
  }

  // ---------------------------------------------------------------------------
  // The email-sending callables.
  // ---------------------------------------------------------------------------

  const InvalidEmail := HttpsError(InvalidArgument, "Valid email is required.")
  const NoEmailGiven := HttpsError(InvalidArgument, "Provide email or be signed in.")

  /** Which link the Admin SDK generates and which message carries it. */
  datatype LinkKind = ResetLink | VerificationLink

  function FailureFallback(kind: LinkKind): string {
    match kind
    case ResetLink => "Failed to send reset email."
    case VerificationLink => "Failed to send verification email."
  }

  function LinkMessage(kind: LinkKind, config: E.EmailConfig, to: string, link: string): E.Message {
    match kind
    case ResetLink => E.PasswordResetEmail(config, to, link)
    case VerificationLink => E.VerificationEmail(config, to, link)
  }

  /** The link asked of the Admin SDK: for whom, and where to continue (`APP_URL` when set and non-empty). */
  datatype LinkRequest = LinkRequest(email: string, continueUrl: Option<string>)

  /** What one call did: the link it asked for, the message it handed over, and its reply. */
  datatype CallReply = CallReply(linkRequest: Option<LinkRequest>, sent: Option<E.Message>, result: Outcome<HttpsError>)

  function ContinueUrl(appUrl: Option<string>): Option<string> {
    if Falsy(appUrl) then None else appUrl
  }

  /**
   * The `try` block both callables share: generate the link, read the mail
   * configuration, send; whatever throws becomes `internal` with its message
   * or the kind's fallback.
   */
  function Deliver(kind: LinkKind, email: string, appUrl: Option<string>, link: Result<string, Thrown>,
                   settings: EmailSettings, send: Outcome<Thrown>): (r: CallReply)
    ensures r.linkRequest == Some(LinkRequest(email, ContinueUrl(appUrl)))
    ensures r.sent.Some? <==> link.Ok? && GetEmailConfig(settings).Ok?
    ensures r.sent.Some? ==> r.sent.value == LinkMessage(kind, GetEmailConfig(settings).value, email, link.value)
    ensures r.result == Done <==> r.sent.Some? && send.Done?
    ensures link.Err? ==> r.result == Failed(HttpsError(Internal, MessageOr(link.error, FailureFallback(kind))))
    ensures link.Ok? && GetEmailConfig(settings).Err? ==> r.result == Failed(HttpsError(Internal, MissingKeyMessage))
    ensures r.sent.Some? && send.Failed? ==> r.result == Failed(HttpsError(Internal, MessageOr(send.error, FailureFallback(kind))))
  {
    var request := Some(LinkRequest(email, ContinueUrl(appUrl)));
    match link
    case Err(e) => CallReply(request, None, Failed(HttpsError(Internal, MessageOr(e, FailureFallback(kind)))))
    case Ok(l) =>
      match GetEmailConfig(settings)
      case Err(e) => CallReply(request, None, Failed(HttpsError(Internal, MessageOr(e, FailureFallback(kind)))))
      case Ok(config) =>
        var message := LinkMessage(kind, config, email, l);
        match send
        case Done => CallReply(request, Some(message), Done)
        case Failed(e) => CallReply(request, Some(message), Failed(HttpsError(Internal, MessageOr(e, FailureFallback(kind)))))
  }

  /** `typeof data?.email === "string" ? data.email.trim() : ""`. */
  function RequestedEmail(email: Option<Value>): (r: string)
    ensures AsString(email).None? ==> r == []
    ensures AsString(email).Some? ==> r == Trim(AsString(email).value)
  {
    match AsString(email)
    case Some(s) => Trim(s)
    case None => []
  }

  /**
   * `sendPasswordReset`: the trimmed request email must match the pattern;
   * otherwise nothing is asked of the Admin SDK. A valid address gets the
   * reset link and the reset message.
   */
  function SendPasswordReset(email: Option<Value>, appUrl: Option<string>, link: Result<string, Thrown>,
                             settings: EmailSettings, send: Outcome<Thrown>): (r: CallReply)
    ensures !IsValidEmail(RequestedEmail(email)) ==> r == CallReply(None, None, Failed(InvalidEmail))
    ensures r.linkRequest.Some? <==> IsValidEmail(RequestedEmail(email))
    ensures r.linkRequest.Some? ==> r.linkRequest.value.email == RequestedEmail(email)
    ensures r.sent.Some? ==> r.sent.value.to == [RequestedEmail(email)]
  {
    ResetFor(RequestedEmail(email), appUrl, link, settings, send)
  }

  /** The reset flow once the request email has been read and trimmed. */
  function ResetFor(address: string, appUrl: Option<string>, link: Result<string, Thrown>,
                    settings: EmailSettings, send: Outcome<Thrown>): (r: CallReply)
    ensures !IsValidEmail(address) ==> r == CallReply(None, None, Failed(InvalidEmail))
    ensures IsValidEmail(address) ==> r == Deliver(ResetLink, address, appUrl, link, settings, send)
  {
    if address == [] || !IsValidEmail(address) then CallReply(None, None, Failed(InvalidEmail))
    else Deliver(ResetLink, address, appUrl, link, settings, send)
  }

  /** An address with non-space ends, read from the request padded or not, is the address itself. */
  lemma PaddedAddress(p: string, address: string, q: string)
    requires AllSpace(p) && AllSpace(q)
    requires address != [] && !IsSpace(address[0]) && !IsSpace(address[|address| - 1])
    ensures RequestedEmail(Some(Str(p + address + q))) == address
  {
    TrimAround(p, address, q);
  }

  lemma BareAddress(address: string)
    requires address != [] && !IsSpace(address[0]) && !IsSpace(address[|address| - 1])
    ensures RequestedEmail(Some(Str(address))) == address
  {
    TrimKeeps(address);
  }

  /** Surrounding white space is not part of the address: a padded valid address is served like the bare one. */
  lemma ResetTrimsEmail(p: string, address: string, q: string, appUrl: Option<string>,
                        link: Result<string, Thrown>, settings: EmailSettings, send: Outcome<Thrown>)
    requires AllSpace(p) && AllSpace(q) && IsValidEmail(address)
    ensures SendPasswordReset(Some(Str(p + address + q)), appUrl, link, settings, send) ==
            SendPasswordReset(Some(Str(address)), appUrl, link, settings, send)
  {
    ValidEmailEdges(address);
    PaddedAddress(p, address, q);
    BareAddress(address);
  }

  /**
   * The address `sendEmailVerification` uses: the trimmed request email when
   * it is non-blank, else the caller's token email when it is non-empty.
   */
  function VerificationAddress(email: Option<Value>, caller: Option<Caller>): (r: Result<string, HttpsError>)
    ensures RequestedEmail(email) != [] ==> r == Ok(RequestedEmail(email))
    ensures RequestedEmail(email) == [] && caller.Some? && !Falsy(caller.value.tokenEmail) ==>
      r == Ok(caller.value.tokenEmail.value)
    ensures r.Err? <==> RequestedEmail(email) == [] && (caller.None? || Falsy(caller.value.tokenEmail))
  {
    var requested := RequestedEmail(email);
    if requested != [] then Ok(requested)
    else if caller.Some? && !Falsy(caller.value.tokenEmail) then Ok(caller.value.tokenEmail.value)
    else Err(NoEmailGiven)
  }

  /**
   * `sendEmailVerification`: choose the address, then check the pattern, then
   * generate the verification link and send it.
   */
  function SendEmailVerification(email: Option<Value>, caller: Option<Caller>, appUrl: Option<string>,
                                 link: Result<string, Thrown>, settings: EmailSettings,
                                 send: Outcome<Thrown>): (r: CallReply)
    ensures VerificationAddress(email, caller).Err? ==> r == CallReply(None, None, Failed(NoEmailGiven))
    ensures VerificationAddress(email, caller).Ok? && !IsValidEmail(VerificationAddress(email, caller).value) ==>
      r == CallReply(None, None, Failed(InvalidEmail))
    ensures r.linkRequest.Some? <==>
      VerificationAddress(email, caller).Ok? && IsValidEmail(VerificationAddress(email, caller).value)
    ensures r.linkRequest.Some? ==> r.linkRequest.value.email == VerificationAddress(email, caller).value
  {
    match VerificationAddress(email, caller)
    case Err(e) => CallReply(None, None, Failed(e))
    case Ok(address) =>
      if !IsValidEmail(address) then CallReply(None, None, Failed(InvalidEmail))
      else Deliver(VerificationLink, address, appUrl, link, settings, send)
  }

  /** A non-blank request email wins over the caller's own, whoever is signed in. */
  lemma VerificationPrefersRequest(email: Option<Value>, c1: Option<Caller>, c2: Option<Caller>, appUrl: Option<string>,
                                   link: Result<string, Thrown>, settings: EmailSettings, send: Outcome<Thrown>)
    requires RequestedEmail(email) != []
    ensures SendEmailVerification(email, c1, appUrl, link, settings, send) ==
            SendEmailVerification(email, c2, appUrl, link, settings, send)
  {
  }

  // ---------------------------------------------------------------------------
  // onAuthUserCreated.
  // ---------------------------------------------------------------------------

  /** What the trigger did: the welcome message it handed over, and whether it logged a warning. */
  datatype WelcomeRun = WelcomeRun(sent: Option<E.Message>, warned: bool)

  /**
   * `onAuthUserCreated`: a user without an email gets nothing; otherwise the
   * welcome message is sent, and a missing key or a failed send is only
   * logged, never thrown.
   */
  function OnAuthUserCreated(email: Option<string>, displayName: Option<string>, settings: EmailSettings,
                             send: Outcome<Thrown>): (r: WelcomeRun)
    ensures Falsy(email) ==> r == WelcomeRun(None, false)
    ensures r.sent.Some? <==> !Falsy(email) && GetEmailConfig(settings).Ok?
    ensures r.sent.Some? ==> r.sent.value == E.WelcomeEmail(GetEmailConfig(settings).value, email.value, displayName)
    ensures r.warned <==> !Falsy(email) && (GetEmailConfig(settings).Err? || send.Failed?)
  {
    if Falsy(email) then WelcomeRun(None, false)
    else
      match GetEmailConfig(settings)
      case Err(_) => WelcomeRun(None, true)
      case Ok(config) => WelcomeRun(Some(E.WelcomeEmail(config, email.value, displayName)), send.Failed?)
  }
}

=== FILE: core.dfy ===
/** Failure-carrying datatypes shared by every module of the model. */
module Core {

  /** `Some(v)` for a present value; `None` for JavaScript's `null` / `undefined`. */
  datatype Option<+T> = None | Some(value: T) {

    /** The value, or `default` when absent: JavaScript's `x ?? default`. */
    function GetOr(default: T): T {
      match this
      case Some(v) => v
      case None => default
    }
  }

  /** The result of a remote call or of an operation that may throw. */
  datatype Result<+T, +E> = Ok(value: T) | Err(error: E)

  /** A remote call that completes without a value, or throws. */
  datatype Outcome<+E> = Done | Failed(error: E)

  /**
   * What a `catch` clause receives: an `Error` instance, which carries a
   * message, or some other thrown value.
   */
  datatype Thrown = ErrorInstance(message: string) | NonError

  /** `err instanceof Error ? err.message : fallback`, the idiom every hook uses. */
  function MessageOr(err: Thrown, fallback: string): string {
    match err
    case ErrorInstance(m) => m
    case NonError => fallback
  }
}

=== FILE: designs.dfy ===
/** Turning a marketplace design into the product that gets saved. */
module Designs {

  import opened Product

  /** The fields of a design that a saved product snapshot keeps. */
  predicate SameProductFields(a: Design, b: Design) {
    && a.id == b.id && a.name == b.name && a.description == b.description
    && a.price == b.price && a.priceAmount == b.priceAmount && a.image == b.image
    && a.categories == b.categories && a.sku == b.sku
  }

  /**
   * The product for a design: its id becomes the product id and the display
   * fields are copied, absent optional ones staying absent.
   */
  function DesignToDesignProduct(d: Design): (p: DesignProduct)
    ensures p.productId == d.id
    ensures p.name == d.name && p.description == d.description && p.price == d.price
    ensures p.priceAmount == d.priceAmount && p.image == d.image
    ensures p.categories == d.categories && p.sku == d.sku
  {
    DesignProduct(d.id, d.name, d.description, d.price, d.priceAmount, d.image, d.categories, d.sku)
  }

  /**
   * Author, creation date, tags and the active flag do not reach the product:
   * two designs map to the same product exactly when they agree on the rest.
   */
  lemma ProductIgnoresMetadata(a: Design, b: Design)
    ensures DesignToDesignProduct(a) == DesignToDesignProduct(b) <==> SameProductFields(a, b)
  {
  }
}

=== FILE: email.dfy ===
/**
 * The transactional emails of the Cloud Functions (`functions/src/email.ts`):
 * HTML escaping, the welcome name, and the three messages handed to the
 * mail service. Sending itself is left to the caller: each function here
 * builds the message that would be sent.
 */
module Email {

  import opened Core
  import opened Text

  // ---------------------------------------------------------------------------
  // Escaping.
  // ---------------------------------------------------------------------------

  /** `s.replace(/c/g, rep)` for a single character `c`. */
  function ReplaceAll(s: string, c: char, rep: string): (r: string)
    ensures c !in rep ==> c !in r
  {
    if s == [] then []
    else (if s[0] == c then rep else [s[0]]) + ReplaceAll(s[1..], c, rep)
  }

  lemma {:induction false} ReplaceAllConcat(a: string, b: string, c: char, rep: string)
    ensures ReplaceAll(a + b, c, rep) == ReplaceAll(a, c, rep) + ReplaceAll(b, c, rep)
  {
    if a == [] {
      assert a + b == b;
    } else {
      assert (a + b)[1..] == a[1..] + b;
      ReplaceAllConcat(a[1..], b, c, rep);
    }
  }

  /** `escapeHtml`: five global replacements, ampersands first. */
  function EscapeHtml(s: string): string {
    var amp := ReplaceAll(s, '&', "&amp;");
    var lt := ReplaceAll(amp, '<', "&lt;");
    var gt := ReplaceAll(lt, '>', "&gt;");
    var quot := ReplaceAll(gt, '"', "&quot;");
    ReplaceAll(quot, '\'', "&#39;")
  }

  /** The entity for one character: the five special ones are replaced, the rest kept. */
  function EscapeChar(c: char): string {
    match c
    case '&' => "&amp;"
    case '<' => "&lt;"
    case '>' => "&gt;"
    case '"' => "&quot;"
    case '\'' => "&#39;"
    case _ => [c]
  }

  /** Escaping character by character: the reference the replacement chain is measured against. */
  function EscapeEach(s: string): string {
    if s == [] then [] else EscapeChar(s[0]) + EscapeEach(s[1..])
  }

  lemma EscapeHtmlConcat(a: string, b: string)
    ensures EscapeHtml(a + b) == EscapeHtml(a) + EscapeHtml(b)
  {
    var amp := ReplaceAll(a, '&', "&amp;");
    var amp' := ReplaceAll(b, '&', "&amp;");
    ReplaceAllConcat(a, b, '&', "&amp;");
    var lt := ReplaceAll(amp, '<', "&lt;");
    var lt' := ReplaceAll(amp', '<', "&lt;");
    ReplaceAllConcat(amp, amp', '<', "&lt;");
    var gt := ReplaceAll(lt, '>', "&gt;");
    var gt' := ReplaceAll(lt', '>', "&gt;");
    ReplaceAllConcat(lt, lt', '>', "&gt;");
    var quot := ReplaceAll(gt, '"', "&quot;");
    var quot' := ReplaceAll(gt', '"', "&quot;");
    ReplaceAllConcat(gt, gt', '"', "&quot;");
    ReplaceAllConcat(quot, quot', '\'', "&#39;");
  }

  lemma ReplaceAllOne(x: char, c: char, rep: string)
    ensures ReplaceAll([x], c, rep) == if x == c then rep else [x]
  {
    assert [x][1..] == [];
  }

  lemma {:induction false} ReplaceAllAbsent(s: string, c: char, rep: string)
    requires c !in s
    ensures ReplaceAll(s, c, rep) == s
  {
    if s != [] {
      assert s[0] in s;
      ReplaceAllAbsent(s[1..], c, rep);
    }
  }

  /** A character the chain leaves alone passes all five stages unchanged. */
  lemma EscapeHtmlPlainChar(c: char)
    requires c != '&' && !Unsafe(c)
    ensures EscapeHtml([c]) == [c]
  {
    ReplaceAllOne(c, '&', "&amp;");
    ReplaceAllOne(c, '<', "&lt;");
    ReplaceAllOne(c, '>', "&gt;");
    ReplaceAllOne(c, '"', "&quot;");
    ReplaceAllOne(c, '\'', "&#39;");
  }

  lemma EscapeHtmlStage0()
    ensures EscapeHtml(['&']) == "&amp;"
  {
    var amp := "&amp;";
    ReplaceAllOne('&', '&', amp);
    AmpEntityStays(amp);
  }

  /** The `&amp;` entity holds none of the characters the later stages replace. */
  lemma AmpEntityStays(amp: string)
    requires amp == "&amp;"
    ensures ReplaceAll(ReplaceAll(ReplaceAll(ReplaceAll(amp, '<', "&lt;"), '>', "&gt;"), '"', "&quot;"), '\'', "&#39;") == amp
  {
    assert forall i :: 0 <= i < |amp| ==> amp[i] in "&amp;";
    assert '<' !in amp && '>' !in amp && '"' !in amp && '\'' !in amp;
    ReplaceAllAbsent(amp, '<', "&lt;");
    ReplaceAllAbsent(amp, '>', "&gt;");
    ReplaceAllAbsent(amp, '"', "&quot;");
    ReplaceAllAbsent(amp, '\'', "&#39;");
  }

  lemma EscapeHtmlStage1()
    ensures EscapeHtml(['<']) == "&lt;"
  {
    ReplaceAllOne('<', '&', "&amp;");
    ReplaceAllOne('<', '<', "&lt;");
    LtEntityStays("&lt;");
  }

  /** The `&lt;` entity holds none of the characters the later stages replace. */
  lemma LtEntityStays(lt: string)
    requires lt == "&lt;"
    ensures ReplaceAll(ReplaceAll(ReplaceAll(lt, '>', "&gt;"), '"', "&quot;"), '\'', "&#39;") == lt
  {
    assert '>' !in lt && '"' !in lt && '\'' !in lt;
    ReplaceAllAbsent(lt, '>', "&gt;");
    ReplaceAllAbsent(lt, '"', "&quot;");
    ReplaceAllAbsent(lt, '\'', "&#39;");
  }

  lemma EscapeHtmlStage2()
    ensures EscapeHtml(['>']) == "&gt;"
  {
    ReplaceAllOne('>', '&', "&amp;");
    ReplaceAllOne('>', '<', "&lt;");
    ReplaceAllOne('>', '>', "&gt;");
    assert '"' !in "&gt;";
    ReplaceAllAbsent("&gt;", '"', "&quot;");
    assert '\'' !in "&gt;";
    ReplaceAllAbsent("&gt;", '\'', "&#39;");
  }

  lemma EscapeHtmlStage3()
    ensures EscapeHtml(['"']) == "&quot;"
  {
    ReplaceAllOne('"', '&', "&amp;");
    ReplaceAllOne('"', '<', "&lt;");
    ReplaceAllOne('"', '>', "&gt;");
    ReplaceAllOne('"', '"', "&quot;");
    assert '\'' !in "&quot;";
    ReplaceAllAbsent("&quot;", '\'', "&#39;");
  }

  lemma EscapeHtmlStage4()
    ensures EscapeHtml(['\'']) == "&#39;"
  {
    ReplaceAllOne('\'', '&', "&amp;");
    ReplaceAllOne('\'', '<', "&lt;");
    ReplaceAllOne('\'', '>', "&gt;");
    ReplaceAllOne('\'', '"', "&quot;");
    ReplaceAllOne('\'', '\'', "&#39;");
  }

  /** No later replacement touches an earlier one's entity, so each character is escaped once. */
  lemma EscapeHtmlOneChar(c: char)
    ensures EscapeHtml([c]) == EscapeChar(c)
  {
    match c
    case '&' => EscapeHtmlStage0();
    case '<' => EscapeHtmlStage1();
    case '>' => EscapeHtmlStage2();
    case '"' => EscapeHtmlStage3();
    case '\'' => EscapeHtmlStage4();
    case _ => EscapeHtmlPlainChar(c);
  }

  /** The replacement chain escapes exactly character by character: nothing is escaped twice. */
  lemma {:induction false} EscapeHtmlIsEach(s: string)
    ensures EscapeHtml(s) == EscapeEach(s)
  {
    if s != [] {
      assert s == [s[0]] + s[1..];
      EscapeHtmlConcat([s[0]], s[1..]);
      EscapeHtmlOneChar(s[0]);
      EscapeHtmlIsEach(s[1..]);
    }
  }

  /** The characters that could open a tag or close an attribute. */
  predicate Unsafe(c: char) {
    c == '<' || c == '>' || c == '"' || c == '\''
  }

  /** Escaped text holds none of them. */
  lemma {:induction false} EscapeEachSafe(s: string)
    ensures forall i :: 0 <= i < |EscapeEach(s)| ==> !Unsafe(EscapeEach(s)[i])
  {
    if s != [] {
      EscapeEachSafe(s[1..]);
      var head := EscapeChar(s[0]);
      assert forall i :: 0 <= i < |head| ==> !Unsafe(head[i]);
      var r := EscapeEach(s);
      assert r == head + EscapeEach(s[1..]);
      forall i | 0 <= i < |r| ensures !Unsafe(r[i]) {
        if i >= |head| {
          assert r[i] == EscapeEach(s[1..])[i - |head|];
        }
      }
    }
  }

  /** Text without special characters is left as it is. */
  lemma {:induction false} EscapeEachPlain(s: string)
    requires forall i :: 0 <= i < |s| ==> s[i] != '&' && !Unsafe(s[i])
    ensures EscapeEach(s) == s
  {
    if s != [] {
      EscapeEachPlain(s[1..]);
    }
  }

  /** What escaping adds to the length of `s`: four characters per `&`, three per `<` or `>`, five per `"`, four per `'`. */
  function Growth(s: string): int {
    4 * Count('&', s) + 3 * Count('<', s) + 3 * Count('>', s) + 5 * Count('"', s) + 4 * Count('\'', s)
  }

  lemma GrowthConcat(a: string, b: string)
    ensures Growth(a + b) == Growth(a) + Growth(b)
  {
    CountConcat('&', a, b);
    CountConcat('<', a, b);
    CountConcat('>', a, b);
    CountConcat('"', a, b);
    CountConcat('\'', a, b);
  }

  lemma EscapeCharLength(c: char)
    ensures |EscapeChar(c)| == 1 + Growth([c])
  {
    assert multiset([c]) == multiset{c};
  }

  /** Each special character grows into its entity; everything else keeps its length. */
  lemma {:induction false} EscapeEachLength(s: string)
    ensures |EscapeEach(s)| == |s| + Growth(s)
  {
    if s != [] {
      var head, tail := s[0], s[1..];
      assert s == [head] + tail;
      GrowthConcat([head], tail);
      EscapeCharLength(head);
      EscapeEachLength(tail);
    }
  }

  /** A browser's reading of the five entities: the inverse of escaping. */
  function Unescape(t: string): string
    decreases |t|
  {
    if t == [] then []
    else if t[0] != '&' then [t[0]] + Unescape(t[1..])
    else if StartsWith(t, "&amp;") then "&" + Unescape(t[5..])
    else if StartsWith(t, "&lt;") then "<" + Unescape(t[4..])
    else if StartsWith(t, "&gt;") then ">" + Unescape(t[4..])
    else if StartsWith(t, "&quot;") then "\"" + Unescape(t[6..])
    else if StartsWith(t, "&#39;") then "'" + Unescape(t[5..])
    else [t[0]] + Unescape(t[1..])
  }

  /** An entity at the front of the text reads back as its character. */
  lemma UnescapeEntity(e: string, c: char, rest: string)
    requires e == EscapeChar(c) && (c == '&' || Unsafe(c))
    ensures Unescape(e + rest) == [c] + Unescape(rest)
  {
    var t := e + rest;
    assert t[..|e|] == e && t[|e|..] == rest;
    assert t[0] == '&' && t[1] == e[1];
  }

  lemma UnescapeChar(c: char, rest: string)
    ensures Unescape(EscapeChar(c) + rest) == [c] + Unescape(rest)
  {
    if c == '&' || Unsafe(c) {
      UnescapeEntity(EscapeChar(c), c, rest);
    } else {
      var t := [c] + rest;
      assert t[0] == c && t[1..] == rest;
    }
  }

  /** Escaping loses nothing: the escaped text reads back as the original. */
  lemma {:induction false} UnescapeEscapeHtml(s: string)
    ensures Unescape(EscapeHtml(s)) == s
  {
    EscapeHtmlIsEach(s);
    UnescapeEscapeEach(s);
  }

  lemma {:induction false} UnescapeEscapeEach(s: string)
    ensures Unescape(EscapeEach(s)) == s
  {
    if s != [] {
      UnescapeChar(s[0], EscapeEach(s[1..]));
      UnescapeEscapeEach(s[1..]);
    }
  }

  /** Escaped text cannot open a tag or leave an attribute value. */
  lemma EscapeHtmlSafe(s: string)
    ensures forall i :: 0 <= i < |EscapeHtml(s)| ==> !Unsafe(EscapeHtml(s)[i])
  {
    EscapeHtmlIsEach(s);
    EscapeEachSafe(s);
  }

  // ---------------------------------------------------------------------------
  // Messages.
  // ---------------------------------------------------------------------------

  /** The sender's credentials and address. */
  datatype EmailConfig = EmailConfig(apiKey: string, from: string)

  /** One message as handed to the mail service, with the key it is sent under. */
  datatype Message = Message(apiKey: string, from: string, to: seq<string>, subject: string, html: string)

  /** `displayName ?? to.split("@")[0]`: an empty display name is kept; only a missing one falls back. */
  function WelcomeName(displayName: Option<string>, to: string): (name: string)
    ensures displayName.Some? ==> name == displayName.value
    ensures displayName.None? ==> '@' !in name && |name| <= |to| && name == to[..|name|]
    ensures displayName.None? && '@' in to ==> |name| < |to| && to[|name|] == '@'
    ensures displayName.None? && '@' !in to ==> name == to
  {
    match displayName
    case Some(n) => n
    case None =>
      var r := Before(to, '@');
      assert |r| == |to| ==> r == to;
      r
  }

  /** Without a display name, the greeting uses the address's local part: everything before its first `@`. */
  lemma {:induction false} WelcomeNameOfAddress(local: string, domain: string)
    requires '@' !in local
    ensures WelcomeName(None, local + "@" + domain) == local
  {
    var to := local + "@" + domain;
    var name := WelcomeName(None, to);
    assert to[|local|] == '@';
    assert '@' in to;
    assert name == to[..|local|] == local;
  }

  const Indent := "\n      "
  const Outdent := "\n    "

  const WelcomeSubject := "Welcome to Artie Apparel"
  const ResetSubject := "Reset your password – Artie Apparel"
  const VerifySubject := "Verify your email – Artie Apparel"

  /** The welcome body around the escaped name, between the template's outer white space. */
  const WelcomeOpen := "<h1>Welcome, "
  const WelcomeClose :=
    "!</h1>" +
    Indent + "<p>Thanks for signing up. We're glad to have you.</p>" +
    Indent + "<p>You can start exploring designs and shop tees in the app.</p>" +
    Indent + "<p>\U{2014} The Artie Apparel team</p>"

  function WelcomeBody(name: string): (r: string)
    ensures Tagged(r)
  {
    TaggedJoin(WelcomeOpen, EscapeHtml(name), WelcomeClose);
    WelcomeOpen + EscapeHtml(name) + WelcomeClose
  }

  /** A link button body, shared by the reset and verification messages: the parts around the link. */
  const HrefOpen := "href=\""

  function LinkBefore(intro: string): (r: string)
    ensures |HrefOpen| <= |r| && r[|r| - |HrefOpen|..] == HrefOpen
    ensures r != [] && r[0] == '<'
  {
    EndsWithLast("<p>" + intro + "</p>" + Indent + "<p><a ", HrefOpen);
    "<p>" + intro + "</p>" + Indent + "<p><a " + HrefOpen
  }

  /** The text after a prefix is the suffix itself. */
  lemma EndsWithLast(a: string, b: string)
    ensures (a + b)[|a + b| - |b|..] == b
  {
  }

  /** The button's inline style, one declaration at a time. */
  const ButtonStyle :=
    "display:inline-block; " + "padding:10px 20px; " + "background:#007AFF; " + "color:#fff; " +
    "text-decoration:none; " + "border-radius:8px;"

  function LinkAfter(caption: string, ignore: string, expiry: string): (r: string)
    ensures r != [] && r[0] == '"' && r[|r| - 1] == '>'
  {
    "\"" +
    (" style=\"" + ButtonStyle + "\">" +
     caption + "</a></p>" +
     Indent + "<p>" + ignore + "</p>" +
     Indent + "<p>" + expiry + "</p>" +
     Indent + "<p>\U{2014} Artie Apparel</p>")
  }

  function LinkBody(intro: string, link: string, caption: string, ignore: string, expiry: string): (r: string)
    ensures Tagged(r)
  {
    TaggedJoin(LinkBefore(intro), EscapeHtml(link), LinkAfter(caption, ignore, expiry));
    LinkBefore(intro) + EscapeHtml(link) + LinkAfter(caption, ignore, expiry)
  }

  /** A body that opens with a tag and closes with one, so trimming the template leaves it whole. */
  predicate Tagged(body: string) {
    body != [] && body[0] == '<' && body[|body| - 1] == '>'
  }

  /** Text between a part that opens with a tag and a part that closes with one is tagged. */
  lemma TaggedJoin(a: string, m: string, b: string)
    requires a != [] && a[0] == '<' && b != [] && b[|b| - 1] == '>'
    ensures Tagged(a + m + b)
  {
    assert (a + m + b)[0] == a[0];
    assert (a + m + b)[|a + m + b| - 1] == b[|b| - 1];
  }

  /** The trimmed template: the body alone. */
  function Html(body: string): (html: string)
    requires Tagged(body)
    ensures html == body
  {
    TrimAround(Indent, body, Outdent);
    Trim(Indent + body + Outdent)
  }

  /** `sendWelcomeEmail`: one message to `to`, greeting the escaped name. */
  function WelcomeEmail(config: EmailConfig, to: string, displayName: Option<string>): (m: Message)
    ensures m.apiKey == config.apiKey && m.from == config.from && m.to == [to]
    ensures m.subject == WelcomeSubject
    ensures m.html == WelcomeBody(WelcomeName(displayName, to))
  {
    var body := WelcomeBody(WelcomeName(displayName, to));
    Message(config.apiKey, config.from, [to], WelcomeSubject, Html(body))
  }

  function ResetBody(link: string): string {
    LinkBody("You requested a password reset for your Artie Apparel account.", link, "Reset password",
             "If you didn't request this, you can ignore this email.", "This link expires in 1 hour.")
  }

  function VerifyBody(link: string): string {
    LinkBody("Please verify your email address for your Artie Apparel account.", link, "Verify email",
             "If you didn't create an account, you can ignore this email.", "This link expires in 24 hours.")
  }

  /** `sendPasswordResetEmail`: one message to `to` carrying the escaped link. */
  function PasswordResetEmail(config: EmailConfig, to: string, resetLink: string): (m: Message)
    ensures m == Message(config.apiKey, config.from, [to], ResetSubject, ResetBody(resetLink))
  {
    var body := ResetBody(resetLink);
    Message(config.apiKey, config.from, [to], ResetSubject, Html(body))
  }

  /** `sendEmailVerificationEmail`: one message to `to` carrying the escaped link. */
  function VerificationEmail(config: EmailConfig, to: string, verificationLink: string): (m: Message)
    ensures m == Message(config.apiKey, config.from, [to], VerifySubject, VerifyBody(verificationLink))
  {
    var body := VerifyBody(verificationLink);
    Message(config.apiKey, config.from, [to], VerifySubject, Html(body))
  }

  /**
   * `body` opens with `open` and `value` follows it, holding nothing that
   * could open or close a tag or leave an attribute value.
   */
  predicate TextAfter(body: string, open: string, value: string) {
    && |open| + |value| <= |body|
    && body[..|open|] == open
    && body[|open|..|open| + |value|] == value
    && (forall i :: |open| <= i < |open| + |value| ==> !Unsafe(body[i]))
  }

  /** Safe text placed right after an opening stays text. */
  lemma Embedded(open: string, value: string, close: string)
    requires forall i :: 0 <= i < |value| ==> !Unsafe(value[i])
    ensures TextAfter(open + value + close, open, value)
  {
    var body := open + value + close;
    assert body[..|open|] == open;
    assert body[|open|..|open| + |value|] == value;
    assert forall i :: |open| <= i < |open| + |value| ==> body[i] == value[i - |open|];
  }

  /**
   * The name stays text: in the welcome body it sits right after the
   * greeting, holds nothing that could open or close a tag, and reads back
   * as the name.
   */
  lemma WelcomeNameIsText(name: string)
    ensures TextAfter(WelcomeBody(name), WelcomeOpen, EscapeHtml(name))
    ensures Unescape(EscapeHtml(name)) == name
  {
    EscapeHtmlSafe(name);
    Embedded(WelcomeOpen, EscapeHtml(name), WelcomeClose);
    UnescapeEscapeHtml(name);
  }

  /**
   * `value` fills an `href` attribute of `body` that opens just before
   * `start`: it follows `href="`, holds no `"` that could end it early, and
   * the next character closes it.
   */
  predicate FillsHref(body: string, start: int, value: string) {
    && |HrefOpen| <= start && start + |value| < |body|
    && body[start - |HrefOpen|..start] == HrefOpen
    && body[start..start + |value|] == value
    && (forall i :: start <= i < start + |value| ==> body[i] != '"')
    && body[start + |value|] == '"'
  }

  /** A quote-free value between an opening `href="` and a closing `"` fills the attribute. */
  lemma Framed(before: string, value: string, after: string)
    requires |HrefOpen| <= |before| && before[|before| - |HrefOpen|..] == HrefOpen
    requires forall i :: 0 <= i < |value| ==> value[i] != '"'
    requires after != [] && after[0] == '"'
    ensures FillsHref(before + value + after, |before|, value)
  {
    var body := before + value + after;
    var start := |before|;
    assert body[start - |HrefOpen|..start] == before[start - |HrefOpen|..];
    assert body[start..start + |value|] == value;
    assert forall i :: start <= i < start + |value| ==> body[i] == value[i - start];
    assert body[start + |value|] == after[0];
  }

  /**
   * The link fills the button's `href` value exactly, and the value reads
   * back as the link.
   */
  lemma LinkStaysInHref(intro: string, link: string, caption: string, ignore: string, expiry: string)
    ensures FillsHref(LinkBody(intro, link, caption, ignore, expiry), |LinkBefore(intro)|, EscapeHtml(link))
    ensures Unescape(EscapeHtml(link)) == link
  {
    var value := EscapeHtml(link);
    EscapeHtmlSafe(link);
    Framed(LinkBefore(intro), value, LinkAfter(caption, ignore, expiry));
    UnescapeEscapeHtml(link);
  }
}

=== FILE: json.dfy ===
/**
 * Untyped Firestore document data as the application's JavaScript sees it:
 * a missing field is `undefined`, and every test on a field is a `typeof`
 * check, a nullish check (`??`) or a truthiness check.
 */
module Json {

  import opened Core

  /** A JavaScript number. */
  datatype Number = Finite(v: real) | NaN | PosInfinity | NegInfinity

  /** A value stored in a Firestore document. */
  datatype Value =
    | Null
    | Bool(b: bool)
    | Num(n: Number)
    | Str(s: string)
    | Arr(items: seq<Value>)
    | Obj(fields: map<string, Value>)
    | Timestamp(millis: int)

  /** The data of one document: field name to value. */
  type Doc = map<string, Value>

  /** A document as a snapshot lists it: its id and its data. */
  datatype StoredDoc = StoredDoc(id: string, data: Doc)

  /** `data[key]`; `None` is `undefined`. */
  function Get(d: Doc, key: string): Option<Value> {
    if key in d then Some(d[key]) else None
  }

  /** `v?.key`: only objects carry fields. */
  function Field(v: Option<Value>, key: string): Option<Value> {
    match v
    case Some(Obj(fields)) => if key in fields then Some(fields[key]) else None
    case _ => None
  }

  /** `v === null || v === undefined`. */
  predicate Nullish(v: Option<Value>) {
    v == None || v == Some(Null)
  }

  /** JavaScript truthiness: `false`, `0`, `NaN`, `""`, `null` and `undefined` are falsy. */
  predicate Truthy(v: Option<Value>) {
    match v
    case None => false
    case Some(Null) => false
    case Some(Bool(b)) => b
    case Some(Num(n)) => n != Finite(0.0) && n != NaN
    case Some(Str(s)) => s != []
    case Some(_) => true
  }

  /** `typeof v === "object" && v !== null`: arrays and timestamps are objects too. */
  predicate IsObject(v: Option<Value>) {
    v.Some? && (v.value.Arr? || v.value.Obj? || v.value.Timestamp?)
  }

  /** The string held by `v` when `typeof v === "string"`. */
  function AsString(v: Option<Value>): Option<string> {
    match v
    case Some(Str(s)) => Some(s)
    case _ => None
  }

  /** The number held by `v` when `typeof v === "number"`. */
  function AsNumber(v: Option<Value>): Option<Number> {
    match v
    case Some(Num(n)) => Some(n)
    case _ => None
  }

  /** A string array as stored. */
  function Strs(ss: seq<string>): (v: Value)
    ensures v.Arr? && |v.items| == |ss|
    ensures forall i :: 0 <= i < |ss| ==> v.items[i] == Str(ss[i])
  {
    Arr(seq(|ss|, i requires 0 <= i < |ss| => Str(ss[i])))
  }

  /** An optional value as stored: `x ?? null`. */
  function OrNull(v: Option<Value>): Value {
    match v
    case Some(x) => x
    case None => Null
  }
}

=== FILE: product.dfy ===
/** The catalog entities: design products, designs and garments. */
module Product {

  import opened Core
  import opened Json

  /** The six product categories, in their declared order. */
  const AllowedCategories: seq<string> :=
    ["tees", "hoodies", "accessories", "limited-edition", "bestseller", "new"]

  /** The categories used when none usable is given. */
  const DefaultCategories: seq<string> := ["tees", "new"]

  predicate IsCategory(c: string) {
    c in AllowedCategories
  }

  predicate AllCategories(cs: seq<string>) {
    forall i :: 0 <= i < |cs| ==> IsCategory(cs[i])
  }

  /** A design as offered for saving: the denormalised snapshot kept with a saved entry. */
  datatype DesignProduct = DesignProduct(
    productId: string,
    name: string,
    description: string,
    price: string,
    priceAmount: Option<Number>,
    image: string,
    categories: seq<string>,
    sku: Option<string>)

  /** A design of the marketplace. `active == Some(false)` hides it. */
  datatype Design = Design(
    id: string,
    name: string,
    author: string,
    created: string,
    categories: seq<string>,
    image: string,
    description: string,
    price: string,
    priceAmount: Option<Number>,
    sku: Option<string>,
    tags: Option<seq<string>>,
    active: Option<bool>)

  /**
   * A garment of the marketplace. Stored garments also carry `active`, which
   * the declared interface omits but every reader and writer handles.
   */
  datatype Garment = Garment(
    id: string,
    name: string,
    sizes: seq<string>,
    color: string,
    sku: string,
    author: string,
    releaseYear: Number,
    categories: seq<string>,
    image: string,
    description: Option<string>,
    price: Option<string>,
    active: Option<bool>)
}

=== FILE: save_design_hook.dfy ===
/** Saving a design from the client (`useSaveDesign`): the reported result and the `saving` flag. */
module SaveDesignHook {

  import opened Core
  import opened Product
  import SD = SavedDesigns

  /** What `saveDesign` resolves to. */
  datatype SaveResult = Saved | NotSaved(error: string)

  const NotLoggedInMessage := "You must be logged in to save designs."
  const SaveFallback := "Failed to save design."

  /** The signed-in user, when there is one. */
  datatype User = User(uid: string)

  /** `isLoggedIn`: a user is present. */
  predicate IsLoggedIn(user: Option<User>) {
    user.Some?
  }

  /** What one `saveDesign` call did: its result, `saving` afterwards, and whether the store was asked to save. */
  datatype SaveCall = SaveCall(result: SaveResult, savingAfter: bool, attempted: bool)

  /**
   * `saveDesign`, given the outcome of the remote save: with no user it fails
   * without trying; otherwise it reports success or the failure's message, and
   * `saving` is off again either way.
   */
  function SaveDesign(user: Option<User>, saving: bool, outcome: Outcome<Thrown>): (r: SaveCall)
    ensures !IsLoggedIn(user) ==> r == SaveCall(NotSaved(NotLoggedInMessage), saving, false)
    ensures IsLoggedIn(user) ==> r.attempted && !r.savingAfter
    ensures IsLoggedIn(user) && outcome.Done? ==> r.result == Saved
    ensures IsLoggedIn(user) && outcome.Failed? ==> r.result == NotSaved(MessageOr(outcome.error, SaveFallback))
  {
    if user.None? then SaveCall(NotSaved(NotLoggedInMessage), saving, false)
    else
      match outcome
      case Done => SaveCall(Saved, false, true)
      case Failed(e) => SaveCall(NotSaved(MessageOr(e, SaveFallback)), false, true)
  }

  /** A failed save always explains itself: the message is never lost, and success needs a user. */
  lemma SaveResultExplained(user: Option<User>, saving: bool, outcome: Outcome<Thrown>)
    ensures SaveDesign(user, saving, outcome).result == Saved <==> IsLoggedIn(user) && outcome.Done?
    ensures outcome.Failed? && outcome.error.ErrorInstance? && IsLoggedIn(user) ==>
      SaveDesign(user, saving, outcome).result.error == outcome.error.message
  {
  }

  /** Every user's saved-designs subcollection, by user id. */
  type Stores = map<string, SD.Collection>

  function UserCollection(stores: Stores, uid: string): SD.Collection {
    if uid in stores then stores[uid] else []
  }

  /**
   * `saveDesign` against the store itself, given the outcomes of the query
   * and of the write inside `saveDesignForUser`: signed out nothing is
   * written; signed in, a failure is reported with its message and writes
   * nothing, and a success changes the user's own subcollection only.
   */
  function SaveDesignToStore(user: Option<User>, saving: bool, stores: Stores, p: DesignProduct,
                             freshId: string, serverMillis: int,
                             getDocs: Outcome<Thrown>, addDoc: Outcome<Thrown>): (r: (SaveCall, Stores))
    requires user.Some? ==> freshId !in SD.Ids(UserCollection(stores, user.value.uid))
    ensures user.None? ==> r.1 == stores && !r.0.attempted && r.0.result == NotSaved(NotLoggedInMessage)
    ensures user.Some? ==> r.0.attempted && !r.0.savingAfter
    ensures user.Some? ==>
      var (res, c') := SD.SaveDesignForUserWith(UserCollection(stores, user.value.uid), p, freshId, serverMillis, getDocs, addDoc);
      && (res.Ok? ==> r.0.result == Saved)
      && (res.Err? ==> r.0.result == NotSaved(MessageOr(res.error, SaveFallback)) && r.1 == stores)
      && (res.Ok? ==> r.1.Keys == stores.Keys + {user.value.uid} && r.1[user.value.uid] == c')
      && forall uid :: uid in stores && uid != user.value.uid ==> r.1[uid] == stores[uid]
  {
    match user
    case None => (SaveDesign(user, saving, Done), stores)
    case Some(u) =>
      var (res, c') := SD.SaveDesignForUserWith(UserCollection(stores, u.uid), p, freshId, serverMillis, getDocs, addDoc);
      match res
      case Ok(_) => (SaveDesign(user, saving, Done), stores[u.uid := c'])
      case Err(e) => (SaveDesign(user, saving, Failed(e)), stores)
  }

  /** A failed query or write is reported with its message, or the fallback, and leaves every store as it was. */
  lemma FailedSaveWritesNothing(user: User, saving: bool, stores: Stores, p: DesignProduct,
                                freshId: string, serverMillis: int, e: Thrown)
    requires freshId !in SD.Ids(UserCollection(stores, user.uid))
    ensures SaveDesignToStore(Some(user), saving, stores, p, freshId, serverMillis, Failed(e), Done)
      == (SaveCall(NotSaved(MessageOr(e, SaveFallback)), false, true), stores)
    ensures SD.FindByProductId(UserCollection(stores, user.uid), p.productId).None? ==>
      SaveDesignToStore(Some(user), saving, stores, p, freshId, serverMillis, Done, Failed(e))
      == (SaveCall(NotSaved(MessageOr(e, SaveFallback)), false, true), stores)
  {
  }
}

=== FILE: saved_designs.dfy ===
/**
 * The per-user saved-designs subcollection `users/{userId}/savedDesigns`:
 * listing it newest first, saving a product at most once, deleting by id.
 * One user's subcollection is modelled as the sequence of its documents in
 * the order a snapshot lists them; document ids are distinct.
 */
module SavedDesigns {

  import opened Core
  import opened Json
  import opened Product

  /** One user's saved-designs subcollection. */
  type Collection = seq<StoredDoc>

  predicate DistinctIds(c: Collection) {
    forall i, j :: 0 <= i < j < |c| ==> c[i].id != c[j].id
  }

  function Ids(c: Collection): set<string> {
    set i | 0 <= i < |c| :: c[i].id
  }

  /** The subcollection as a map from document id to document data. */
  function AsMap(c: Collection): (m: map<string, Doc>)
    ensures m.Keys == Ids(c)
  {
    if c == [] then map[] else AsMap(c[..|c| - 1])[c[|c| - 1].id := c[|c| - 1].data]
  }

  // ---------------------------------------------------------------------------
  // Listing.
  // ---------------------------------------------------------------------------

  /**
   * A saved design as the client sees it: the document id, the product id,
   * the stored product snapshot and the save time, all as stored.
   */
  datatype SavedDesign = SavedDesign(id: string, productId: Value, product: Value, savedAt: Option<Value>)

  /** A document is listed only if `product` is an object with a truthy `productId` and `name`. */
  predicate IsWellFormed(data: Doc) {
    var product := Get(data, "product");
    Truthy(product) && IsObject(product)
    && Truthy(Field(product, "productId")) && Truthy(Field(product, "name"))
  }

  /** The listed entry of a well-formed document; `productId` falls back to the snapshot's. */
  function ToSaved(d: StoredDoc): (e: SavedDesign)
    requires IsWellFormed(d.data)
  {
    var product := Get(d.data, "product");
    var top := Get(d.data, "productId");
    SavedDesign(d.id, if Nullish(top) then Field(product, "productId").value else top.value,
                product.value, Get(d.data, "savedAt"))
  }

  /** `savedAt?.toMillis?.() ?? 0`: only a timestamp has a time. */
  function SavedAtMillis(e: SavedDesign): int {
    match e.savedAt
    case Some(Timestamp(ms)) => ms
    case _ => 0
  }

  /** The documents that pass the well-formedness check, converted, in snapshot order. */
  function KeepWellFormed(docs: seq<StoredDoc>): (r: seq<SavedDesign>)
  {
    if docs == [] then []
    else
      var rest := KeepWellFormed(docs[1..]);
      if IsWellFormed(docs[0].data) then [ToSaved(docs[0])] + rest else rest
  }

  /** Exactly the well-formed documents are kept, each as its own entry. */
  lemma {:induction false} KeepWellFormedMembers(docs: seq<StoredDoc>, e: SavedDesign)
    ensures e in KeepWellFormed(docs)
        <==> exists i :: 0 <= i < |docs| && IsWellFormed(docs[i].data) && e == ToSaved(docs[i])
  {
    if docs != [] {
      KeepWellFormedMembers(docs[1..], e);
      if e in KeepWellFormed(docs[1..]) {
        var i :| 0 <= i < |docs[1..]| && IsWellFormed(docs[1..][i].data) && e == ToSaved(docs[1..][i]);
        assert docs[i + 1] == docs[1..][i];
      }
      if exists i :: 0 <= i < |docs| && IsWellFormed(docs[i].data) && e == ToSaved(docs[i]) {
        var i :| 0 <= i < |docs| && IsWellFormed(docs[i].data) && e == ToSaved(docs[i]);
        if i > 0 {
          assert docs[1..][i - 1] == docs[i];
        }
      }
    }
  }

  predicate NewestFirst(s: seq<SavedDesign>) {
    forall i, j :: 0 <= i < j < |s| ==> SavedAtMillis(s[i]) >= SavedAtMillis(s[j])
  }

  /** Inserts `e` into a newest-first list ahead of the entries no newer than it. */
  function Insert(e: SavedDesign, s: seq<SavedDesign>): seq<SavedDesign> {
    if s == [] || SavedAtMillis(e) >= SavedAtMillis(s[0]) then [e] + s
    else [s[0]] + Insert(e, s[1..])
  }

  lemma {:induction false} InsertPermutes(e: SavedDesign, s: seq<SavedDesign>)
    ensures multiset(Insert(e, s)) == multiset(s) + multiset{e}
  {
    if s != [] && SavedAtMillis(e) < SavedAtMillis(s[0]) {
      InsertPermutes(e, s[1..]);
      assert s == [s[0]] + s[1..];
    }
  }

  /** No entry of `s` was saved later than `ms`. */
  predicate NoneAfter(s: seq<SavedDesign>, ms: int) {
    forall k :: 0 <= k < |s| ==> SavedAtMillis(s[k]) <= ms
  }

  /** Inserting an entry no newer than `ms` keeps every entry at or before `ms`. */
  lemma {:induction false} InsertNoneAfter(e: SavedDesign, s: seq<SavedDesign>, ms: int)
    requires NoneAfter(s, ms) && SavedAtMillis(e) <= ms
    ensures NoneAfter(Insert(e, s), ms)
  {
    if s != [] && SavedAtMillis(e) < SavedAtMillis(s[0]) {
      InsertNoneAfter(e, s[1..], ms);
      var r := Insert(e, s);
      forall k | 0 <= k < |r| ensures SavedAtMillis(r[k]) <= ms {
        if k > 0 { assert r[k] == Insert(e, s[1..])[k - 1]; }
      }
    } else {
      var r := Insert(e, s);
      forall k | 0 <= k < |r| ensures SavedAtMillis(r[k]) <= ms {
        if k > 0 { assert r[k] == s[k - 1]; }
      }
    }
  }

  /** An entry at least as new as a newest-first list may lead it. */
  lemma ConsNewestFirst(x: SavedDesign, t: seq<SavedDesign>)
    requires NewestFirst(t) && NoneAfter(t, SavedAtMillis(x))
    ensures NewestFirst([x] + t)
  {
    var r := [x] + t;
    forall i, j | 0 <= i < j < |r| ensures SavedAtMillis(r[i]) >= SavedAtMillis(r[j]) {
      assert r[j] == t[j - 1];
      if i > 0 { assert r[i] == t[i - 1]; }
    }
  }

  lemma {:induction false} InsertSorted(e: SavedDesign, s: seq<SavedDesign>)
    requires NewestFirst(s)
    ensures NewestFirst(Insert(e, s))
  {
    if s == [] || SavedAtMillis(e) >= SavedAtMillis(s[0]) {
      assert NoneAfter(s, SavedAtMillis(e)) by {
        forall k | 0 <= k < |s| ensures SavedAtMillis(s[k]) <= SavedAtMillis(e) {
          if k > 0 { assert SavedAtMillis(s[0]) >= SavedAtMillis(s[k]); }
        }
      }
      ConsNewestFirst(e, s);
    } else {
      var ms := SavedAtMillis(s[0]);
      assert NewestFirst(s[1..]) by {
        forall i, j | 0 <= i < j < |s[1..]| ensures SavedAtMillis(s[1..][i]) >= SavedAtMillis(s[1..][j]) {
          assert s[1..][i] == s[i + 1] && s[1..][j] == s[j + 1];
        }
      }
      assert NoneAfter(s[1..], ms) by {
        forall k | 0 <= k < |s[1..]| ensures SavedAtMillis(s[1..][k]) <= ms {
          assert s[1..][k] == s[k + 1];
        }
      }
      InsertSorted(e, s[1..]);
      InsertNoneAfter(e, s[1..], ms);
      ConsNewestFirst(s[0], Insert(e, s[1..]));
    }
  }

  /** The sort by `savedAt` milliseconds, newest first, of the in-memory list. */
  function SortNewestFirst(s: seq<SavedDesign>): (r: seq<SavedDesign>)
    ensures NewestFirst(r)
    ensures multiset(r) == multiset(s)
  {
    if s == [] then []
    else
      var rest := SortNewestFirst(s[1..]);
      InsertSorted(s[0], rest);
      InsertPermutes(s[0], rest);
      assert s == [s[0]] + s[1..];
      Insert(s[0], rest)
  }

  /** The entries saved at exactly `ms` milliseconds, in their order in `s`. */
  function SavedAt(s: seq<SavedDesign>, ms: int): seq<SavedDesign> {
    if s == [] then []
    else (if SavedAtMillis(s[0]) == ms then [s[0]] else []) + SavedAt(s[1..], ms)
  }

  /** Insertion puts `e` ahead of the entries saved at the same time as it. */
  lemma {:induction false} InsertAheadOfTies(e: SavedDesign, s: seq<SavedDesign>, ms: int)
    ensures SavedAt(Insert(e, s), ms) == SavedAt([e], ms) + SavedAt(s, ms)
  {
    assert SavedAt([e], ms) == (if SavedAtMillis(e) == ms then [e] else []) by {
      assert [e][1..] == [];
    }
    if s == [] || SavedAtMillis(e) >= SavedAtMillis(s[0]) {
      assert ([e] + s)[1..] == s;
    } else {
      InsertAheadOfTies(e, s[1..], ms);
      assert ([s[0]] + Insert(e, s[1..]))[1..] == Insert(e, s[1..]);
    }
  }

  /**
   * The sort is stable, as JavaScript's `Array.prototype.sort` is: entries
   * saved at the same millisecond, such as all those without `savedAt`,
   * keep their snapshot order.
   */
  lemma {:induction false} SortStable(s: seq<SavedDesign>, ms: int)
    ensures SavedAt(SortNewestFirst(s), ms) == SavedAt(s, ms)
  {
    if s != [] {
      SortStable(s[1..], ms);
      InsertAheadOfTies(s[0], SortNewestFirst(s[1..]), ms);
      assert SavedAt([s[0]], ms) == (if SavedAtMillis(s[0]) == ms then [s[0]] else []) by {
        assert [s[0]][1..] == [];
      }
    }
  }

  /**
   * `getSavedDesignsForUser`: the well-formed documents of the snapshot,
   * newest first, each exactly as often as it was kept.
   */
  function GetSavedDesignsForUser(snapshot: Collection): (r: seq<SavedDesign>)
    ensures NewestFirst(r)
    ensures multiset(r) == multiset(KeepWellFormed(snapshot))
  {
    SortNewestFirst(KeepWellFormed(snapshot))
  }

  /** Listed entries saved at the same millisecond appear in snapshot order. */
  lemma ListingStable(snapshot: Collection, ms: int)
    ensures SavedAt(GetSavedDesignsForUser(snapshot), ms) == SavedAt(KeepWellFormed(snapshot), ms)
  {
    SortStable(KeepWellFormed(snapshot), ms);
  }

  /** An entry is listed exactly when some well-formed document converts to it. */
  lemma ListedExactly(snapshot: Collection, e: SavedDesign)
    ensures e in GetSavedDesignsForUser(snapshot)
        <==> exists i :: 0 <= i < |snapshot| && IsWellFormed(snapshot[i].data) && e == ToSaved(snapshot[i])
  {
    var r := GetSavedDesignsForUser(snapshot);
    assert e in r <==> e in multiset(r);
    assert e in KeepWellFormed(snapshot) <==> e in multiset(KeepWellFormed(snapshot));
    KeepWellFormedMembers(snapshot, e);
  }

  /** Every listed entry carries its document's id and the top-level or snapshot product id. */
  lemma ListedEntryFields(snapshot: Collection, e: SavedDesign)
    requires e in GetSavedDesignsForUser(snapshot)
    ensures exists i :: (
      && 0 <= i < |snapshot| && IsWellFormed(snapshot[i].data)
      && e.id == snapshot[i].id
      && e.product == snapshot[i].data["product"]
      && (if Nullish(Get(snapshot[i].data, "productId"))
          then Some(e.productId) == Field(Get(snapshot[i].data, "product"), "productId")
          else Some(e.productId) == Get(snapshot[i].data, "productId")))
  {
    ListedExactly(snapshot, e);
  }

  // ---------------------------------------------------------------------------
  // Saving.
  // ---------------------------------------------------------------------------

  /** The product snapshot as stored; absent `priceAmount` and `sku` are stored as null. */
  function EncodeProduct(p: DesignProduct): Value {
    Obj(map[
      "productId" := Str(p.productId),
      "name" := Str(p.name),
      "description" := Str(p.description),
      "price" := Str(p.price),
      "priceAmount" := OrNull(if p.priceAmount.Some? then Some(Num(p.priceAmount.value)) else None),
      "image" := Str(p.image),
      "categories" := Strs(p.categories),
      "sku" := OrNull(if p.sku.Some? then Some(Str(p.sku.value)) else None)])
  }

  /** Reads the string array back. */
  function DecodeStrs(v: Value): Option<seq<string>> {
    if v.Arr? && forall i :: 0 <= i < |v.items| ==> v.items[i].Str? then
      Some(seq(|v.items|, i requires 0 <= i < |v.items| && v.items[i].Str? => v.items[i].s))
    else None
  }

  /** Reads a stored snapshot back into a product, when it has the stored shape. */
  function DecodeProduct(v: Value): Option<DesignProduct> {
    if !v.Obj? then None
    else
      var f := v.fields;
      var pid := AsString(Get(f, "productId"));
      var name := AsString(Get(f, "name"));
      var desc := AsString(Get(f, "description"));
      var price := AsString(Get(f, "price"));
      var image := AsString(Get(f, "image"));
      var cats := if "categories" in f then DecodeStrs(f["categories"]) else None;
      if pid.None? || name.None? || desc.None? || price.None? || image.None? || cats.None? then None
      else
        var amount := if Get(f, "priceAmount") == Some(Null) then None else AsNumber(Get(f, "priceAmount"));
        var sku := if Get(f, "sku") == Some(Null) then None else AsString(Get(f, "sku"));
        Some(DesignProduct(pid.value, name.value, desc.value, price.value, amount, image.value, cats.value, sku))
  }

  /** The stored snapshot holds every field of the product: reading it back gives the product. */
  lemma EncodeProductRoundTrip(p: DesignProduct)
    ensures DecodeProduct(EncodeProduct(p)) == Some(p)
  {
    var v := EncodeProduct(p);
    var cats := v.fields["categories"];
    assert cats == Strs(p.categories);
    assert DecodeStrs(cats).value == p.categories;
  }

  /** The new document written for a product, with the server time of the write. */
  function NewSavedDoc(p: DesignProduct, serverMillis: int): Doc {
    map["productId" := Str(p.productId), "product" := EncodeProduct(p), "savedAt" := Timestamp(serverMillis)]
  }

  /** The id of the first document whose top-level `productId` is `pid` (the `limit(1)` query). */
  function FindByProductId(c: Collection, pid: string): (r: Option<string>)
    ensures r.None? <==> forall i :: 0 <= i < |c| ==> Get(c[i].data, "productId") != Some(Str(pid))
    ensures r.Some? ==> exists i :: 0 <= i < |c| && c[i].id == r.value && Get(c[i].data, "productId") == Some(Str(pid))
  {
    if c == [] then None
    else if Get(c[0].data, "productId") == Some(Str(pid)) then Some(c[0].id)
    else
      var r := FindByProductId(c[1..], pid);
      assert forall i :: 1 <= i < |c| ==> c[i] == c[1..][i - 1];
      r
  }

  /** The number of documents whose top-level `productId` is `pid`. */
  function CountProduct(c: Collection, pid: string): nat {
    if c == [] then 0
    else (if Get(c[0].data, "productId") == Some(Str(pid)) then 1 else 0) + CountProduct(c[1..], pid)
  }

  lemma {:induction false} CountProductAppend(c: Collection, d: StoredDoc, pid: string)
    ensures CountProduct(c + [d], pid) == CountProduct(c, pid) + CountProduct([d], pid)
  {
    if c != [] {
      assert (c + [d])[1..] == c[1..] + [d];
      CountProductAppend(c[1..], d, pid);
    } else {
      assert c + [d] == [d];
    }
  }

  lemma {:induction false} CountProductNone(c: Collection, pid: string)
    requires FindByProductId(c, pid).None?
    ensures CountProduct(c, pid) == 0
  {
    if c != [] {
      assert forall i :: 0 <= i < |c[1..]| ==> c[1..][i] == c[i + 1];
      CountProductNone(c[1..], pid);
    }
  }

  /**
   * `saveDesignForUser`: the reference of an existing entry for the same
   * product, leaving the subcollection unchanged; otherwise a new document
   * with the store's fresh id `freshId`, placed last. Firestore lists the
   * subcollection by document id, which the sequence order does not model;
   * `SaveAsMap` states the save without it.
   */
  function SaveDesignForUser(c: Collection, p: DesignProduct, freshId: string, serverMillis: int)
    : (r: (string, Collection))
    requires freshId !in Ids(c)
    ensures FindByProductId(c, p.productId).Some? ==> r == (FindByProductId(c, p.productId).value, c)
    ensures FindByProductId(c, p.productId).None? ==>
      && r.0 == freshId
      && r.1 == c + [StoredDoc(freshId, NewSavedDoc(p, serverMillis))]
    ensures DistinctIds(c) ==> DistinctIds(r.1)
    ensures r.0 in Ids(r.1)
  {
    match FindByProductId(c, p.productId)
    case Some(existing) => (existing, c)
    case None =>
      var c' := c + [StoredDoc(freshId, NewSavedDoc(p, serverMillis))];
      assert c'[|c|].id == freshId;
      (freshId, c')
  }

  /**
   * `saveDesignForUser` with the outcomes of its two awaited calls: the
   * `getDocs` query and, only when the query finds nothing, the `addDoc`.
   * Either failure rejects with its error and writes nothing; otherwise the
   * result is the reference of the save above.
   */
  function SaveDesignForUserWith(c: Collection, p: DesignProduct, freshId: string, serverMillis: int,
                                 getDocs: Outcome<Thrown>, addDoc: Outcome<Thrown>)
    : (r: (Result<string, Thrown>, Collection))
    requires freshId !in Ids(c)
    ensures getDocs.Failed? ==> r == (Err(getDocs.error), c)
    ensures getDocs.Done? && FindByProductId(c, p.productId).Some? ==> r == (Ok(FindByProductId(c, p.productId).value), c)
    ensures getDocs.Done? && FindByProductId(c, p.productId).None? && addDoc.Failed? ==> r == (Err(addDoc.error), c)
    ensures r.0.Ok? ==> r == (Ok(SaveDesignForUser(c, p, freshId, serverMillis).0), SaveDesignForUser(c, p, freshId, serverMillis).1)
  {
    match getDocs
    case Failed(e) => (Err(e), c)
    case Done =>
      match FindByProductId(c, p.productId)
      case Some(existing) => (Ok(existing), c)
      case None =>
        match addDoc
        case Failed(e) => (Err(e), c)
        case Done =>
          var (ref, c') := SaveDesignForUser(c, p, freshId, serverMillis);
          (Ok(ref), c')
  }

  /** The subcollection changes only through a successful save, and then by at most the one new document. */
  lemma SaveChangesOnlyOnSuccess(c: Collection, p: DesignProduct, freshId: string, serverMillis: int,
                                 getDocs: Outcome<Thrown>, addDoc: Outcome<Thrown>)
    requires freshId !in Ids(c)
    ensures var (res, c') := SaveDesignForUserWith(c, p, freshId, serverMillis, getDocs, addDoc);
      && (c' != c ==> res == Ok(freshId) && getDocs.Done? && addDoc.Done?)
      && (c' != c ==> c' == c + [StoredDoc(freshId, NewSavedDoc(p, serverMillis))])
      && (res.Err? ==> c' == c)
  {
  }

  /**
   * The save without the sequence's order: an id-keyed map and a multiset of
   * documents, as Firestore holds the subcollection. A save that finds no
   * entry adds exactly the one new document under an id not yet present.
   */
  lemma SaveAsMap(c: Collection, p: DesignProduct, freshId: string, serverMillis: int)
    requires freshId !in Ids(c)
    ensures var c' := SaveDesignForUser(c, p, freshId, serverMillis).1;
      && (FindByProductId(c, p.productId).Some? ==> c' == c)
      && (FindByProductId(c, p.productId).None? ==>
            && freshId !in AsMap(c)
            && AsMap(c') == AsMap(c)[freshId := NewSavedDoc(p, serverMillis)]
            && multiset(c') == multiset(c) + multiset{StoredDoc(freshId, NewSavedDoc(p, serverMillis))})
  {
    var c' := SaveDesignForUser(c, p, freshId, serverMillis).1;
    if FindByProductId(c, p.productId).None? {
      assert c'[..|c'| - 1] == c;
    }
  }

  /** The new document carries the product's id at the top and its full snapshot. */
  lemma SavedDocumentContents(c: Collection, p: DesignProduct, freshId: string, serverMillis: int)
    requires freshId !in Ids(c)
    requires FindByProductId(c, p.productId).None?
    ensures var d := SaveDesignForUser(c, p, freshId, serverMillis).1[|c|];
      && d.id == freshId
      && Get(d.data, "productId") == Some(Str(p.productId))
      && DecodeProduct(d.data["product"]) == Some(p)
      && Get(d.data, "savedAt") == Some(Timestamp(serverMillis))
  {
    var r := SaveDesignForUser(c, p, freshId, serverMillis).1;
    assert r[|c|] == StoredDoc(freshId, NewSavedDoc(p, serverMillis));
    NewSavedDocFields(p, serverMillis);
  }

  /** The three fields of a new document. */
  lemma NewSavedDocFields(p: DesignProduct, serverMillis: int)
    ensures var data := NewSavedDoc(p, serverMillis);
      && Get(data, "productId") == Some(Str(p.productId))
      && DecodeProduct(data["product"]) == Some(p)
      && Get(data, "savedAt") == Some(Timestamp(serverMillis))
  {
    EncodeProductRoundTrip(p);
  }

  /**
   * Saving twice is saving once: starting with no entry for the product, a
   * second save returns the first save's reference, changes nothing, and the
   * subcollection holds exactly one entry for the product.
   */
  lemma SaveIdempotent(c: Collection, p: DesignProduct, id1: string, id2: string, t1: int, t2: int)
    requires id1 !in Ids(c)
    requires FindByProductId(c, p.productId).None?
    ensures var (ref1, c1) := SaveDesignForUser(c, p, id1, t1);
      && id2 !in Ids(c1)
      ==> var (ref2, c2) := SaveDesignForUser(c1, p, id2, t2);
          ref2 == ref1 && c2 == c1 && CountProduct(c1, p.productId) == 1
  {
    var (ref1, c1) := SaveDesignForUser(c, p, id1, t1);
    var d := StoredDoc(id1, NewSavedDoc(p, t1));
    assert c1 == c + [d];
    assert c1[|c|] == d;
    var found := FindByProductId(c1, p.productId);
    assert found.Some?;
    var i :| 0 <= i < |c1| && c1[i].id == found.value && Get(c1[i].data, "productId") == Some(Str(p.productId));
    if i < |c| {
      assert false;
    }
    CountProductNone(c, p.productId);
    CountProductAppend(c, d, p.productId);
    assert CountProduct([d], p.productId) == 1 + CountProduct([d][1..], p.productId);
  }

  /**
   * A newly saved product with a non-empty id and name is listed afterwards
   * under the returned reference.
   */
  lemma SavedProductIsListed(c: Collection, p: DesignProduct, freshId: string, serverMillis: int)
    requires freshId !in Ids(c)
    requires FindByProductId(c, p.productId).None?
    requires p.productId != [] && p.name != []
    ensures var (ref, c') := SaveDesignForUser(c, p, freshId, serverMillis);
      exists e :: e in GetSavedDesignsForUser(c') && e.id == ref && e.productId == Str(p.productId)
  {
    var (ref, c') := SaveDesignForUser(c, p, freshId, serverMillis);
    var d := StoredDoc(freshId, NewSavedDoc(p, serverMillis));
    assert c'[|c|] == d;
    NewSavedDocListed(p, freshId, serverMillis);
    ListedExactly(c', ToSaved(d));
  }

  /** A new document for a product with an id and a name passes the listing's check under its own ids. */
  lemma NewSavedDocListed(p: DesignProduct, freshId: string, serverMillis: int)
    requires p.productId != [] && p.name != []
    ensures IsWellFormed(NewSavedDoc(p, serverMillis))
    ensures var e := ToSaved(StoredDoc(freshId, NewSavedDoc(p, serverMillis)));
      e.id == freshId && e.productId == Str(p.productId)
  {
    NewSavedDocFields(p, serverMillis);
  }

  // ---------------------------------------------------------------------------
  // Removing.
  // ---------------------------------------------------------------------------

  /** `removeSavedDesign`: deletes the document with that id, if any. */
  function RemoveSavedDesign(c: Collection, id: string): (r: Collection)
    ensures forall d :: d in r <==> d in c && d.id != id
    ensures |r| <= |c|
  {
    if c == [] then []
    else
      var rest := RemoveSavedDesign(c[1..], id);
      assert forall d :: d in c <==> d == c[0] || d in c[1..];
      if c[0].id == id then rest else [c[0]] + rest
  }

  /** Removal takes exactly `id` out of the ids. */
  lemma RemoveIds(c: Collection, id: string)
    ensures Ids(RemoveSavedDesign(c, id)) == Ids(c) - {id}
  {
    var r := RemoveSavedDesign(c, id);
    forall x | x in Ids(r) ensures x in Ids(c) - {id} {
      var i :| 0 <= i < |r| && r[i].id == x;
      assert r[i] in r;
      var j :| 0 <= j < |c| && c[j] == r[i];
    }
    forall x | x in Ids(c) - {id} ensures x in Ids(r) {
      var j :| 0 <= j < |c| && c[j].id == x;
      assert c[j] in c;
      var i :| 0 <= i < |r| && r[i] == c[j];
    }
  }

  /** Removal keeps the ids distinct. */
  lemma {:induction false} RemoveKeepsDistinct(c: Collection, id: string)
    requires DistinctIds(c)
    ensures DistinctIds(RemoveSavedDesign(c, id))
  {
    if c != [] {
      var tail := c[1..];
      assert DistinctIds(tail) by {
        forall i, j | 0 <= i < j < |tail| ensures tail[i].id != tail[j].id {
          assert tail[i] == c[i + 1] && tail[j] == c[j + 1];
        }
      }
      RemoveKeepsDistinct(tail, id);
      var rest := RemoveSavedDesign(tail, id);
      if c[0].id != id {
        assert c[0].id !in Ids(rest) by {
          RemoveIds(tail, id);
        }
        var r := [c[0]] + rest;
        forall i, j | 0 <= i < j < |r| ensures r[i].id != r[j].id {
          assert r[j] == rest[j - 1];
          if i > 0 { assert r[i] == rest[i - 1]; }
        }
      }
    }
  }

  /** Viewed as a map, removal deletes exactly one key and leaves every other document as it was. */
  lemma {:induction false} RemoveAsMap(c: Collection, id: string)
    requires DistinctIds(c)
    ensures AsMap(RemoveSavedDesign(c, id)) == AsMap(c) - {id}
  {
    var r := RemoveSavedDesign(c, id);
    RemoveIds(c, id);
    RemoveKeepsDistinct(c, id);
    forall k | k in AsMap(r) ensures AsMap(r)[k] == AsMap(c)[k] {
      AsMapLookup(r, k);
      AsMapLookup(c, k);
    }
  }

  /** In a collection with distinct ids, the map view finds each document's own data. */
  lemma {:induction false} AsMapLookup(c: Collection, k: string)
    requires DistinctIds(c)
    requires k in Ids(c)
    ensures exists i :: 0 <= i < |c| && c[i].id == k && AsMap(c)[k] == c[i].data
    ensures forall d :: d in c && d.id == k ==> AsMap(c)[k] == d.data
  {
    var last := c[|c| - 1];
    var init := c[..|c| - 1];
    assert c == init + [last];
    if last.id != k {
      assert k in Ids(init);
      AsMapLookup(init, k);
    } else {
      forall d | d in c && d.id == k ensures d == last {
        var j :| 0 <= j < |c| && c[j] == d;
      }
    }
  }
}

=== FILE: saved_designs_hook.dfy ===
/**
 * The client state of the saved-designs list (`useSavedDesigns`): the list,
 * a loading flag, an error message and the id whose removal is in flight.
 * Each async operation is a start transition, which says which remote call
 * it makes, and a settle transition taking the remote outcome.
 */
module SavedDesignsHook {

  import opened Core
  import SD = SavedDesigns

  datatype State = State(
    savedDesigns: seq<SD.SavedDesign>,
    loading: bool,
    error: Option<string>,
    removingId: Option<string>)

  /** The remote call a transition makes. */
  datatype Request = NoRequest | FetchAll | Delete(id: string)

  const LoadFallback := "Failed to load saved designs."
  const RemoveFallback := "Failed to remove design."

  /** `!!userId`: a user id that is present and non-empty. */
  predicate SignedIn(userId: Option<string>) {
    userId.Some? && userId.value != ""
  }

  /** The state before anything has run: empty, and loading only when a user is signed in. */
  function Initial(userId: Option<string>): (s: State)
    ensures s.savedDesigns == [] && s.error.None? && s.removingId.None?
    ensures s.loading <==> SignedIn(userId)
  {
    State([], SignedIn(userId), None, None)
  }

  /** `refresh` up to its fetch: signed out, it settles at once to an empty list without fetching. */
  function RefreshStart(s: State, userId: Option<string>): (r: (State, Request))
    ensures !SignedIn(userId) ==> r.1 == NoRequest && r.0 == s.(savedDesigns := [], loading := false, error := None)
    ensures SignedIn(userId) ==> r.1 == FetchAll && r.0 == s.(loading := true, error := None)
  {
    if !SignedIn(userId) then (s.(savedDesigns := [], loading := false, error := None), NoRequest)
    else (s.(loading := true, error := None), FetchAll)
  }

  /** `refresh` once its fetch settles: the fetched list replaces the old one, or the list empties and the error is kept. */
  function RefreshSettle(s: State, outcome: Result<seq<SD.SavedDesign>, Thrown>): (r: State)
    ensures !r.loading && r.removingId == s.removingId
    ensures outcome.Ok? ==> r.savedDesigns == outcome.value && r.error == s.error
    ensures outcome.Err? ==> r.savedDesigns == [] && r.error == Some(MessageOr(outcome.error, LoadFallback))
  {
    match outcome
    case Ok(list) => s.(savedDesigns := list, loading := false)
    case Err(e) => s.(savedDesigns := [], error := Some(MessageOr(e, LoadFallback)), loading := false)
  }

  /** The whole of `refresh`, with the fetch's outcome. */
  function Refresh(s: State, userId: Option<string>, outcome: Result<seq<SD.SavedDesign>, Thrown>): State {
    var (started, request) := RefreshStart(s, userId);
    if request == NoRequest then started else RefreshSettle(started, outcome)
  }

  /**
   * A refresh replaces the list wholesale: afterwards loading is off, the list
   * is exactly the fetched one with no error, or empty with the failure's
   * message, or empty with no error when signed out.
   */
  lemma RefreshOutcome(s: State, userId: Option<string>, outcome: Result<seq<SD.SavedDesign>, Thrown>)
    ensures var r := Refresh(s, userId, outcome);
      && !r.loading
      && r.removingId == s.removingId
      && (!SignedIn(userId) ==> r.savedDesigns == [] && r.error.None?)
      && (SignedIn(userId) && outcome.Ok? ==> r.savedDesigns == outcome.value && r.error.None?)
      && (SignedIn(userId) && outcome.Err? ==>
            r.savedDesigns == [] && r.error == Some(MessageOr(outcome.error, LoadFallback)))
  {
  }

  /** `remove` up to its delete: signed out it does nothing; otherwise it marks the id as in flight and deletes remotely, whether or not the id is listed. */
  function RemoveStart(s: State, userId: Option<string>, id: string): (r: (State, Request))
    ensures !SignedIn(userId) ==> r == (s, NoRequest)
    ensures SignedIn(userId) ==> r == (s.(removingId := Some(id)), Delete(id))
  {
    if !SignedIn(userId) then (s, NoRequest) else (s.(removingId := Some(id)), Delete(id))
  }

  /** The entries whose id differs from `id`, in their order. */
  function WithoutId(list: seq<SD.SavedDesign>, id: string): (r: seq<SD.SavedDesign>)
    ensures |r| <= |list|
  {
    if list == [] then []
    else if list[0].id == id then WithoutId(list[1..], id)
    else [list[0]] + WithoutId(list[1..], id)
  }

  /** `remove` once its delete settles: only a successful delete touches the list; the in-flight id clears either way. */
  function RemoveSettle(s: State, id: string, outcome: Outcome<Thrown>): (r: State)
    ensures r.removingId.None? && r.loading == s.loading
    ensures outcome.Done? ==> r.savedDesigns == WithoutId(s.savedDesigns, id) && r.error == s.error
    ensures outcome.Failed? ==>
      r.savedDesigns == s.savedDesigns && r.error == Some(MessageOr(outcome.error, RemoveFallback))
  {
    match outcome
    case Done => s.(savedDesigns := WithoutId(s.savedDesigns, id), removingId := None)
    case Failed(e) => s.(error := Some(MessageOr(e, RemoveFallback)), removingId := None)
  }

  /** The whole of `remove`, with the delete's outcome. */
  function Remove(s: State, userId: Option<string>, id: string, outcome: Outcome<Thrown>): State {
    var (started, request) := RemoveStart(s, userId, id);
    if request == NoRequest then started else RemoveSettle(started, id, outcome)
  }

  /** Removal keeps exactly the entries with another id. */
  lemma {:induction false} WithoutIdMembers(list: seq<SD.SavedDesign>, id: string)
    ensures forall e :: e in WithoutId(list, id) <==> e in list && e.id != id
  {
    if list != [] {
      WithoutIdMembers(list[1..], id);
      assert forall e :: e in list <==> e == list[0] || e in list[1..];
    }
  }

  /** Removal filters piecewise, so the entries it keeps stay in their relative order. */
  lemma {:induction false} WithoutIdConcat(a: seq<SD.SavedDesign>, b: seq<SD.SavedDesign>, id: string)
    ensures WithoutId(a + b, id) == WithoutId(a, id) + WithoutId(b, id)
  {
    if a == [] {
      assert a + b == b;
    } else {
      assert (a + b)[1..] == a[1..] + b;
      WithoutIdConcat(a[1..], b, id);
    }
  }

  /** Removing an id that is not listed leaves the list as it is. */
  lemma {:induction false} WithoutAbsentId(list: seq<SD.SavedDesign>, id: string)
    requires forall i :: 0 <= i < |list| ==> list[i].id != id
    ensures WithoutId(list, id) == list
  {
    if list != [] {
      WithoutAbsentId(list[1..], id);
      assert list == [list[0]] + list[1..];
    }
  }

  /**
   * Removal is not optimistic: a signed-in `remove` marks the id in flight
   * with the list untouched, and the list shrinks only if the delete succeeds.
   */
  lemma RemoveNotOptimistic(s: State, userId: Option<string>, id: string, outcome: Outcome<Thrown>)
    requires SignedIn(userId)
    ensures RemoveStart(s, userId, id).0.savedDesigns == s.savedDesigns
    ensures RemoveStart(s, userId, id).0.removingId == Some(id)
    ensures outcome.Failed? ==> Remove(s, userId, id, outcome).savedDesigns == s.savedDesigns
    ensures Remove(s, userId, id, outcome).removingId.None?
  {
  }
}

=== FILE: seed.dfy ===
/**
 * The demo-data seeding script (`scripts/seed-firestore.js`): reading the
 * `--designs=N` and `--garments=N` options, and writing N generated
 * documents in batched commits of at most 400.
 *
 * The generated ids, the fake names and descriptions, the clock and the
 * shuffles behind the random category picks are parameters.
 */
module Seed {

  import opened Core
  import opened Product
  import opened Text
  import opened Json
  import CM = CatalogMapping
  import CW = CatalogWrites

  const GarmentSizes: seq<string> := ["XS", "S", "M", "L", "XL", "XXL"]
  const GarmentColors: seq<string> :=
    ["White", "Black", "Navy", "Heather Grey", "Olive", "Sand", "Burgundy", "Forest Green"]
  const ReleaseYears: seq<int> := [2023, 2024]
  const BatchSize := 400

  // ---------------------------------------------------------------------------
  // Options.
  // ---------------------------------------------------------------------------

  /**
   * `parsePositiveInt`: after trimming, only a non-empty run of ASCII digits
   * whose value is at least 1 is accepted; signs, decimals and zero are not.
   */
  function ParsePositiveInt(value: string): (r: Option<nat>)
    ensures r.Some? <==> Trim(value) != [] && AllDigits(Trim(value)) && DecimalValue(Trim(value)) >= 1
    ensures r.Some? ==> r.value >= 1 && r.value == DecimalValue(Trim(value))
  {
    var trimmed := Trim(value);
    if trimmed == [] || !AllDigits(trimmed) then None
    else
      ParseIntOfDigits(trimmed);
      var n := ParseInt(trimmed).value;
      if n >= 1 then Some(n) else None
  }

  /** Every whole number from 1 up, written in decimal, is accepted as itself. */
  lemma ParsePositiveIntRoundTrip(n: nat)
    requires n >= 1
    ensures ParsePositiveInt(NatToDecimal(n)) == Some(n)
  {
    var s := NatToDecimal(n);
    DigitsKeepTrim(s);
    DecimalRoundTrip(n);
  }

  const DesignsFlag := "--designs="
  const GarmentsFlag := "--garments="

  /** Why the options were refused: none given, or the named one is not a whole number >= 1. */
  datatype ArgsError = NoOption | BadDesigns(raw: string) | BadGarments(raw: string)

  datatype Counts = Counts(designs: nat, garments: nat)

  predicate IsDesignsOption(a: string) {
    StartsWith(a, DesignsFlag)
  }

  predicate IsGarmentsOption(a: string) {
    StartsWith(a, GarmentsFlag)
  }

  /** The two prefixes differ in their third character, so no argument is both. */
  lemma OptionsExclusive(a: string)
    ensures !(IsDesignsOption(a) && IsGarmentsOption(a))
  {
    if IsDesignsOption(a) {
      assert a[2] == a[..|DesignsFlag|][2] == DesignsFlag[2];
      assert DesignsFlag[2] != GarmentsFlag[2];
    }
  }

  /** The text after an option's `=`. */
  function RawValue(a: string): string {
    if IsDesignsOption(a) then a[|DesignsFlag|..]
    else if IsGarmentsOption(a) then a[|GarmentsFlag|..]
    else a
  }

  /** An argument that is not an option, or an option with an acceptable count. */
  predicate ValidArg(a: string) {
    (IsDesignsOption(a) || IsGarmentsOption(a)) ==> ParsePositiveInt(RawValue(a)).Some?
  }

  predicate HasOption(args: seq<string>) {
    exists i :: 0 <= i < |args| && (IsDesignsOption(args[i]) || IsGarmentsOption(args[i]))
  }

  /** The refusal for an invalid argument. */
  function ArgError(a: string): ArgsError {
    if IsDesignsOption(a) then BadDesigns(RawValue(a)) else BadGarments(RawValue(a))
  }

  predicate AllValid(args: seq<string>) {
    forall i :: 0 <= i < |args| ==> ValidArg(args[i])
  }

  /** The loop over the arguments: each option overwrites its count, and the first bad one stops the run. */
  function ReadArgs(args: seq<string>, acc: Counts): Result<Counts, ArgsError> {
    if args == [] then Ok(acc)
    else
      var a := args[0];
      if IsDesignsOption(a) then
        match ParsePositiveInt(RawValue(a))
        case None => Err(BadDesigns(RawValue(a)))
        case Some(n) => ReadArgs(args[1..], acc.(designs := n))
      else if IsGarmentsOption(a) then
        match ParsePositiveInt(RawValue(a))
        case None => Err(BadGarments(RawValue(a)))
        case Some(n) => ReadArgs(args[1..], acc.(garments := n))
      else ReadArgs(args[1..], acc)
  }

  /** `parseArgs`: with no option at all the run stops; otherwise the arguments are read in order from zero counts. */
  function ParseArgs(args: seq<string>): (r: Result<Counts, ArgsError>)
    ensures !HasOption(args) ==> r == Err(NoOption)
    ensures HasOption(args) ==> r == ReadArgs(args, Counts(0, 0))
  {
    if !HasOption(args) then Err(NoOption) else ReadArgs(args, Counts(0, 0))
  }

  /** The count a `--designs=` argument gives, if it is one and is acceptable. */
  function DesignsCount(a: string): Option<nat> {
    if IsDesignsOption(a) then ParsePositiveInt(RawValue(a)) else None
  }

  /** The count a `--garments=` argument gives, if it is one and is acceptable. */
  function GarmentsCount(a: string): Option<nat> {
    if IsGarmentsOption(a) then ParsePositiveInt(RawValue(a)) else None
  }

  /** The count given by the last argument `count` reads a count from, or `default` when there is none. */
  function LastCount(args: seq<string>, count: string -> Option<nat>, default: nat): nat {
    if args == [] then default
    else
      match count(args[|args| - 1])
      case Some(n) => n
      case None => LastCount(args[..|args| - 1], count, default)
  }

  /** The last-count reading can be unrolled from the front, as the loop does. */
  lemma {:induction false} LastCountFront(args: seq<string>, count: string -> Option<nat>, default: nat)
    requires args != []
    ensures LastCount(args, count, default) == LastCount(args[1..], count, count(args[0]).GetOr(default))
  {
    if |args| > 1 {
      var init := args[..|args| - 1];
      assert init[0] == args[0];
      assert init[1..] == args[1..][..|args| - 2];
      assert args[1..][|args| - 2] == args[|args| - 1];
      LastCountFront(init, count, default);
    }
  }

  /** The counts after the loop has read argument `a`, when `a` is valid. */
  function Step(a: string, acc: Counts): Counts
    requires ValidArg(a)
  {
    if IsDesignsOption(a) then acc.(designs := ParsePositiveInt(RawValue(a)).value)
    else if IsGarmentsOption(a) then acc.(garments := ParsePositiveInt(RawValue(a)).value)
    else acc
  }

  /** A valid first argument is consumed by one step of the loop. */
  lemma ReadArgsStep(args: seq<string>, acc: Counts)
    requires args != [] && ValidArg(args[0])
    ensures ReadArgs(args, acc) == ReadArgs(args[1..], Step(args[0], acc))
  {
  }

  /** An invalid first argument ends the loop with its error. */
  lemma ReadArgsStop(args: seq<string>, acc: Counts)
    requires args != [] && !ValidArg(args[0])
    ensures ReadArgs(args, acc) == Err(ArgError(args[0]))
  {
  }

  /** With every argument valid, each count is the one the last of its options gives. */
  lemma {:induction false} ReadArgsLastWins(args: seq<string>, acc: Counts)
    requires AllValid(args)
    ensures ReadArgs(args, acc) ==
      Ok(Counts(LastCount(args, DesignsCount, acc.designs), LastCount(args, GarmentsCount, acc.garments)))
  {
    if args != [] {
      var a := args[0];
      var rest := args[1..];
      assert AllValid(rest) by {
        forall i | 0 <= i < |rest| ensures ValidArg(rest[i]) {
          assert rest[i] == args[i + 1];
        }
      }
      var next := Step(a, acc);
      assert ReadArgs(args, acc) == ReadArgs(rest, next) by {
        assert ValidArg(a);
        ReadArgsStep(args, acc);
      }
      ReadArgsLastWins(rest, next);
      assert LastCount(args, DesignsCount, acc.designs) == LastCount(rest, DesignsCount, next.designs) by {
        OptionsExclusive(a);
        LastCountFront(args, DesignsCount, acc.designs);
      }
      assert LastCount(args, GarmentsCount, acc.garments) == LastCount(rest, GarmentsCount, next.garments) by {
        OptionsExclusive(a);
        LastCountFront(args, GarmentsCount, acc.garments);
      }
    }
  }

  /** From argument `k` on, the run stops at the first invalid argument, naming its option and raw value. */
  lemma {:induction false} ReadArgsFirstErrorFrom(args: seq<string>, k: nat, acc: Counts, i: nat)
    requires k <= i < |args| && !ValidArg(args[i])
    requires forall j :: k <= j < i ==> ValidArg(args[j])
    ensures ReadArgs(args[k..], acc) == Err(ArgError(args[i]))
    decreases i - k
  {
    var suffix := args[k..];
    assert suffix[0] == args[k];
    if k == i {
      ReadArgsStop(suffix, acc);
    } else {
      ReadArgsStep(suffix, acc);
      assert suffix[1..] == args[k + 1..];
      ReadArgsFirstErrorFrom(args, k + 1, Step(args[k], acc), i);
    }
  }

  /** With an option present, a run with an invalid argument is refused because of the first one. */
  lemma ParseArgsFirstError(args: seq<string>, i: nat)
    requires HasOption(args) && i < |args| && !ValidArg(args[i])
    requires forall j :: 0 <= j < i ==> ValidArg(args[j])
    ensures ParseArgs(args) == Err(ArgError(args[i]))
  {
    assert args[0..] == args;
    ReadArgsFirstErrorFrom(args, 0, Counts(0, 0), i);
  }

  /** Accepted options: later ones override earlier ones, and an unmentioned kind stays at zero. */
  lemma ParseArgsLastWins(args: seq<string>)
    requires HasOption(args) && AllValid(args)
    ensures ParseArgs(args) == Ok(Counts(LastCount(args, DesignsCount, 0), LastCount(args, GarmentsCount, 0)))
  {
    ReadArgsLastWins(args, Counts(0, 0));
  }

  // ---------------------------------------------------------------------------
  // Generated documents.
  // ---------------------------------------------------------------------------

  /** The random and clock-dependent parts of one generated document. */
  datatype Fake = Fake(name: string, author: string, description: string, created: string, shuffled: seq<string>)

  /** `pickCategories`: the first `count` categories of a shuffle of all of them. */
  function PickCategories(shuffled: seq<string>, count: nat): (r: seq<string>)
    requires multiset(shuffled) == multiset(AllowedCategories)
    ensures |r| == if count < |AllowedCategories| then count else |AllowedCategories|
    ensures AllCategories(r)
  {
    assert |shuffled| == |multiset(shuffled)| == |AllowedCategories|;
    var r := if count < |shuffled| then shuffled[..count] else shuffled;
    assert forall i :: 0 <= i < |r| ==> r[i] in multiset(shuffled);
    r
  }

  /** The `k`-th seeded design: one category for even `k`, two for odd. */
  function SeedDesign(k: nat, id: string, fake: Fake): (d: Design)
    requires multiset(fake.shuffled) == multiset(AllowedCategories)
    ensures d.id == id && |d.categories| == 1 + k % 2 && AllCategories(d.categories)
    ensures d.sku == Some("DES-" + ToUpper(Take(id, 8)))
    ensures d.tags == Some(["seed", "demo"]) && d.active == Some(true)
  {
    Design(
      id, fake.name, fake.author, fake.created,
      PickCategories(fake.shuffled, 1 + k % 2),
      "https://picsum.photos/seed/design-" + id + "/400/400",
      fake.description, "$0.00", Some(Finite(0.0)),
      Some("DES-" + ToUpper(Take(id, 8))),
      Some(["seed", "demo"]),
      Some(true))
  }

  /** The `k`-th seeded garment: sizes, colour and release year cycle with `k`. */
  function SeedGarment(k: nat, id: string, fake: Fake): (g: Garment)
    requires multiset(fake.shuffled) == multiset(AllowedCategories)
    ensures g.id == id && |g.categories| == 1 + k % 2 && AllCategories(g.categories)
    ensures g.sizes == GarmentSizes[..3 + k % 3] && g.color == GarmentColors[k % 8]
    ensures g.releaseYear == Finite(if k % 2 == 0 then 2023.0 else 2024.0)
    ensures g.sku == "GAR-" + ToUpper(Take(id, 8)) && g.active == Some(true)
  {
    Garment(
      id, fake.name,
      GarmentSizes[..3 + k % 3],
      GarmentColors[k % |GarmentColors|],
      "GAR-" + ToUpper(Take(id, 8)),
      fake.author,
      Finite(ReleaseYears[k % 2] as real),
      PickCategories(fake.shuffled, 1 + k % 2),
      "https://picsum.photos/seed/garment-" + id + "/400/400",
      Some(fake.description),
      Some("$24.99"),
      Some(true))
  }

  /** A seeded design, stored, reads back through the catalog exactly as generated. */
  lemma SeededDesignReadsBack(k: nat, id: string, fake: Fake, readerNow: string, iso: int -> string)
    requires multiset(fake.shuffled) == multiset(AllowedCategories)
    ensures CM.CastsHold(CW.EncodeCreatedDesign(SeedDesign(k, id, fake)))
    ensures CM.MapDesignDoc(id, CW.EncodeCreatedDesign(SeedDesign(k, id, fake)), readerNow, iso) == Ok(SeedDesign(k, id, fake))
  {
    CW.EncodedDesignReadsBack(SeedDesign(k, id, fake), readerNow, iso);
  }

  /** A seeded garment, stored, reads back through the catalog exactly as generated. */
  lemma SeededGarmentReadsBack(k: nat, id: string, fake: Fake, readerYear: int)
    requires multiset(fake.shuffled) == multiset(AllowedCategories)
    ensures CM.CastsHold(CW.EncodeCreatedGarment(SeedGarment(k, id, fake)))
    ensures CM.MapGarmentDoc(id, CW.EncodeCreatedGarment(SeedGarment(k, id, fake)), readerYear) == SeedGarment(k, id, fake)
  {
    CW.EncodedGarmentReadsBack(SeedGarment(k, id, fake), readerYear);
  }

  predicate ValidFakes(fakes: seq<Fake>) {
    forall k :: 0 <= k < |fakes| ==> multiset(fakes[k].shuffled) == multiset(AllowedCategories)
  }

  // ---------------------------------------------------------------------------
  // Batched writes.
  // ---------------------------------------------------------------------------

  /** The documents of consecutive batches, in commit order. */
  function Flatten<T>(batches: seq<seq<T>>): seq<T> {
    if batches == [] then [] else Flatten(batches[..|batches| - 1]) + batches[|batches| - 1]
  }

  lemma FlattenAppend<T>(batches: seq<seq<T>>, b: seq<T>)
    ensures Flatten(batches + [b]) == Flatten(batches) + b
  {
    assert (batches + [b])[..|batches|] == batches;
  }

  /** Batches as the script commits them: full batches of 400, then the remainder. */
  predicate WellBatched<T>(batches: seq<seq<T>>) {
    && (forall b :: 0 <= b < |batches| ==> 0 < |batches[b]| <= BatchSize)
    && (forall b :: 0 <= b < |batches| - 1 ==> |batches[b]| == BatchSize)
  }

  /** The position of the first document of batch `b`. */
  function First(b: nat): nat {
    BatchSize * b
  }

  /** `q` full-or-last batches of 400 cover exactly `n` documents only when `q` is `n / 400` rounded up. */
  lemma BatchCount(n: nat, q: nat)
    requires n <= First(q) && (n == 0 ==> q == 0) && (n > 0 ==> First(q) < n + BatchSize)
    ensures q == (n + BatchSize - 1) / BatchSize
  {
  }

  /** The inner loop: one batch, the `chunk` documents from `off` on. */
  method NextBatch<T>(docs: seq<T>, off: nat, chunk: nat) returns (batch: seq<T>)
    requires off + chunk <= |docs|
    ensures batch == docs[off..off + chunk]
  {
    batch := [];
    var i := 0;
    while i < chunk
      invariant 0 <= i <= chunk
      invariant batch == docs[off..off + i]
    {
      batch := batch + [docs[off + i]];
      i := i + 1;
    }
  }

  /** Batch `b` holds the documents from `First(b)` on, in order. */
  ghost predicate Placed<T>(docs: seq<T>, batches: seq<seq<T>>) {
    forall b :: 0 <= b < |batches| ==>
      First(b) + |batches[b]| <= |docs| && batches[b] == docs[First(b)..First(b) + |batches[b]|]
  }

  /** Every batch so far is full. */
  ghost predicate AllFull<T>(batches: seq<seq<T>>) {
    forall b :: 0 <= b < |batches| ==> |batches[b]| == BatchSize
  }

  /** Appending the next slice of documents keeps every batch in its place. */
  lemma PlacedAppend<T>(docs: seq<T>, batches: seq<seq<T>>, batch: seq<T>)
    requires Placed(docs, batches)
    requires First(|batches|) + |batch| <= |docs| && batch == docs[First(|batches|)..First(|batches|) + |batch|]
    ensures Placed(docs, batches + [batch])
  {
    var next := batches + [batch];
    forall b | 0 <= b < |next|
      ensures First(b) + |next[b]| <= |docs| && next[b] == docs[First(b)..First(b) + |next[b]|]
    {
      if b < |batches| {
        assert next[b] == batches[b];
      }
    }
  }

  /** Appending a non-empty batch of at most 400 after full ones keeps the batching well formed. */
  lemma WellBatchedAppend<T>(batches: seq<seq<T>>, batch: seq<T>)
    requires AllFull(batches) && 0 < |batch| <= BatchSize
    ensures WellBatched(batches + [batch])
    ensures |batch| == BatchSize ==> AllFull(batches + [batch])
  {
    var next := batches + [batch];
    assert forall b :: 0 <= b < |batches| ==> next[b] == batches[b];
  }

  /** One turn of the outer loop: the next slice of at most 400 documents joins the batches. */
  lemma BatchStep<T>(docs: seq<T>, batches: seq<seq<T>>, batch: seq<T>)
    requires First(|batches|) < |docs|
    requires Flatten(batches) == docs[..First(|batches|)] && AllFull(batches) && Placed(docs, batches)
    requires |batch| == (if BatchSize < |docs| - First(|batches|) then BatchSize else |docs| - First(|batches|))
    requires batch == docs[First(|batches|)..First(|batches|) + |batch|]
    ensures var next := batches + [batch];
      && WellBatched(next) && Placed(docs, next)
      && (First(|next|) <= |docs| ==> Flatten(next) == docs[..First(|next|)] && AllFull(next))
      && (First(|next|) > |docs| ==> Flatten(next) == docs && First(|next|) < |docs| + BatchSize)
  {
    var off := First(|batches|);
    assert Flatten(batches + [batch]) == docs[..off + |batch|] by {
      FlattenAppend(batches, batch);
      assert docs[..off + |batch|] == docs[..off] + batch;
    }
    PlacedAppend(docs, batches, batch);
    WellBatchedAppend(batches, batch);
    assert First(|batches| + 1) == off + BatchSize;
  }

  /**
   * The loop shared by `seedDesigns` and `seedGarments`: an outer loop over
   * offsets stepping by 400 and an inner loop over one batch. Batch `b`
   * holds documents `400 * b` onwards, in order.
   */
  method Batches<T>(docs: seq<T>) returns (batches: seq<seq<T>>)
    ensures Flatten(batches) == docs
    ensures WellBatched(batches)
    ensures |batches| == (|docs| + BatchSize - 1) / BatchSize
    ensures forall b :: 0 <= b < |batches| ==>
      First(b) + |batches[b]| <= |docs| && batches[b] == docs[First(b)..First(b) + |batches[b]|]
  {
    var count := |docs|;
    batches := [];
    var off := 0;
    while off < count
      invariant off == First(|batches|)
      invariant off <= count ==> Flatten(batches) == docs[..off] && AllFull(batches)
      invariant off > count ==> Flatten(batches) == docs && off < count + BatchSize
      invariant count == 0 ==> |batches| == 0
      invariant WellBatched(batches)
      invariant Placed(docs, batches)
    {
      var chunk := if BatchSize < count - off then BatchSize else count - off;
      var batch := NextBatch(docs, off, chunk);
      BatchStep(docs, batches, batch);
      batches := batches + [batch];
      off := off + BatchSize;
    }
    BatchCount(count, |batches|);
  }

  /** `seedDesigns`: the committed batches, and the ids in the order they were written. */
  method SeedDesigns(count: nat, ids: seq<string>, fakes: seq<Fake>) returns (batches: seq<seq<Design>>, written: seq<string>)
    requires |ids| == count && |fakes| == count && ValidFakes(fakes)
    ensures written == ids
    ensures WellBatched(batches) && |batches| == (count + BatchSize - 1) / BatchSize
    ensures |Flatten(batches)| == count
    ensures forall k :: 0 <= k < count ==> Flatten(batches)[k] == SeedDesign(k, ids[k], fakes[k])
  {
    var docs := seq(count, k requires 0 <= k < count => SeedDesign(k, ids[k], fakes[k]));
    batches := Batches(docs);
    written := seq(count, k requires 0 <= k < count => docs[k].id);
  }

  /** `seedGarments`: the committed batches, and the ids in the order they were written. */
  method SeedGarments(count: nat, ids: seq<string>, fakes: seq<Fake>) returns (batches: seq<seq<Garment>>, written: seq<string>)
    requires |ids| == count && |fakes| == count && ValidFakes(fakes)
    ensures written == ids
    ensures WellBatched(batches) && |batches| == (count + BatchSize - 1) / BatchSize
    ensures |Flatten(batches)| == count
    ensures forall k :: 0 <= k < count ==> Flatten(batches)[k] == SeedGarment(k, ids[k], fakes[k])
  {
    var docs := seq(count, k requires 0 <= k < count => SeedGarment(k, ids[k], fakes[k]));
    batches := Batches(docs);
    written := seq(count, k requires 0 <= k < count => docs[k].id);
  }

  // ---------------------------------------------------------------------------
  // Committing the batches.
  // ---------------------------------------------------------------------------

  /** Flattening from the front: the first batch, then the rest. */
  lemma {:induction false} FlattenCons<T>(b: seq<T>, bs: seq<seq<T>>)
    ensures Flatten([b] + bs) == b + Flatten(bs)
    decreases |bs|
  {
    if bs == [] {
      assert [b] + bs == [] + [b];
      FlattenAppend([], b);
    } else {
      var init := bs[..|bs| - 1];
      var last := bs[|bs| - 1];
      assert bs == init + [last];
      assert [b] + bs == ([b] + init) + [last];
      FlattenAppend([b] + init, last);
      FlattenCons(b, init);
      FlattenAppend(init, last);
    }
  }

  /** The first batch whose commit fails, or the number of batches when none does. */
  function FirstFailure(commits: seq<bool>): (j: nat)
    ensures j <= |commits|
    ensures forall k :: 0 <= k < j ==> commits[k]
    ensures j < |commits| ==> !commits[j]
  {
    if commits == [] || !commits[0] then 0 else 1 + FirstFailure(commits[1..])
  }

  /** What the commit loop leaves behind: the stored documents, and whether the seeding rejected. */
  datatype Committed<T> = Committed(stored: seq<T>, rejected: bool)

  /**
   * The `await batch.commit()` of each loop turn, given each commit's outcome:
   * batches are committed in order, a failed commit stores nothing of its
   * batch and ends the loop, and the seeding function then rejects, which
   * makes the script exit with status 1. Earlier batches stay stored.
   */
  function CommitBatches<T>(batches: seq<seq<T>>, commits: seq<bool>): (r: Committed<T>)
    requires |commits| == |batches|
    ensures r.rejected <==> FirstFailure(commits) < |commits|
    ensures r.stored == Flatten(batches[..FirstFailure(commits)])
    decreases |batches|
  {
    if batches == [] then Committed([], false)
    else if !commits[0] then
      assert batches[..0] == [];
      Committed([], true)
    else
      var rest := CommitBatches(batches[1..], commits[1..]);
      var j := FirstFailure(commits[1..]);
      assert batches[..1 + j] == [batches[0]] + batches[1..][..j];
      FlattenCons(batches[0], batches[1..][..j]);
      Committed(batches[0] + rest.stored, rest.rejected)
  }

  /** When every commit succeeds, every document is stored and the seeding resolves. */
  lemma CommitAllSucceed<T>(batches: seq<seq<T>>, commits: seq<bool>)
    requires |commits| == |batches| && forall k :: 0 <= k < |commits| ==> commits[k]
    ensures CommitBatches(batches, commits) == Committed(Flatten(batches), false)
  {
    assert batches[..|batches|] == batches;
  }

  /** The documents of the first `j` batches start the documents of all of them. */
  lemma {:induction false} FlattenPrefix<T>(bs: seq<seq<T>>, j: nat)
    requires j <= |bs|
    ensures |Flatten(bs[..j])| <= |Flatten(bs)|
    ensures Flatten(bs)[..|Flatten(bs[..j])|] == Flatten(bs[..j])
    decreases |bs| - j
  {
    if j == |bs| {
      assert bs[..j] == bs;
    } else {
      var init := bs[..|bs| - 1];
      assert bs == init + [bs[|bs| - 1]];
      FlattenAppend(init, bs[|bs| - 1]);
      assert bs[..j] == init[..j];
      FlattenPrefix(init, j);
    }
  }

  /** `j` full batches hold `400 * j` documents. */
  lemma {:induction false} FullPrefixLength<T>(bs: seq<seq<T>>, j: nat)
    requires j <= |bs| && forall k :: 0 <= k < j ==> |bs[k]| == BatchSize
    ensures |Flatten(bs[..j])| == BatchSize * j
  {
    if j > 0 {
      assert bs[..j] == bs[..j - 1] + [bs[j - 1]];
      FlattenAppend(bs[..j - 1], bs[j - 1]);
      FullPrefixLength(bs, j - 1);
    }
  }

  /**
   * A failed commit of batch `j` leaves exactly the first `400 * j` documents
   * stored, in order, and rejects.
   */
  lemma CommitStoresPrefix<T>(batches: seq<seq<T>>, commits: seq<bool>)
    requires |commits| == |batches| && WellBatched(batches)
    requires FirstFailure(commits) < |commits|
    ensures var r := CommitBatches(batches, commits);
      && r.rejected
      && |r.stored| == BatchSize * FirstFailure(commits)
      && |r.stored| <= |Flatten(batches)|
      && r.stored == Flatten(batches)[..|r.stored|]
  {
    var j := FirstFailure(commits);
    FullPrefixLength(batches, j);
    FlattenPrefix(batches, j);
  }
}

=== FILE: text.dfy ===
/**
 * The JavaScript string operations the application relies on, over `string`
 * (a sequence of Unicode scalar values): `trim`, regex splits on separator
 * runs, ASCII case mapping, `slice`, decimal digits and `parseInt`.
 */
module Text {

  import opened Core

  /**
   * ECMAScript white space and line terminators: exactly the characters
   * `String.prototype.trim` removes and the regex class `\s` matches.
   */
  predicate IsSpace(c: char) {
    c in SpaceChars
  }

  const SpaceChars: set<char> := {
    '\t', '\n', '\U{000B}', '\U{000C}', '\r', ' ', '\U{00A0}', '\U{1680}',
    '\U{2000}', '\U{2001}', '\U{2002}', '\U{2003}', '\U{2004}', '\U{2005}',
    '\U{2006}', '\U{2007}', '\U{2008}', '\U{2009}', '\U{200A}',
    '\U{2028}', '\U{2029}', '\U{202F}', '\U{205F}', '\U{3000}', '\U{FEFF}'
  }

  predicate AllSpace(s: string) {
    forall i :: 0 <= i < |s| ==> IsSpace(s[i])
  }

  /** How many white-space characters `s` starts with. */
  function LeadingSpaces(s: string): (k: nat)
    ensures k <= |s|
    ensures forall i :: 0 <= i < k ==> IsSpace(s[i])
    ensures k == |s| || !IsSpace(s[k])
  {
    if s == [] || !IsSpace(s[0]) then 0 else 1 + LeadingSpaces(s[1..])
  }

  /** How many white-space characters `s` ends with. */
  function TrailingSpaces(s: string): (k: nat)
    ensures k <= |s|
    ensures forall i :: |s| - k <= i < |s| ==> IsSpace(s[i])
    ensures k == |s| || !IsSpace(s[|s| - k - 1])
  {
    if s == [] || !IsSpace(s[|s| - 1]) then 0 else 1 + TrailingSpaces(s[..|s| - 1])
  }

  /** JavaScript's `s.trimStart()`. */
  function TrimStart(s: string): string {
    s[LeadingSpaces(s)..]
  }

  /** JavaScript's `s.trimEnd()`. */
  function TrimEnd(s: string): string {
    s[..|s| - TrailingSpaces(s)]
  }

  /** JavaScript's `s.trim()`. */
  function Trim(s: string): (r: string)
    ensures |r| <= |s|
    ensures r == [] || (!IsSpace(r[0]) && !IsSpace(r[|r| - 1]))
    ensures r == [] <==> AllSpace(s)
    ensures s == [] || (!IsSpace(s[0]) && !IsSpace(s[|s| - 1])) ==> r == s
  {
    TrimEnds(s);
    TrimEnd(TrimStart(s))
  }

  /** The facts `Trim` states, proved once about the two counts. */
  lemma TrimEnds(s: string)
    ensures var r := TrimEnd(TrimStart(s));
      && (r == [] || (!IsSpace(r[0]) && !IsSpace(r[|r| - 1])))
      && (r == [] <==> AllSpace(s))
      && (s == [] || (!IsSpace(s[0]) && !IsSpace(s[|s| - 1])) ==> r == s)
  {
    var a := LeadingSpaces(s);
    var t := s[a..];
    var b := TrailingSpaces(t);
    var r := t[..|t| - b];
    if r != [] {
      assert r[0] == s[a];
      assert r[|r| - 1] == t[|t| - b - 1];
    }
  }

  /** Trimming drops only white space: `s` is the trimmed text with white space on either side. */
  lemma TrimSplit(s: string) returns (lead: string, trail: string)
    ensures s == lead + (Trim(s) + trail)
    ensures AllSpace(lead) && AllSpace(trail)
  {
    var a := LeadingSpaces(s);
    var t := s[a..];
    var n := |t| - TrailingSpaces(t);
    lead, trail := s[..a], t[n..];
    SpaceEnds(s);
    SpaceEnds(t);
    SplitThree(s, a, n);
  }

  /** The white space the two counts measure, as slices. */
  lemma SpaceEnds(s: string)
    ensures AllSpace(s[..LeadingSpaces(s)])
    ensures AllSpace(s[|s| - TrailingSpaces(s)..])
  {
    var k := |s| - TrailingSpaces(s);
    forall i | 0 <= i < |s| - k ensures IsSpace(s[k..][i]) {
      assert s[k..][i] == s[k + i];
    }
  }

  lemma SplitThree(s: string, a: nat, n: nat)
    requires a + n <= |s|
    ensures s == s[..a] + (s[a..][..n] + s[a..][n..])
  {
    assert s[a..] == s[a..][..n] + s[a..][n..];
    assert s == s[..a] + s[a..];
  }

  /** Leading white space before a non-space start is all `trimStart` removes. */
  lemma TrimStartSpaces(p: string, x: string)
    requires AllSpace(p) && (x == [] || !IsSpace(x[0]))
    ensures TrimStart(p + x) == x
  {
    var s := p + x;
    var k := LeadingSpaces(s);
    assert s[|p|..] == x;
  }

  /** Trailing white space after a non-space end is all `trimEnd` removes. */
  lemma TrimEndSpaces(x: string, q: string)
    requires AllSpace(q) && (x == [] || !IsSpace(x[|x| - 1]))
    ensures TrimEnd(x + q) == x
  {
    var s := x + q;
    var k := TrailingSpaces(s);
    assert s[..|x|] == x;
  }

  /** A string with non-space ends is its own `trim`. */
  lemma TrimKeeps(s: string)
    requires s != [] && !IsSpace(s[0]) && !IsSpace(s[|s| - 1])
    ensures Trim(s) == s
  {
  }

  /** `trim` of white space, a body with non-space ends, and white space, is the body. */
  lemma TrimAround(p: string, body: string, q: string)
    requires AllSpace(p) && AllSpace(q)
    requires body != [] && !IsSpace(body[0]) && !IsSpace(body[|body| - 1])
    ensures Trim(p + body + q) == body
  {
    assert p + body + q == p + (body + q);
    assert (body + q)[0] == body[0];
    TrimStartSpaces(p, body + q);
    TrimEndSpaces(body, q);
  }

  /** JavaScript truthiness of a string after `trim()`: blank means empty once trimmed. */
  predicate IsBlank(s: string) {
    Trim(s) == []
  }

  /** `toLowerCase` restricted to ASCII letters. */
  function LowerChar(c: char): char {
    if 'A' <= c <= 'Z' then (c as int + 32) as char else c
  }

  /** `toUpperCase` restricted to ASCII letters. */
  function UpperChar(c: char): char {
    if 'a' <= c <= 'z' then (c as int - 32) as char else c
  }

  /** `toLowerCase`: each character lower-cased in place, so no ASCII capital remains. */
  function ToLower(s: string): (r: string)
    ensures |r| == |s|
    ensures forall i :: 0 <= i < |s| ==> r[i] == LowerChar(s[i])
    ensures forall i :: 0 <= i < |r| ==> !('A' <= r[i] <= 'Z')
  {
    seq(|s|, i requires 0 <= i < |s| => LowerChar(s[i]))
  }

  /** `toUpperCase`: each character upper-cased in place, so no ASCII small letter remains. */
  function ToUpper(s: string): (r: string)
    ensures |r| == |s|
    ensures forall i :: 0 <= i < |s| ==> r[i] == UpperChar(s[i])
    ensures forall i :: 0 <= i < |r| ==> !('a' <= r[i] <= 'z')
  {
    seq(|s|, i requires 0 <= i < |s| => UpperChar(s[i]))
  }

  /** Upper-casing twice is upper-casing once. */
  lemma ToUpperIdempotent(s: string)
    ensures ToUpper(ToUpper(s)) == ToUpper(s)
  {
  }

  /** Upper-casing keeps the letters: lower-casing afterwards is the same as lower-casing directly. */
  lemma LowerOfUpper(s: string)
    ensures ToLower(ToUpper(s)) == ToLower(s)
  {
  }

  /** Lower-casing works piecewise. */
  lemma ToLowerConcat(a: string, b: string)
    ensures ToLower(a + b) == ToLower(a) + ToLower(b)
  {
  }

  /** Upper-casing works piecewise, so a prefix of the result is the upper-cased prefix. */
  lemma ToUpperConcat(a: string, b: string)
    ensures ToUpper(a + b) == ToUpper(a) + ToUpper(b)
  {
  }

  /** JavaScript's `s.slice(0, n)`. */
  function Take(s: string, n: nat): (r: string)
    ensures |r| == if n < |s| then n else |s|
    ensures r == s[..|r|]
  {
    if n < |s| then s[..n] else s
  }

  /** JavaScript's `s.startsWith(p)`. */
  predicate StartsWith(s: string, p: string) {
    |p| <= |s| && s[..|p|] == p
  }

  /** The number of occurrences of `c` in `s`. */
  function Count(c: char, s: string): nat {
    multiset(s)[c]
  }

  /** Occurrences of `c` in a concatenation add up. */
  lemma CountConcat(c: char, a: string, b: string)
    ensures Count(c, a + b) == Count(c, a) + Count(c, b)
  {
    assert multiset(a + b) == multiset(a) + multiset(b);
  }

  /** The prefix of `s` before its first `c` (all of `s` when there is none): `s.split(c)[0]`. */
  function Before(s: string, c: char): (r: string)
    ensures |r| <= |s| && r == s[..|r|]
    ensures c !in r
    ensures |r| == |s| || s[|r|] == c
  {
    if s == [] || s[0] == c then [] else [s[0]] + Before(s[1..], c)
  }

  // ---------------------------------------------------------------------------
  // Splitting on runs of separators: `s.split(/[sep]+/).filter(Boolean)`.
  // ---------------------------------------------------------------------------

  /** A piece of a split: non-empty and free of separators. */
  predicate IsToken(t: string, sep: char -> bool) {
    t != [] && forall j :: 0 <= j < |t| ==> !sep(t[j])
  }

  /** The longest prefix of `s` holding no separator. */
  function Word(s: string, sep: char -> bool): (w: string)
    ensures |w| <= |s| && w == s[..|w|]
    ensures forall j :: 0 <= j < |w| ==> !sep(w[j])
    ensures |w| == |s| || sep(s[|w|])
  {
    if s == [] || sep(s[0]) then [] else [s[0]] + Word(s[1..], sep)
  }

  /** The non-empty maximal separator-free pieces of `s`, in order. */
  function Tokens(s: string, sep: char -> bool): (ts: seq<string>)
    ensures forall i :: 0 <= i < |ts| ==> IsToken(ts[i], sep)
    decreases |s|
  {
    if s == [] then []
    else if sep(s[0]) then Tokens(s[1..], sep)
    else
      var w := Word(s, sep);
      [w] + Tokens(s[|w|..], sep)
  }

  /** A single token splits to itself. */
  lemma TokensOfToken(t: string, sep: char -> bool)
    requires IsToken(t, sep)
    ensures Tokens(t, sep) == [t]
  {
    var w := Word(t, sep);
    assert |w| == |t|;
    assert w == t;
    assert t[|w|..] == [];
    assert Tokens([], sep) == [];
  }

  /** A separator ends the first word. */
  lemma {:induction false} WordStopsAtSeparator(a: string, c: char, b: string, sep: char -> bool)
    requires sep(c)
    ensures Word(a + [c] + b, sep) == Word(a, sep)
  {
    if a == [] {
    } else if sep(a[0]) {
      assert (a + [c] + b)[0] == a[0];
    } else {
      assert (a + [c] + b)[1..] == a[1..] + [c] + b;
      WordStopsAtSeparator(a[1..], c, b, sep);
    }
  }

  /** Splitting distributes over a separator: the two sides split independently. */
  lemma {:induction false} TokensAtSeparator(a: string, c: char, b: string, sep: char -> bool)
    requires sep(c)
    ensures Tokens(a + [c] + b, sep) == Tokens(a, sep) + Tokens(b, sep)
    decreases |a|
  {
    var s := a + [c] + b;
    if a == [] {
      assert s[1..] == b;
    } else if sep(a[0]) {
      assert s[1..] == a[1..] + [c] + b;
      TokensAtSeparator(a[1..], c, b, sep);
    } else {
      var w := Word(a, sep);
      WordStopsAtSeparator(a, c, b, sep);
      assert s[|w|..] == a[|w|..] + [c] + b;
      TokensAtSeparator(a[|w|..], c, b, sep);
    }
  }

  /** Leading separators produce no token. */
  lemma {:induction false} TokensSkipLeading(p: string, s: string, sep: char -> bool)
    requires forall i :: 0 <= i < |p| ==> sep(p[i])
    ensures Tokens(p + s, sep) == Tokens(s, sep)
  {
    if p != [] {
      assert (p + s)[1..] == p[1..] + s;
      TokensSkipLeading(p[1..], s, sep);
    } else {
      assert p + s == s;
    }
  }

  /** Trailing separators produce no token. */
  lemma TokensSkipTrailing(s: string, q: string, sep: char -> bool)
    requires forall i :: 0 <= i < |q| ==> sep(q[i])
    ensures Tokens(s + q, sep) == Tokens(s, sep)
  {
    if q == [] {
      assert s + q == s;
    } else {
      assert s + q == s + [q[0]] + q[1..];
      TokensAtSeparator(s, q[0], q[1..], sep);
      TokensSkipLeading(q[1..], [], sep);
      assert q[1..] + [] == q[1..];
    }
  }

  /** The separators of a JavaScript `/[\s,]+/` split. */
  predicate IsSpaceOrComma(c: char) {
    IsSpace(c) || c == ','
  }

  /** `trim()` before `split(/[\s,]+/).filter(Boolean)` changes nothing: white space already separates. */
  lemma TokensIgnoreTrim(s: string)
    ensures Tokens(Trim(s), IsSpaceOrComma) == Tokens(s, IsSpaceOrComma)
  {
    var r := Trim(s);
    var lead, trail := TrimSplit(s);
    SpacesSeparate(lead);
    SpacesSeparate(trail);
    TokensSkipLeading(lead, r + trail, IsSpaceOrComma);
    TokensSkipTrailing(r, trail, IsSpaceOrComma);
  }

  /** The same for a split on white space alone: `trim()` only removes separators. */
  lemma TokensIgnoreTrimSpace(s: string)
    ensures Tokens(Trim(s), IsSpace) == Tokens(s, IsSpace)
  {
    var r := Trim(s);
    var lead, trail := TrimSplit(s);
    TokensSkipLeading(lead, r + trail, IsSpace);
    TokensSkipTrailing(r, trail, IsSpace);
  }

  lemma SpacesSeparate(p: string)
    requires AllSpace(p)
    ensures forall i :: 0 <= i < |p| ==> IsSpaceOrComma(p[i])
  {
  }

  /** The pieces joined with `glue` in between: JavaScript's `ts.join(glue)`. */
  function Join(ts: seq<string>, glue: string): string {
    if ts == [] then []
    else if |ts| == 1 then ts[0]
    else ts[0] + glue + Join(ts[1..], glue)
  }

  /** JavaScript's `s.replace(/\s+/g, rep)`: every maximal white-space run becomes `rep`. */
  function ReplaceSpaceRuns(s: string, rep: string): string
    decreases |s|
  {
    if s == [] then []
    else if IsSpace(s[0]) then rep + ReplaceSpaceRuns(TrimStart(s), rep)
    else [s[0]] + ReplaceSpaceRuns(s[1..], rep)
  }

  lemma {:induction false} ReplaceSpaceRunsSkipsWord(w: string, x: string, rep: string)
    requires forall j :: 0 <= j < |w| ==> !IsSpace(w[j])
    ensures ReplaceSpaceRuns(w + x, rep) == w + ReplaceSpaceRuns(x, rep)
  {
    if w != [] {
      assert (w + x)[1..] == w[1..] + x;
      ReplaceSpaceRunsSkipsWord(w[1..], x, rep);
    } else {
      assert w + x == x;
    }
  }

  /**
   * On a trimmed string, replacing every white-space run by `rep` is the same
   * as splitting on white space and joining the words with `rep`.
   */
  lemma {:induction false} ReplaceSpaceRunsIsJoin(t: string, rep: string)
    requires t == [] || (!IsSpace(t[0]) && !IsSpace(t[|t| - 1]))
    ensures ReplaceSpaceRuns(t, rep) == Join(Tokens(t, IsSpace), rep)
    decreases |t|
  {
    if t != [] {
      var w := Word(t, IsSpace);
      var rest := t[|w|..];
      assert t == w + rest;
      ReplaceSpaceRunsSkipsWord(w, rest, rep);
      if rest == [] {
        assert Tokens(t, IsSpace) == [w] + Tokens([], IsSpace);
      } else {
        var t' := TrimStart(rest);
        assert rest == rest[..|rest| - |t'|] + t';
        assert t'[|t'| - 1] == t[|t| - 1];
        TokensSkipLeading(rest[..|rest| - |t'|], t', IsSpace);
        ReplaceSpaceRunsIsJoin(t', rep);
        var ts := Tokens(t', IsSpace);
        assert ts == [Word(t', IsSpace)] + Tokens(t'[|Word(t', IsSpace)|..], IsSpace);
        assert Tokens(t, IsSpace) == [w] + ts;
        assert Join([w] + ts, rep) == w + rep + Join(ts, rep);
      }
    }
  }

  // ---------------------------------------------------------------------------
  // Decimal digits.
  // ---------------------------------------------------------------------------

  /** The regex class `\d`: ASCII digits only. */
  predicate IsDigit(c: char) {
    '0' <= c <= '9'
  }

  predicate AllDigits(s: string) {
    forall i :: 0 <= i < |s| ==> IsDigit(s[i])
  }

  function DigitValue(c: char): nat
    requires IsDigit(c)
  {
    c as int - '0' as int
  }

  function DigitChar(d: nat): (c: char)
    requires d < 10
    ensures IsDigit(c) && DigitValue(c) == d
  {
    ('0' as int + d) as char
  }

  /** The value of a string of decimal digits; leading zeros count for nothing. */
  function DecimalValue(s: string): nat
    requires AllDigits(s)
  {
    if s == [] then 0 else DecimalValue(s[..|s| - 1]) * 10 + DigitValue(s[|s| - 1])
  }

  /** The shortest decimal rendering of `n`, as JavaScript prints a whole number. */
  function NatToDecimal(n: nat): (s: string)
    ensures s != [] && AllDigits(s)
  {
    if n < 10 then [DigitChar(n)] else NatToDecimal(n / 10) + [DigitChar(n % 10)]
  }

  /** JavaScript's rendering of a whole number in a template literal. */
  function IntToDecimal(i: int): string {
    if i < 0 then "-" + NatToDecimal(-i) else NatToDecimal(i)
  }

  /** Reading back a rendered number gives the number. */
  lemma {:induction false} DecimalRoundTrip(n: nat)
    ensures DecimalValue(NatToDecimal(n)) == n
  {
    if n >= 10 {
      var s := NatToDecimal(n);
      assert s[..|s| - 1] == NatToDecimal(n / 10);
      DecimalRoundTrip(n / 10);
    }
  }

  /** The longest prefix of `s` made of digits. */
  function LeadingDigits(s: string): (d: string)
    ensures |d| <= |s| && d == s[..|d|] && AllDigits(d)
    ensures |d| == |s| || !IsDigit(s[|d|])
  {
    if s == [] || !IsDigit(s[0]) then [] else [s[0]] + LeadingDigits(s[1..])
  }

  /**
   * JavaScript's `parseInt(s, 10)`: leading white space is skipped, an optional
   * sign is read, then as many digits as follow; `None` stands for `NaN`, the
   * result when no digit follows.
   */
  function ParseInt(s: string): (r: Option<int>)
  {
    var t := TrimStart(s);
    if t != [] && t[0] == '-' then
      match ParseDigits(t[1..])
      case Some(n) => Some(-(n as int))
      case None => None
    else if t != [] && t[0] == '+' then ParseDigits(t[1..])
    else ParseDigits(t)
  }

  /** The value of the digits `s` starts with, if it starts with any. */
  function ParseDigits(s: string): Option<int> {
    var d := LeadingDigits(s);
    if d == [] then None else Some(DecimalValue(d))
  }

  /** A string of digits is its own digit prefix. */
  lemma LeadingDigitsOfDigits(s: string)
    requires AllDigits(s)
    ensures LeadingDigits(s) == s
  {
  }

  /** A string that does not start with white space is its own `trimStart`. */
  lemma TrimStartKeeps(s: string)
    requires s == [] || !IsSpace(s[0])
    ensures TrimStart(s) == s
  {
    assert LeadingSpaces(s) == 0;
  }

  /** A string of digits has no white space to trim. */
  lemma DigitsKeepTrim(s: string)
    requires s != [] && AllDigits(s)
    ensures Trim(s) == s
  {
    assert IsDigit(s[0]) && IsDigit(s[|s| - 1]);
    TrimKeeps(s);
  }

  /** `parseInt` reads a non-empty string of digits as its decimal value. */
  lemma ParseIntOfDigits(s: string)
    requires s != [] && AllDigits(s)
    ensures ParseInt(s) == Some(DecimalValue(s) as int)
  {
    assert TrimStart(s) == s by {
      assert !IsSpace(s[0]);
      TrimStartKeeps(s);
    }
    assert s[0] != '-' && s[0] != '+';
    assert ParseDigits(s) == Some(DecimalValue(s)) by {
      LeadingDigitsOfDigits(s);
    }
  }

  lemma MinusNotSpace()
    ensures !IsSpace('-')
  {
  }

  /** `parseInt` reads a minus sign and a non-empty string of digits as the negated value. */
  lemma ParseIntOfNegative(d: string)
    requires d != [] && AllDigits(d)
    ensures ParseInt("-" + d) == Some(-(DecimalValue(d) as int))
  {
    LeadingDigitsOfDigits(d);
    ParseIntOfSign("-" + d, d);
  }

  lemma ParseIntOfSign(s: string, d: string)
    requires s != [] && s[0] == '-' && s[1..] == d && d != [] && LeadingDigits(d) == d
    ensures ParseInt(s) == Some(-(DecimalValue(d) as int))
  {
    MinusNotSpace();
    TrimStartKeeps(s);
  }

  /** `parseInt` reads back what a whole number renders to, negative ones included. */
  lemma ParseIntRoundTrip(i: int)
    ensures ParseInt(IntToDecimal(i)) == Some(i)
  {
    var digits := NatToDecimal(if i < 0 then -i else i);
    DecimalRoundTrip(if i < 0 then -i else i);
    if i < 0 {
      ParseIntOfNegative(digits);
    } else {
      ParseIntOfDigits(digits);
    }
  }

  /** The length JavaScript reports: UTF-16 code units, two for a character outside the Basic Multilingual Plane. */
  function Utf16Length(s: string): nat {
    if s == [] then 0 else (if s[0] as int > 0xFFFF then 2 else 1) + Utf16Length(s[1..])
  }
}

=== FILE: theme_colors.dfy ===
/**
 * Theme variables to colour strings (`lib/themeColors.ts`): every
 * `--color-…` variable becomes a flat token name mapped to an `rgb(…)`
 * string, for the chosen light or dark set.
 */
module ThemeColors {

  import opened Core
  import opened Text
  import opened Json

  /** A theme's variables as `Object.entries` lists them: distinct keys in insertion order. */
  type Vars = seq<(string, Value)>

  const ColorPrefix := "--color-"

  /** An entry the conversion keeps: a `--color-` key with a string value. */
  predicate Qualifies(entry: (string, Value)) {
    StartsWith(entry.0, ColorPrefix) && entry.1.Str?
  }

  /** `s.replace(/c/g, "")`. */
  function DeleteAll(s: string, c: char): (r: string)
    ensures |r| <= |s|
  {
    if s == [] then []
    else if s[0] == c then DeleteAll(s[1..], c)
    else [s[0]] + DeleteAll(s[1..], c)
  }

  lemma {:induction false} DeleteAllRemoves(s: string, c: char)
    ensures c !in DeleteAll(s, c)
  {
    if s != [] {
      DeleteAllRemoves(s[1..], c);
    }
  }

  lemma {:induction false} DeleteAllConcat(a: string, b: string, c: char)
    ensures DeleteAll(a + b, c) == DeleteAll(a, c) + DeleteAll(b, c)
  {
    if a == [] {
      assert a + b == b;
    } else {
      assert (a + b)[1..] == a[1..] + b;
      DeleteAllConcat(a[1..], b, c);
    }
  }

  lemma {:induction false} DeleteAllAbsent(s: string, c: char)
    requires c !in s
    ensures DeleteAll(s, c) == s
  {
    if s != [] {
      assert s[0] in s;
      DeleteAllAbsent(s[1..], c);
    }
  }

  /** The output name: the key without its `--color-` prefix and without any further `-`. */
  function ColorName(key: string): (name: string)
    requires StartsWith(key, ColorPrefix)
    ensures '-' !in name
  {
    DeleteAllRemoves(key[|ColorPrefix|..], '-');
    DeleteAll(key[|ColorPrefix|..], '-')
  }

  /** The key shape of the documented example: `--color-` then a dash-free word, `-`, and a dash-free shade, named by the two run together. */
  lemma ColorNameOfShade(word: string, shade: string)
    requires '-' !in word && '-' !in shade
    ensures StartsWith(ColorPrefix + word + "-" + shade, ColorPrefix)
    ensures ColorName(ColorPrefix + word + "-" + shade) == word + shade
  {
    var key := ColorPrefix + word + "-" + shade;
    assert key == ColorPrefix + (word + "-" + shade);
    assert key[..|ColorPrefix|] == ColorPrefix;
    assert key[|ColorPrefix|..] == word + "-" + shade;
    DeleteAllConcat(word + "-", shade, '-');
    DeleteAllConcat(word, "-", '-');
    DeleteAllAbsent(word, '-');
    DeleteAllAbsent(shade, '-');
    assert DeleteAll("-", '-') == [];
  }

  /** The output value: the trimmed value with each white-space run replaced by `, `, inside `rgb(…)`. */
  function Rgb(value: string): string {
    "rgb(" + ReplaceSpaceRuns(Trim(value), ", ") + ")"
  }

  /** The value's white-space separated components, joined by `, `: `'18 18 18'` reads `rgb(18, 18, 18)`. */
  lemma RgbJoinsComponents(value: string)
    ensures Rgb(value) == "rgb(" + Join(Tokens(value, IsSpace), ", ") + ")"
  {
    var t := Trim(value);
    ReplaceSpaceRunsIsJoin(t, ", ");
    TokensIgnoreTrimSpace(value);
  }

  /** The name an entry writes, if it qualifies. */
  function EntryName(entry: (string, Value)): (r: Option<string>)
    ensures r.Some? <==> Qualifies(entry)
  {
    if Qualifies(entry) then Some(ColorName(entry.0)) else None
  }

  /** Entry `i` qualifies and no later entry writes the same name. */
  predicate LastWriter(vars: Vars, i: int) {
    0 <= i < |vars| && Qualifies(vars[i]) &&
    forall j :: i < j < |vars| ==> EntryName(vars[j]) != EntryName(vars[i])
  }

  /**
   * `varsToRgbMap`: the entries are written in order, so every qualifying
   * entry has its name in the result, nothing else does, and a name that
   * several keys collapse to holds the value of the last of them.
   */
  function VarsToRgbMap(vars: Vars): (out: map<string, string>)
    ensures NamesWritten(vars, out)
    ensures LastWins(vars, out)
  {
    if vars == [] then map[]
    else
      var n := |vars| - 1;
      var before := VarsToRgbMap(vars[..n]);
      assert forall i :: 0 <= i < n ==> vars[..n][i] == vars[i];
      var out := if Qualifies(vars[n]) then before[ColorName(vars[n].0) := Rgb(vars[n].1.s)] else before;
      NamesWrittenStep(vars, before, out);
      LastWinsStep(vars, before, out);
      out
  }

  /** The result's names are exactly those some qualifying entry writes. */
  ghost predicate NamesWritten(vars: Vars, out: map<string, string>) {
    forall name :: name in out <==> exists i :: 0 <= i < |vars| && EntryName(vars[i]) == Some(name)
  }

  /** Every name holds the value of the last entry that writes it. */
  ghost predicate LastWins(vars: Vars, out: map<string, string>) {
    forall i :: LastWriter(vars, i) ==> ColorName(vars[i].0) in out && out[ColorName(vars[i].0)] == Rgb(vars[i].1.s)
  }

  lemma LastWinsStep(vars: Vars, before: map<string, string>, out: map<string, string>)
    requires vars != [] && LastWins(vars[..|vars| - 1], before)
    requires var last := vars[|vars| - 1];
      out == if Qualifies(last) then before[ColorName(last.0) := Rgb(last.1.s)] else before
    ensures LastWins(vars, out)
  {
    var n := |vars| - 1;
    forall i | LastWriter(vars, i)
      ensures ColorName(vars[i].0) in out && out[ColorName(vars[i].0)] == Rgb(vars[i].1.s)
    {
      if i < n {
        assert forall j :: 0 <= j < n ==> vars[..n][j] == vars[j];
        assert LastWriter(vars[..n], i);
        assert EntryName(vars[n]) != EntryName(vars[i]);
      }
    }
  }

  lemma NamesWrittenStep(vars: Vars, before: map<string, string>, out: map<string, string>)
    requires vars != [] && NamesWritten(vars[..|vars| - 1], before)
    requires var last := vars[|vars| - 1];
      out == if Qualifies(last) then before[ColorName(last.0) := Rgb(last.1.s)] else before
    ensures NamesWritten(vars, out)
  {
    var n := |vars| - 1;
    forall name
      ensures name in out <==> exists i :: 0 <= i < |vars| && EntryName(vars[i]) == Some(name)
    {
      if name in out {
        if EntryName(vars[n]) != Some(name) {
          assert name in before;
          var i :| 0 <= i < n && EntryName(vars[..n][i]) == Some(name);
          assert vars[..n][i] == vars[i];
        }
      }
      if exists i :: 0 <= i < |vars| && EntryName(vars[i]) == Some(name) {
        var i :| 0 <= i < |vars| && EntryName(vars[i]) == Some(name);
        if i < n {
          assert vars[..n][i] == vars[i];
          assert name in before;
        }
      }
    }
  }

  /** The value shape of the documented example: three components split by single spaces read `rgb(r, g, b)`. */
  lemma RgbOfTriple(r: string, g: string, b: string)
    requires IsToken(r, IsSpace) && IsToken(g, IsSpace) && IsToken(b, IsSpace)
    ensures Rgb(r + " " + g + " " + b) == "rgb(" + (r + ", " + g + ", " + b) + ")"
  {
    var v := r + " " + g + " " + b;
    RgbJoinsComponents(v);
    assert IsSpace(' ');
    TokensOfTriple(r, g, b, ' ');
    JoinTriple(r, g, b, ", ");
  }

  /** Three tokens with one separator between each split back into the three. */
  lemma TokensOfTriple(r: string, g: string, b: string, sp: char)
    requires IsToken(r, IsSpace) && IsToken(g, IsSpace) && IsToken(b, IsSpace) && IsSpace(sp)
    ensures Tokens(r + [sp] + g + [sp] + b, IsSpace) == [r, g, b]
  {
    var gb := g + [sp] + b;
    assert Tokens(gb, IsSpace) == [g, b] by {
      TokensAtSeparator(g, sp, b, IsSpace);
      TokensOfToken(g, IsSpace);
      TokensOfToken(b, IsSpace);
    }
    assert Tokens(r, IsSpace) == [r] by {
      TokensOfToken(r, IsSpace);
    }
    assert r + [sp] + g + [sp] + b == r + [sp] + gb;
    TokensAtSeparator(r, sp, gb, IsSpace);
  }

  lemma JoinTriple(r: string, g: string, b: string, glue: string)
    ensures Join([r, g, b], glue) == r + glue + g + glue + b
  {
    assert [r, g, b][1..] == [g, b];
    assert [g, b][1..] == [b];
    assert Join([b], glue) == b;
    assert Join([g, b], glue) == g + glue + b;
    assert Join([r, g, b], glue) == r + glue + (g + glue + b);
  }

  /** A single qualifying variable gives a one-entry map. */
  lemma OneVariable(key: string, value: string)
    requires StartsWith(key, ColorPrefix)
    ensures VarsToRgbMap([(key, Str(value))]) == map[ColorName(key) := Rgb(value)]
  {
    assert [(key, Str(value))][..0] == [];
  }

  /** The example's variable name, `--color-background-0`, is a colour named `background0`. */
  lemma ExampleName()
    ensures StartsWith(ColorPrefix + "background-0", ColorPrefix)
    ensures ColorName(ColorPrefix + "background-0") == "background0"
  {
    var word, shade := "background", "0";
    assert '-' !in word && '-' !in shade;
    ColorNameOfShade(word, shade);
    assert ColorPrefix + word + "-" + shade == ColorPrefix + "background-0";
    assert word + shade == "background0";
  }

  /** The example's value, `18 18 18`, becomes `rgb(18, 18, 18)`. */
  lemma ExampleRgb()
    ensures Rgb("18 18 18") == "rgb(18, 18, 18)"
  {
    var c := "18";
    assert IsToken(c, IsSpace);
    RgbOfTriple(c, c, c);
    assert c + " " + c + " " + c == "18 18 18";
    assert "rgb(" + (c + ", " + c + ", " + c) + ")" == "rgb(18, 18, 18)";
  }

  /** The documented example: `'--color-background-0': '18 18 18'` gives `background0 ↦ 'rgb(18, 18, 18)'`. */
  lemma DocumentedExample()
    ensures VarsToRgbMap([(ColorPrefix + "background-0", Str("18 18 18"))]) == map["background0" := "rgb(18, 18, 18)"]
  {
    ExampleName();
    ExampleRgb();
    OneVariable(ColorPrefix + "background-0", "18 18 18");
  }

  datatype ThemeMode = Light | Dark

  /** Both themes' variables. */
  datatype VarsMap = VarsMap(light: Vars, dark: Vars)

  /** `getThemeColors`: the conversion of the current mode's variables, and only of those. */
  function GetThemeColors(mode: ThemeMode, varsMap: VarsMap): (colors: map<string, string>)
    ensures var selected := if mode == Light then varsMap.light else varsMap.dark;
      NamesWritten(selected, colors) && LastWins(selected, colors)
  {
    VarsToRgbMap(if mode == Light then varsMap.light else varsMap.dark)
  }

  /** The other mode's variables never show: changing them changes nothing. */
  lemma OtherModeIgnored(light: Vars, dark1: Vars, dark2: Vars, light1: Vars, light2: Vars, dark: Vars)
    ensures GetThemeColors(Light, VarsMap(light, dark1)) == GetThemeColors(Light, VarsMap(light, dark2))
    ensures GetThemeColors(Dark, VarsMap(light1, dark)) == GetThemeColors(Dark, VarsMap(light2, dark))
  {
  }
}

=== FILE: theme_context.dfy ===
/**
 * The persisted light/dark theme (`contexts/ThemeContext.tsx`): the
 * provider's state, its one storage read on mount, `setTheme`, and the
 * `useTheme` guard. Device storage is a map from key to string; the read is
 * a remote outcome that settles later, possibly after the provider unmounted.
 */
module ThemeContext {

  import opened Core
  import TC = ThemeColors

  /** Where the chosen mode is kept. */
  const StorageKey := "@expo-specs/theme"

  type Storage = map<string, string>

  /** How a mode is written to storage. */
  function ModeName(mode: TC.ThemeMode): string {
    match mode
    case Light => "light"
    case Dark => "dark"
  }

  /** `stored === "dark" || stored === "light"`: only the two names are read as modes. */
  function ParseMode(stored: Option<string>): (r: Option<TC.ThemeMode>)
    ensures r.Some? <==> stored == Some("dark") || stored == Some("light")
  {
    match stored
    case Some("dark") => Some(TC.Dark)
    case Some("light") => Some(TC.Light)
    case _ => None
  }

  /** Writing a mode and reading it back gives the mode; and whatever is read as a mode was written as that mode. */
  lemma ParseModeName(mode: TC.ThemeMode, stored: Option<string>)
    ensures ParseMode(Some(ModeName(mode))) == Some(mode)
    ensures ParseMode(stored).Some? ==> stored == Some(ModeName(ParseMode(stored).value))
  {
  }

  /** The provider's state; `cancelled` is set by the effect's cleanup when it unmounts. */
  datatype Provider = Provider(theme: TC.ThemeMode, isLoading: bool, cancelled: bool)

  /** Before the read settles: dark, and loading. */
  const InitialProvider := Provider(TC.Dark, true, false)

  /** The effect's cleanup. */
  function Unmount(p: Provider): (r: Provider)
    ensures r.cancelled && r.theme == p.theme && r.isLoading == p.isLoading
  {
    p.(cancelled := true)
  }

  /**
   * The storage read settling: a stored mode is adopted, anything else
   * (nothing stored, another string, a failed read) leaves the theme; loading
   * ends either way. After cleanup the provider is left untouched.
   */
  function LoadSettle(p: Provider, read: Result<Option<string>, Thrown>): (r: Provider)
    ensures p.cancelled ==> r == p
    ensures !p.cancelled ==> !r.isLoading
    ensures !p.cancelled && read.Ok? && ParseMode(read.value).Some? ==> r.theme == ParseMode(read.value).value
    ensures !(read.Ok? && ParseMode(read.value).Some?) ==> r.theme == p.theme
    ensures r.cancelled == p.cancelled
  {
    if p.cancelled then p
    else
      var theme := if read.Ok? && ParseMode(read.value).Some? then ParseMode(read.value).value else p.theme;
      p.(theme := theme, isLoading := false)
  }

  /** `getItem`: the stored string under a key, if any. */
  function GetItem(storage: Storage, key: string): Option<string> {
    if key in storage then Some(storage[key]) else None
  }

  /** `setTheme`: the theme changes at once and the mode is written under the storage key, nothing else. */
  function SetTheme(p: Provider, storage: Storage, mode: TC.ThemeMode): (r: (Provider, Storage))
    ensures r.0 == p.(theme := mode)
    ensures r.1.Keys == storage.Keys + {StorageKey}
    ensures r.1[StorageKey] == ModeName(mode)
    ensures forall k :: k in storage && k != StorageKey ==> r.1[k] == storage[k]
  {
    (p.(theme := mode), storage[StorageKey := ModeName(mode)])
  }

  /** The round trip: after `setTheme(m)`, a freshly mounted provider loads `m` and stops loading. */
  lemma ThemePersists(p: Provider, storage: Storage, mode: TC.ThemeMode)
    ensures var (_, saved) := SetTheme(p, storage, mode);
      LoadSettle(InitialProvider, Ok(GetItem(saved, StorageKey))) == Provider(mode, false, false)
  {
    ParseModeName(mode, None);
  }

  /** A fresh provider with nothing usable stored stays dark. */
  lemma DefaultIsDark(storage: Storage)
    requires StorageKey !in storage || (storage[StorageKey] != "light" && storage[StorageKey] != "dark")
    ensures LoadSettle(InitialProvider, Ok(GetItem(storage, StorageKey))).theme == TC.Dark
  {
  }

  /** What `useTheme` hands out. */
  datatype ThemeValue = ThemeValue(theme: TC.ThemeMode, isLoading: bool)

  function ValueOf(p: Provider): ThemeValue {
    ThemeValue(p.theme, p.isLoading)
  }

  const OutsideProvider := "useTheme must be used within ThemeProvider"

  /** `useTheme`: the nearest provider's value, or a thrown error when there is none. */
  function UseTheme(context: Option<ThemeValue>): (r: Result<ThemeValue, Thrown>)
    ensures context.None? <==> r.Err?
    ensures r.Err? ==> r.error == ErrorInstance(OutsideProvider)
    ensures context.Some? ==> r == Ok(context.value)
  {
    match context
    case None => Err(ErrorInstance(OutsideProvider))
    case Some(v) => Ok(v)
  }
}
